=== FILE: README.md ===
# node-marshal in Dafny

A model of the core of node-marshal, a Ruby 2.x C extension. It turns the parse tree (the `NODE` graph) of a compiled Ruby file into a Ruby Hash that `Marshal` can save. It loads such a Hash back into nodes, and it ships a BASE85-like text encoding for the saved bytes.

The model covers these parts:

- **The dump.** `count_num_of_nodes` walks the tree from the root. It gives every node, symbol, literal, local ID table, argument record and global entry it meets an ordinal in the leaf tables of a `NODEInfo`. `dump_node_value` and `dump_nodes` then pack every node into a variable-length record. Each of the three slots becomes a location code plus a big-endian word of at most eight bytes (`value_to_bin`). `NODEInfo_toHash` and `m_nodedump_to_hash` put the tables and the packed records into the dump Hash.
- **The load.** `m_nodedump_from_memory` checks the signatures (`check_hash_magic`) and turns the ordinals of every table back into interpreter objects (`resolve_*_ords`). `load_nodes_from_str` then reads the records and relocates every slot.
- **Renaming.** `m_nodedump_change_symbol` renames a symbol in a dump Hash.
- **The node layout.** The flags word of `node220.h` is modelled: the node type in bits 8..14 and the line number from bit 15 on. So is the table of child kinds that `nodeinfo.c` builds and checks.
- **The text codec.** This is the modified BASE85 encoder and decoder of `base85r.c`, with its 85-symbol alphabet, tail-length prefix and line breaks.

Machine words are `nat`s below 2^64 and C `int`s are `int`s in the 32-bit range. Every 32-bit wrap-around is written out. The interpreter memory the walk reads is a `Heap` of maps from addresses to nodes, argument records, local ID tables and global entries. The Ruby values of the dump are an `RValue` datatype, and the Hash is a map from key names to them.

The headline result is `RoundTrip.DumpLoads`. Take a tree that dumps without error and load the dump in an interpreter with the same platform, version and symbols. The load then succeeds with one node per entry of the node table. Every slot of every loaded node stands for the word the dumped node held there:

- a node pointer becomes the loaded node with the same ordinal;
- a symbol becomes the same ID;
- a literal becomes the same object;
- a local ID table keeps its IDs;
- an argument record keeps its fields;
- a raw word stays the same word.

The flags keep the node type and line.

Modules and files:

| file | module | what it holds |
|---|---|---|
| wrappers.dfy | `Wrappers`, `Words` | `Option`/`Result`, bytes and words, C strings |
| kinds.dfy | `Kinds` | child kinds `NT_*`, location codes `VL_*`, the magic signature |
| layout.dfy | `NodeLayout` | a node and its flags word |
| values.dfy | `Values` | Ruby values and the dump Hash |
| leaftable.dfy | `LeafTables` | `LeafTableInfo` |
| shapes.dfy | `Shapes` | the child-kind table of `nodeinfo.c` |
| walker.dfy | `Walker` | `count_num_of_nodes` |
| sound.dfy | `WalkSound` | what the walk's tables hold |
| vlq.dfy | `Vlq` | `value_to_bin` / `bin_to_value` |
| records.dfy | `Records` | the packed record of one node |
| dumper.dfy | `Dumper` | `dump_node_value`, `dump_nodes`, `NODEInfo_toHash`, `m_nodedump_to_hash` |
| loader.dfy | `Loader` | `resolve_*_ords`, `load_nodes_from_str`, `check_hash_magic`, `m_nodedump_from_memory` |
| rename.dfy | `Rename` | `m_nodedump_change_symbol` |
| roundtrip.dfy | `RoundTrip` | dump then load |
| sharing.dfy | `NodeCount` | the node count stored in the dump |
| base85.dfy | `Base85` | `base85r.c` |

## Model

| member | source | states |
|---|---|---|
| NodeLayout.FlagFields | ext/node-marshal/node220.h:275-286 | A flags word built from a line, a type and low bits gives back exactly that line (`>> NODE_LSHIFT`), that type (`nd_type`) and those low bits |
| NodeLayout.FlagsOf | ext/node-marshal/node220.h:275-286 | Every 64-bit flags word splits into a line below the line limit, a type and low bits, and is rebuilt from them |
| NodeLayout.SetTypeThenNdType | ext/node-marshal/node220.h:278-280 | After `nd_set_type(n, t)`, `nd_type` reads `t` masked to 7 bits, which is `t` itself for every node type; the line and the low 8 bits are untouched |
| NodeLayout.SetLineThenNdLine | ext/node-marshal/node220.h:282-286 | After `nd_set_line(n, l)`, `nd_line` reads back `l`; the type and the low 15 bits are untouched |
| NodeLayout.ToInt32 | ext/node-marshal/nodedump.c:1110 | The `(int)` cast of a word agrees with it modulo 2^32 and keeps every value that fits an `int` |
| NodeLayout.SaveRestoreFlags | ext/node-marshal/nodedump.c:441 | Dumping flags as `flags >> 5` and loading them as `(saved << 5) \| T_NODE` keeps the node type and the line number, clears the five low bits and marks the object `T_NODE`; the saved value fits 59 bits |
| NodeLayout.RestoreThenSave | ext/node-marshal/nodedump.c:1228 | Restoring a saved flags value and saving it again gives the same value |
| Vlq.ValueToBin | ext/node-marshal/nodedump.c:125-139 | `value_to_bin` writes at most 8 bytes whose big-endian value is the word, none for 0 and never a leading zero byte |
| Vlq.BinToValue | ext/node-marshal/nodedump.c:150-157 | Up to eight bytes, `bin_to_value` gives their exact big-endian value; a longer run keeps only its last eight bytes |
| Vlq.ValueToBinRoundTrip | ext/node-marshal/nodedump.c:125-157 | `bin_to_value(value_to_bin(v))` is `v` for every word; the encoding has at most 8 bytes, is empty exactly for 0, and has no leading zero byte |
| Vlq.ValueToBinMinimal | ext/node-marshal/nodedump.c:125-139 | `value_to_bin` writes the fewest bytes that hold the value |
| Vlq.BinToValueExact | ext/node-marshal/nodedump.c:150-157 | Up to eight bytes, `bin_to_value` is the exact big-endian value of the bytes |
| Records.Tag | ext/node-marshal/nodedump.c:324 | The type byte of a slot keeps the location code in the low nibble and the value length in the high one |
| Records.Write | ext/node-marshal/nodedump.c:436-473 | The packed chunk of a valid record reads back to the same record |
| Records.Decode | ext/node-marshal/nodedump.c:1163-1176 | Reading one record consumes at least its four type bytes, never more than the string holds, and yields field lengths the type bytes allow |
| Records.DecodeAllEncodeAll | ext/node-marshal/nodedump.c:436-476 | Reading `n` records from the concatenated records of `n` nodes, whatever follows, gives back the same records in the same order |
| Records.DecodeAllPastEnd | ext/node-marshal/nodedump.c:1158-1176 | Asking for more records than were written, with fewer than four bytes after them, fails |
| LeafTables.Empty | ext/node-marshal/nodedump.c:177-182 | A fresh table is valid and has no entries |
| LeafTables.AddEntry | ext/node-marshal/nodedump.c:191-205 | A new key gets the next ordinal and its value is stored; a key already present keeps its ordinal and the table is unchanged; the table only grows |
| LeafTables.KeyToID | ext/node-marshal/nodedump.c:238-242 | The ordinal of a key, or -1 exactly when the key is absent |
| LeafTables.LeavesTable | ext/node-marshal/nodedump.c:224-236 | The value array in ordinal order: the value of every key sits at that key's ordinal |
| LeafTables.AddThenLookup | ext/node-marshal/nodedump.c:191-242 | After adding a key, looking it up gives the ordinal the add returned, and the leaves array holds its value there |
| LeafTables.AddEntryLeaves | ext/node-marshal/nodedump.c:191-236 | Adding a new key appends its value to the leaves array; adding a present key changes nothing; older keys keep their ordinals |
| Shapes.CheckRow | ext/node-marshal/nodeinfo.c:167-444 | A row of the child-kind table fails `check_nodes_child_info` exactly when its node type has an expected marking of node children and the row marks a different set of slots |
| Shapes.CheckAll | ext/node-marshal/nodeinfo.c:447-466 | The rows pass exactly when each row passes; a failure is the failure of some row |
| Shapes.InitNodesTable | ext/node-marshal/nodeinfo.c:447-466 | `init_nodes_table` fails exactly when some row fails `check_nodes_child_info`, with that row's error, and otherwise yields three entries per node type |
| Shapes.InitNodesTableContents | ext/node-marshal/nodeinfo.c:447-466 | `init_nodes_table` succeeds exactly when every row passes its check; then the table has three entries per node type, and each type's entries are the kinds of the last row for that type, `NT_UNKNOWN` when there is none |
| Shapes.ShippedTable | ext/node-marshal/nodeinfo.c:20-160 | Every row of the shipped child-kind table passes `check_nodes_child_info` and uses only kinds the walker accepts in that slot |
| Shapes.ShippedNodesTable | ext/node-marshal/nodeinfo.c:447-466 | The shipped rows build the 256-entry table without error, each type's three entries are the kinds of its row, and every described type has kinds the walker accepts |
| Walker.EmptyInfo | ext/node-marshal/nodedump.c:258-268 | `NODEInfo_init` gives valid, empty tables |
| Walker.AddID | ext/node-marshal/nodedump.c:214-222 | Adding an ID leaves it in the symbol table under the returned ordinal; the table only grows |
| Walker.IsValueInHeap | ext/node-marshal/nodedump.c:74-89 | `is_value_in_heap` rejects `Qfalse`, `Qtrue`, `Qnil` and `Qundef` and accepts only 4-aligned words; every 8-aligned word above `Qnil` is a heap object |
| Walker.AddValue | ext/node-marshal/nodedump.c:580-587 | A heap object is entered into the literal table; an immediate value (nil, true, false, undef, a Fixnum, a flonum) leaves the table unchanged |
| Walker.Walk | ext/node-marshal/nodedump.c:593-762 | `count_num_of_nodes`: a null child counts 0 and changes nothing; a non-node raises "is not a node"; an `NT_UNKNOWN` kind raises "Cannot interpret node"; on success the visited node is in the node table (under the next ordinal if new), every table only grows, and the count is at least 1 and bounds the growth of the node table |
| Walker.WalkKinds | ext/node-marshal/nodedump.c:608-635 | The slot kinds the walk uses are the table row for the node's type, except: `NODE_OP_ASGN2` under `NODE_OP_ASGN2` has three IDs; `NODE_ARGS_AUX` has `NT_NULL` for each null slot, otherwise an ID, a Fixnum under `NODE_ARGS_AUX` parents or else an ID, and a node; `NODE_ATTRASGN` with receiver 1 has `NT_LONG` first |
| Walker.WalkSlot | ext/node-marshal/nodedump.c:645-758 | One child slot: a kind the slot does not accept raises (the "1!", "2!" and "Invalid child node 3" branches); a node in an `NT_VALUE` slot raises "NODE instead of VALUE"; `NT_LONG` and `NT_NULL` change nothing; an ID lands in the symbol table |
| Walker.WalkList | ext/node-marshal/nodedump.c:715-719 | Walking the five node pointers of an argument record puts every non-null one in the node table; the tables only grow |
| WalkSound.WalkKeepsSound | ext/node-marshal/nodedump.c:593-762 | Every table the walk fills describes the heap: symbols map IDs to their names, literals are the objects themselves, ID tables and argument records hold the heap's contents, and global entries point to their symbol's ordinal |
| WalkSound.EmptySound | ext/node-marshal/nodedump.c:258-268 | The empty tables describe any heap |
| Dumper.TableOf | ext/node-marshal/nodedump.c:287-308 | `NODEInfo_getTableByID` has a table exactly for symbols, literals, local ID tables, argument records, global entries and nodes, and returns the matching one of the six; the table is valid and its ordinals fit an `int` whenever `info`'s are |
| Dumper.DumpNodeValue | ext/node-marshal/nodedump.c:325-423 | How one slot is dumped: `NT_NULL`/`NT_LONG` stay raw; a node, literal, symbol, global entry, argument record or ID table becomes its ordinal under the matching location code; a symbol, a heap literal and a node (outside the `NODE_ATTRASGN` special case) fail exactly when missing from their table, a node also when the word is not a node; an unknown kind raises |
| Dumper.DumpKinds | ext/node-marshal/nodedump.c:443-465 | The slot kinds `dump_nodes` uses are the table row for the node's type, except: `NODE_OP_ASGN2` whose first slot is a known symbol has three IDs; `NODE_ARGS_AUX` has `NT_NULL` for each null slot, otherwise an ID, an ID if its second slot is a known symbol or else a Fixnum, and a node |
| Dumper.DumpRecord | ext/node-marshal/nodedump.c:436-473 | The record of one node saves its flags `>> 5` and dumps each of its three slots under the kinds of its type |
| Dumper.DumpRecords | ext/node-marshal/nodedump.c:434-474 | One record per entry of the node table, in table order, each the record of that node; it succeeds when every node's record does |
| Dumper.DumpNodes | ext/node-marshal/nodedump.c:425-478 | The packed string reads back as exactly the node records, and asking it for more records than nodes fails |
| Dumper.RewriteSymbols | ext/node-marshal/nodedump.c:505-523 | A local ID table's IDs become their symbol ordinals, failing exactly when one is not in the symbol table |
| Dumper.RewriteIdTables | ext/node-marshal/nodedump.c:505-524 | Every local ID table is rewritten to symbol ordinals |
| Dumper.RewriteNodeRef | ext/node-marshal/nodedump.c:540-552 | A node pointer of an argument record becomes -1 for null, otherwise its node ordinal, failing exactly when the node is not in the node table |
| Dumper.RewriteSymbolRef | ext/node-marshal/nodedump.c:553-567 | An ID of an argument record becomes -1 for 0, otherwise its symbol ordinal, failing exactly when the symbol is absent |
| Dumper.RewriteArgs | ext/node-marshal/nodedump.c:528-568 | An argument record keeps its two counts; its five node pointers and three IDs are rewritten to ordinals; a record not of ten items raises "Corrupted args entry" |
| Dumper.ToHash | ext/node-marshal/nodedump.c:487-577 | `NODEInfo_toHash` succeeds exactly when the ID tables, argument records and node records can be rewritten; the Hash has the nine fields; its `nodes` string reads back as the node records and holds no more |
| Dumper.CompleteFields | ext/node-marshal/nodedump.c:1737-1741 | `m_nodedump_to_hash` adds `num_of_nodes` and the three names and keeps the nine fields of `NODEInfo_toHash` |
| Dumper.WalkRoot | ext/node-marshal/nodedump.c:1733-1734 | The walk from the root (its own parent) gives valid tables whose first node is the root when the root is not null, and a count no smaller than the node table; a count or table size that overflows the C `int` is not a result (see "Left out") |
| Dumper.DumpCounted | ext/node-marshal/nodedump.c:1733-1741 | A dump Hash with a given count stores that count as `num_of_nodes`, and its `nodes` string holds exactly as many records as the node table |
| Dumper.Dump | ext/node-marshal/nodedump.c:1718-1751 | The dump as intended: `num_of_nodes` is the number of records in `nodes`, so reading that many succeeds and reading more fails |
| Dumper.DumpAsWritten | ext/node-marshal/nodedump.c:1718-1751 | The dump as the C writes it: it fails exactly when `Dump` does, stores the walk's visit count as `num_of_nodes`, has the same `nodes` string, and its count is never below the intended one |
| Loader.Fix2Int | ext/node-marshal/nodedump.c:1309 | `FIX2INT` succeeds exactly on a Fixnum in the C `int` range, giving its value |
| Loader.IdOfInt | ext/node-marshal/nodedump.c:967 | `(ID)` of a negative `int` sign-extends to 64 bits |
| Loader.ResolveSymbol | ext/node-marshal/nodedump.c:958-973 | A symbol-table entry: a String is interned by its C string, a Fixnum from 0 to `INT_MAX` is the ID itself, anything that is neither raises "Symbols table is corrupted" |
| Loader.ResolveSymbolList | ext/node-marshal/nodedump.c:958-973 | Every entry is resolved in order; the list succeeds exactly when each entry does |
| Loader.ResolveSyms | ext/node-marshal/nodedump.c:944-974 | A missing symbol table raises "Cannot find symbols table"; on success it is an array resolved entry by entry |
| Loader.ResolveLits | ext/node-marshal/nodedump.c:976-989 | The literal table is taken as it is, and it succeeds exactly when it is an array |
| Loader.SymbolAt | ext/node-marshal/nodedump.c:1008-1009 | An ordinal is read as a symbol exactly when it is a Fixnum within the symbol table |
| Loader.SymbolsAt | ext/node-marshal/nodedump.c:1006-1011 | Every ordinal is read as its symbol, in order |
| Loader.ResolveGvars | ext/node-marshal/nodedump.c:991-1012 | A missing global-entry table raises; on success each entry is the symbol its ordinal names |
| Loader.IdTablesAt | ext/node-marshal/nodedump.c:1026-1044 | Every local ID table is read as the symbols of its ordinals |
| Loader.ResolveIdTables | ext/node-marshal/nodedump.c:1015-1045 | A missing ID-table list raises; on success it is read table by table |
| Loader.ResolveNodes | ext/node-marshal/nodedump.c:1047-1065 | Room for the nodes is made exactly when `nodes` is a String and the count is not negative |
| Loader.Fix2Long | ext/node-marshal/nodedump.c:1099 | `FIX2LONG` reads a Fixnum's value |
| Loader.NodeOrdinal | ext/node-marshal/nodedump.c:1110-1133 | A node ordinal of an argument record, cut to an `int`, is accepted exactly in -1 .. count-1: -1 is the null pointer, any other value is that node |
| Loader.SymbolOrdinal | ext/node-marshal/nodedump.c:1135-1148 | A symbol ordinal is accepted exactly in -1 .. |symbols|-1: -1 is ID 0, any other value is that symbol |
| Loader.ResolveArgsEntry | ext/node-marshal/nodedump.c:1089-1148 | An argument record that is not an array of ten raises "args entry i is corrupted"; otherwise the five node ordinals, the two counts and the three symbol ordinals are resolved as the C resolves each field |
| Loader.ResolveArgsList | ext/node-marshal/nodedump.c:1083-1149 | Every argument record is resolved with its own index; the list succeeds exactly when each record does |
| Loader.ResolveArgs | ext/node-marshal/nodedump.c:1068-1150 | A missing argument table raises; on success the records are resolved from index 0 |
| Loader.ResolveField | ext/node-marshal/nodedump.c:1178-1220 | Relocating one slot: raw stays raw; each location code resolves exactly when the ordinal is below its table's length, to the matching node, symbol, global entry, ID table, argument record or literal; an unknown code raises "Unknown RTYPE" |
| Loader.LoadRecord | ext/node-marshal/nodedump.c:1177-1233 | A loaded node has flags `(saved << 5) \| T_NODE` and its three relocated slots; it succeeds exactly when all three resolve |
| Loader.LoadNodes | ext/node-marshal/nodedump.c:1153-1234 | `load_nodes_from_str` yields exactly `n` nodes when it succeeds |
| Loader.LoadNodesDecodes | ext/node-marshal/nodedump.c:1153-1234 | A successful load read `n` whole records, and the i-th node is the relocation of the i-th record |
| Loader.DecodesLoadNodes | ext/node-marshal/nodedump.c:1153-1234 | If `n` records can be read and every one relocates, the load succeeds |
| Loader.StrField | ext/node-marshal/nodedump.c:1239-1251 | A signature field is read exactly when it is a String |
| Loader.CheckHashMagic | ext/node-marshal/nodedump.c:1256-1274 | The signatures pass exactly when MAGIC, the platform and the version match as C strings; checked in that order, a wrong MAGIC raises "Bad value of MAGIC", then a wrong platform "Incompatible RUBY_PLATFORM", then a wrong version "Incompatible RUBY_VERSION" |
| Loader.NameField | ext/node-marshal/nodedump.c:1313-1330 | A name field is accepted exactly when it is nil or a String |
| Loader.ResolveTables | ext/node-marshal/nodedump.c:1332-1339 | On success the relocation tables hold the resolved symbols, literals and argument records and room for `count` nodes |
| Loader.FromMemory | ext/node-marshal/nodedump.c:1284-1349 | A successful load passed the signature check and read as many nodes as `num_of_nodes` says, at least one; the nodes are the relocated records of the `nodes` string |
| Rename.FindIndex | ext/node-marshal/nodedump.c:1421-1429 | `find_index` returns the first position of a value, and nothing exactly when it is absent |
| Rename.ChangeSymbol | ext/node-marshal/nodedump.c:1399-1433 | Renaming succeeds exactly on a preparsed Hash with String arguments whose symbol array does not already hold the new name; it then replaces the first occurrence of the old name and nothing else, and returns nil when the old name is absent; a present new name raises |
| Rename.ChangeSymbolBack | ext/node-marshal/nodedump.c:1399-1433 | Renaming a symbol that occurs once and then renaming it back restores the Hash |
| Rename.ChangeSymbolLoads | ext/node-marshal/nodedump.c:944-974 | After a rename the loader interns the new name at the old name's ordinal and resolves every other symbol as before |
| RoundTrip.FieldLoads | ext/node-marshal/nodedump.c:1178-1220 | A slot dumped with the walk's tables relocates, against the tables the loader resolved from the same dump, to something that stands for the original word |
| RoundTrip.RecordLoads | ext/node-marshal/nodedump.c:1177-1233 | A node's dumped record loads to a node with the same type and line whose every slot stands for the original slot |
| RoundTrip.RecordsLoad | ext/node-marshal/nodedump.c:434-474 | Every record of the node table loads to the node at that table position |
| RoundTrip.NodesLoad | ext/node-marshal/nodedump.c:1153-1234 | Loading the packed node string succeeds, and the i-th loaded node stands for the i-th node of the node table |
| RoundTrip.SymsResolve | ext/node-marshal/nodedump.c:944-974 | The dumped symbol table, loaded by an interpreter that knows the same names, gives back every ID at its ordinal |
| RoundTrip.LitsResolve | ext/node-marshal/nodedump.c:976-989 | The dumped literal table holds, at each ordinal, the object the walk recorded there |
| RoundTrip.GvarsResolve | ext/node-marshal/nodedump.c:991-1012 | The dumped global entries load to the symbol of each original entry |
| RoundTrip.IdsResolve | ext/node-marshal/nodedump.c:1038-1042 | IDs rewritten to ordinals and read back through the loaded symbol table are the original IDs |
| RoundTrip.IdTablesResolve | ext/node-marshal/nodedump.c:1015-1045 | Every dumped local ID table loads to the IDs of the original table |
| RoundTrip.SymRefResolves | ext/node-marshal/nodedump.c:1135-1148 | An ID rewritten for an argument record resolves back to that ID (0 to 0) |
| RoundTrip.NodeRefResolves | ext/node-marshal/nodedump.c:1110-1133 | A node pointer rewritten for an argument record resolves back to null or to that node's ordinal |
| RoundTrip.ArgsEntryResolves | ext/node-marshal/nodedump.c:1089-1148 | A dumped argument record loads to one whose every field stands for the original field |
| RoundTrip.ArgsResolve | ext/node-marshal/nodedump.c:1068-1150 | Every dumped argument record loads to one that stands for the original |
| RoundTrip.ToHashFields | ext/node-marshal/nodedump.c:487-577 | The nine fields of `NODEInfo_toHash` hold the signatures, the tables and the packed nodes |
| RoundTrip.SignedChecks | ext/node-marshal/nodedump.c:1256-1274 | With a valid MAGIC, `check_hash_magic` passes exactly when the platform and version match; a platform mismatch raises "Incompatible RUBY_PLATFORM" and otherwise a version mismatch raises "Incompatible RUBY_VERSION" |
| RoundTrip.SignatureChecks | ext/node-marshal/nodedump.c:495-499 | A dump made on one interpreter passes the signature check of another exactly when both have the same platform and version, and otherwise raises the matching error |
| RoundTrip.TablesResolve | ext/node-marshal/nodedump.c:1332-1339 | The tables of a dump resolve in an interpreter that knows the same symbols, to tables that match the walk's |
| RoundTrip.FromMemorySteps | ext/node-marshal/nodedump.c:1284-1349 | When the count, the signatures, the names, the tables and the node string each load, `m_nodedump_from_memory` returns exactly those |
| RoundTrip.HashLoads | ext/node-marshal/nodedump.c:1284-1349 | The Hash built from the walk's tables with the true node count loads, with the same names, one node per table entry, each standing for its original |
| RoundTrip.WalkRootSound | ext/node-marshal/nodedump.c:1733-1734 | The tables of a walk from the root describe the heap, and a null root gives no nodes |
| RoundTrip.DumpIsComplete | ext/node-marshal/nodedump.c:1733-1741 | The intended dump is the Hash of the walk's tables completed with the number of distinct nodes |
| RoundTrip.DumpLoads | ext/node-marshal/nodedump.c:1718-1751 | A successful dump, loaded on the same platform and version with the same symbols, loads: the root is the first node, there is one node per distinct dumped node, the names are kept, and every loaded node stands for its original; a dump of the null tree does not load |
| NodeCount.OverCountFails | ext/node-marshal/nodedump.c:1158-1176 | A dump Hash whose `num_of_nodes` exceeds the number of records in `nodes` does not load |
| NodeCount.SharedWalk | ext/node-marshal/nodedump.c:593-762 | A `NODE_AND` whose two operands are the same `NODE_NIL` is visited three times by the walk but has two entries in the node table |
| NodeCount.SharedAsWrittenFails | ext/node-marshal/nodedump.c:1733-1738 | For that tree the C stores `num_of_nodes` 3 next to two records, and the dump does not load |
| NodeCount.SharedDumpLoads | ext/node-marshal/nodedump.c:1733-1738 | With the count of distinct nodes the same tree dumps with `num_of_nodes` 2 and loads two nodes, the first standing for the root |
| NodeCount.SharedHeapExists | ext/node-marshal/nodeinfo.c:49 | Such a heap exists, wherever the child-kind table has the shipped rows for `NODE_AND` and `NODE_NIL` |
| Base85.InitTables | ext/node-marshal/base85r.c:47-64 | `base85r_init_tables` succeeds and fills `char_to_val` as the inverse of the alphabet |
| Base85.FillTable | ext/node-marshal/base85r.c:47-64 | Filling the table from an alphabet succeeds exactly when the alphabet has no repeated symbol (otherwise "Internal error"); every symbol then maps to its digit and every other 7-bit character to -1 |
| Base85.CharToValDigits | ext/node-marshal/base85r.c:33-42 | The filled table maps every 7-bit character to its digit in the alphabet, -1 for a non-symbol |
| Base85.SymbolByteValue | ext/node-marshal/base85r.c:33-40 | The symbol of each digit 0..84 reads back as that digit |
| Base85.Decode | ext/node-marshal/base85r.c:136-150 | The input length is read into an `int`: up to `INT_MAX` bytes the result is exactly `DecodeSpec` of the input; a length that wraps negative is refused as too short; otherwise only the wrapped-length prefix is decoded |
| Base85.DecodeChars | ext/node-marshal/base85r.c:147-189 | The decoding loop computes exactly `DecodeSpec`: symbols read in order, the first is the tail length, every five further digits make four bytes, then the tail is cut |
| Base85.DecodeResult | ext/node-marshal/base85r.c:182-189 | An incomplete final group raises "input string is corrupted"; otherwise the output is the collected bytes cut by `4 - tail` when the tail length is not 0 |
| Base85.TailTooLarge | ext/node-marshal/base85r.c:164-168 | A first symbol above 4 raises "input string is corrupted" |
| Base85.AccumulatedGroup | ext/node-marshal/base85r.c:171-177 | After five digits the `unsigned int` accumulator holds the group's base-85 value modulo 2^32, and its four bytes are written high byte first |
| Base85.DecodeSkipsNonSymbols | ext/node-marshal/base85r.c:159-162 | In an input already long enough for the length check, inserting a byte that is not a symbol (a space, a newline, any byte outside the alphabet) anywhere does not change the decoded result |
| Base85.GroupDigitsValue | ext/node-marshal/base85r.c:111-116 | The five digits `(val / di_val[i]) % 85` of a 32-bit value spell the value in base 85 |
| Base85.BufLenSuffices | ext/node-marshal/base85r.c:68-79 | The buffer length of `base85_encode_buf_len`, computed without overflow, always exceeds the encoded length |
| Base85.Encode | ext/node-marshal/base85r.c:83-131 | The encoder as intended never fails; its text starts with a space and the symbol of the input length modulo 4, and has five symbols per started 4-byte chunk plus two bytes per full line of 56 input bytes |
| Base85.EncodeSymbols | ext/node-marshal/base85r.c:96-124 | The symbols of the encoded text are the tail length followed by five digits per 4-byte chunk |
| Base85.DecodeEncode | ext/node-marshal/base85r.c:83-190 | Decoding the text the intended encoder makes gives back the input, for every byte string |
| Base85.Wrap32 | ext/node-marshal/base85r.c:68-79 | A C `int` result lies in the `int` range and agrees with the exact value modulo 2^32 |
| Base85.CDiv | ext/node-marshal/base85r.c:74-75 | C division truncates toward zero |
| Base85.BufLenOverflows | ext/node-marshal/base85r.c:68-79 | At 16361781 input bytes the C buffer length wraps to -21474799 |
| Base85.BufLenAsWrittenAgrees | ext/node-marshal/base85r.c:68-79 | Up to 16361780 input bytes the C buffer length is the exact one |
| Base85.EncodeAsWritten | ext/node-marshal/base85r.c:83-131 | The C encoder, when it succeeds, gives the intended text; up to 16361780 bytes it always does; a negative buffer length makes it raise |
| Base85.EncodeAsWrittenFails | ext/node-marshal/base85r.c:94-96 | An input of 16361781 bytes is encoded by the intended encoder and makes the C encoder raise |
| Base85.SmallBufLenSuffices | ext/node-marshal/base85r.c:68-79 | Up to 16361780 input bytes the C buffer holds the encoded text |
| Base85.DigitAsWritten | ext/node-marshal/base85r.c:161 | The C table read `char_to_val[(int) inptr[pos]]` is in bounds exactly for a byte below the table size |
| Base85.DigitAsWrittenOutOfBounds | ext/node-marshal/base85r.c:42 | The byte 0x80 already reads outside the 128-entry table |
| Base85.Digit | ext/node-marshal/base85r.c:161-162 | The digit read for a byte is -1 (skipped) or a digit 0..84 |
| Base85.DigitCorrects | ext/node-marshal/base85r.c:161-162 | The corrected read agrees with the C read wherever that read is in bounds, and skips every other byte as a non-symbol |

## Left out

- The Ruby interpreter itself is not modelled. `Marshal.load`/`Marshal.dump` are out (`m_nodedump_to_bin`; the loader starts from the Hash after `Marshal.load`, so "Input dump is corrupted" for a non-Hash is not modelled). So are the garbage-collector calls and the allocation of nodes (a loaded node is known by its ordinal).
- The caching of `@nodeinfo` and `@nodehash` in `m_nodedump_to_hash` is left out. Every call is modelled as a first call.
- `rb_intern`, `RUBY_PLATFORM` and `RUBY_VERSION` are parameters (`LoadEnv`, `Env`). `rb_global_entry` is modelled by the symbol ID it is asked for.
- The byte behind the last record, which `dump_nodes` leaves uninitialised, is the parameter `Env.filler`.
- Not part of the modelled core: `print_node`, `m_nodedump_symbols`, `m_nodedump_literals`, `m_nodedump_change_literal`, `m_nodedump_compile`, `m_nodedump_from_source`, `m_nodedump_from_string`, `m_nodedump_init`, `m_nodedump_inspect`, `m_nodedump_to_text`, the name accessors and `Init_nodemarshal`.
- Walker.Walk: the recursion of `count_num_of_nodes` runs on the machine stack. The model gives it a `fuel` bound instead and fails with `StackExhausted` when the bound is used up. A stack overflow in the C crashes the process instead.
- Dumper.WalkRoot: `count_num_of_nodes` adds up visits in `int num` (nodedump.c:595, 648-719), and the ordinals of every table are kept in `int`. Past `INT_MAX` the C overflows, which C leaves undefined, and the wrapped count would go into `num_of_nodes` at nodedump.c:1733-1734. Because shared children are re-walked, about 32 levels of a node whose two operands are the same node already reach that count. The model answers `Undefined` for a count above `INT_MAX` or a table of more than 2^31 entries, and does not model the wrapped value.
- Walker.IsValueInHeap: the special constants (`Qfalse` 0, `Qtrue` 0x14, `Qnil` 0x08, `Qundef` 0x34) and the Fixnum/flonum tag bits are those of 64-bit Ruby 2.x. They are written in as constants because `ruby.h` is not part of this model. Other builds of Ruby are not modelled.
- Vlq.BinToValue: a length nibble above 8, or a flags length above 8, makes the C shift by 64 bits or more (nodedump.c:154-155), which C leaves undefined. The model keeps the value modulo 2^64, dropping the high bytes.
- Base85.AddDigit: `digit * di_val[shift++]` (base85r.c:171) is a signed `int` product. It overflows for a leading digit of 42 or more, which ordinary encoder output has, and C leaves that undefined. The model takes the two's-complement result, adding it modulo 2^32 into the `unsigned int` accumulator.
- Base85.ChunkValue: the encoder's `inptr[pos++] << 24` (base85r.c:109) shifts a byte of 128 or more into the sign bit of an `int`, which C leaves undefined. The model takes the intended unsigned value.
- Shapes.CheckRow: the guard at nodeinfo.c:173-177, which raises "Invalid NODE_LAMBDA position" unless the running interpreter names node type `NODE_LAMBDA` "NODE_LAMBDA", is not modelled. It asks the interpreter whether its node numbering is the one of node220.h, and the model takes that numbering as given.
- Base85.EncodeAsWritten: requires `|s| <= INT_MAX`. `RSTRING_LEN` is cut into the `int` `inp_len`, and longer strings are not modelled. Where the wrapped buffer length is a small positive number, the C loop writes past the buffer before the test at base85r.c:127. The model reports only the "internal memory error" raised there.
- Loader.SymbolAt: the C does not check `syms_adr[ind]` against the table (nodedump.c:1008-1009, 1040-1041) and reads whatever lies there. The model reports `Undefined` for an out-of-range index rather than inventing a value.
- Loader.Fix2Int: on 64-bit Ruby 2.x, `FIX2INT` of a non-Fixnum converts a Float or a Bignum and raises `TypeError` for other objects. The model reports every non-Fixnum as the single error `Undefined`. `Loader.Fix2Long` does the same for `FIX2LONG`.
- Loader.IdTablesAt: the C reads every entry of `id_tables` as an array without checking its type (nodedump.c:1028-1029). The model reports `Undefined` for a non-array entry, and `ResolveIdTables` does the same for a non-array table.
- Loader.LoadNodes: the C reads a record's bytes before checking that they lie within the string (nodedump.c:1165-1176). The model checks first and reports "too short" without the out-of-bounds read.
- Loader.FromMemory: a `num_of_nodes` of 0 passes every check of the C, which then reads `nodes_adr[0]` from an empty allocation. The model reports `Undefined`.
- Dumper.DumpRecords: a node-table key that is not a node of the heap cannot arise from the walk. The model reports `Undefined` for it.
- NodeCount.SharesChild: it requires the child-kind rows for `NODE_AND` and `NODE_NIL` to be those of the shipped table (nodeinfo.c:49, 134) rather than deriving them from it.
- Rename.ChangeSymbol: the C replaces the symbol in place in the array the Hash holds. The model returns the changed Hash.

## Findings

| source | as written | input that shows it | evidently intended | confidence | as-written member | corrected member |
|---|---|---|---|---|---|---|
| ext/node-marshal/base85r.c:68-79 | `base85_encode_buf_len` computes `buf_len * 5` and `buf_len * 105` in `int`, which overflows | any string of 16361781 bytes: the length wraps to -21474799 and `rb_str_new` raises instead of encoding | the buffer length is computed without overflow and always exceeds the encoded length | not executed | Base85.EncodeAsWritten, Base85.BufLenOverflows, Base85.EncodeAsWrittenFails | Base85.Encode, Base85.BufLenSuffices, Base85.DecodeEncode |
| ext/node-marshal/base85r.c:161 | `char_to_val[(int) inptr[pos]]` indexes a 128-entry table with an unsigned byte | any input holding a byte of 0x80 or more, e.g. the byte 0x80: the read is past the table | bytes outside 7-bit ASCII are skipped like every other non-symbol | not executed | Base85.DigitAsWritten, Base85.DigitAsWrittenOutOfBounds | Base85.Digit, Base85.DigitCorrects, Base85.DecodeSkipsNonSymbols |
| ext/node-marshal/nodedump.c:1733-1738 | `num_of_nodes` is the number of visits `count_num_of_nodes` makes, while `dump_nodes` writes one record per distinct node | a `NODE_AND` whose two operands are the same `NODE_NIL`: `num_of_nodes` is 3, `nodes` holds 2 records, and the load raises "Nodes binary dump is too short". Whether Ruby 2.2's parser ever builds a tree that shares a node is not verified here. | `num_of_nodes` is the number of records, so every dump loads | not executed | Dumper.DumpAsWritten, NodeCount.SharedAsWrittenFails, NodeCount.OverCountFails | Dumper.Dump, NodeCount.SharedDumpLoads, RoundTrip.DumpLoads |

=== FILE: base85.dfy ===
/** The modified BASE85 text encoding of ext/node-marshal/base85r.c.

    An encoded text is a space, one alphabet symbol giving the length of the input
    modulo 4, and then one group of five base-85 digits per (zero-padded) 4-byte
    chunk of the input, with a newline and a space after every 14 groups. The
    alphabet leaves out the characters Ruby string literals treat specially. */
module Base85 {
  import opened Wrappers
  import opened Words

  /** Number of 5-symbol groups on one output line: a line break follows every
      `4 * STR_WIDTH` = 56 input bytes. */
  const STR_WIDTH: nat := 14
  /** `unsigned int` arithmetic is modulo this bound. */
  const U32: nat := 0x1_0000_0000
  /** The place values of the five digits of a group, most significant first. */
  const DI_VAL: seq<nat> := [52200625, 614125, 7225, 85, 1]

  /** The place values of the four bytes of an `unsigned int`, most significant first. */
  const BYTE_PLACE: seq<nat> := [0x100_0000, 0x1_0000, 256, 1]
  /** Size of the `char_to_val` table: one entry per 7-bit character. */
  const TABLE_SIZE: nat := 128

  const NEWLINE: Byte := 10
  const SPACE: Byte := 32

  datatype Base85Error =
    | TooShort            // "input string is too short"
    | Corrupted           // "input string is corrupted"
    | NegativeSize        // rb_str_resize refuses a negative length
    | InternalMemoryError // the output outgrew its buffer
    | InternalError       // a symbol's table entry was already taken

  // The 85 digit symbols, in digit order, written as six runs.
  const Upper: string := "ABCDEFGHIJKLMNOPQRSTUVWXYZ"
  const Lower: string := "abcdefghijklmnopqrstuvwxyz"
  const Decimal: string := "0123456789"
  const Punct1: string := "!$%&()*-./"
  const Punct2: string := ":;<=>?@[]^"
  const Punct3: string := ",_|"
  /** `val_to_char`: the symbol of every digit 0..84. */
  const Alphabet: string := Upper + Lower + Decimal + Punct1 + Punct2 + Punct3

  /** The digit a symbol stands for, written independently of `Alphabet`; -1 for
      anything that is not a symbol. */
  function SymbolValue(c: char): int
  {
    if 'A' <= c <= 'Z' then c as int - 'A' as int
    else if 'a' <= c <= 'z' then c as int - 'a' as int + 26
    else if '0' <= c <= '9' then c as int - '0' as int + 52
    else match c
      case '!' => 62 case '$' => 63 case '%' => 64 case '&' => 65 case '(' => 66 case ')' => 67
      case '*' => 68 case '-' => 69 case '.' => 70 case '/' => 71 case ':' => 72 case ';' => 73
      case '<' => 74 case '=' => 75 case '>' => 76 case '?' => 77 case '@' => 78 case '[' => 79
      case ']' => 80 case '^' => 81 case ',' => 82 case '_' => 83 case '|' => 84
      case _ => -1
  }

  lemma UpperRun()
    ensures forall k :: 0 <= k < |Upper| ==> SymbolValue(Upper[k]) == k && Upper[k] as int == 'A' as int + k
  {}
  lemma LowerRun()
    ensures forall k :: 0 <= k < |Lower| ==> SymbolValue(Lower[k]) == 26 + k && Lower[k] as int == 'a' as int + k
  {}
  lemma DecimalRun()
    ensures forall k :: 0 <= k < |Decimal| ==> SymbolValue(Decimal[k]) == 52 + k && Decimal[k] as int == '0' as int + k
  {}
  lemma Punct1Run()
    ensures forall k :: 0 <= k < |Punct1| ==> SymbolValue(Punct1[k]) == 62 + k && Punct1[k] as int < 127
  {}
  lemma Punct2Run()
    ensures forall k :: 0 <= k < |Punct2| ==> SymbolValue(Punct2[k]) == 72 + k && Punct2[k] as int < 127
  {}
  lemma Punct3Run()
    ensures forall k :: 0 <= k < |Punct3| ==> SymbolValue(Punct3[k]) == 82 + k && Punct3[k] as int < 127
  {}
  lemma AlphabetFacts()
    ensures |Alphabet| == 85
    ensures forall i :: 0 <= i < 85 ==> SymbolValue(Alphabet[i]) == i && Alphabet[i] as int < 127
  {
    UpperRun(); LowerRun(); DecimalRun(); Punct1Run(); Punct2Run(); Punct3Run();
  }
  lemma PunctInverse(c: char)
    ensures 62 <= SymbolValue(c) ==> Alphabet[SymbolValue(c)] == c
  {
    AlphabetFacts();
    var v := SymbolValue(c);
    if 62 <= v < 72 {
      Punct1Inverse(c);
    } else if 72 <= v < 82 {
      Punct2Inverse(c);
    } else if 82 <= v {
      Punct3Inverse(c);
    }
  }
  lemma Punct1Inverse(c: char)
    requires 62 <= SymbolValue(c) < 72
    ensures Alphabet[SymbolValue(c)] == c
  {
    assert Alphabet[62..72] == Punct1;
  }
  lemma Punct2Inverse(c: char)
    requires 72 <= SymbolValue(c) < 82
    ensures Alphabet[SymbolValue(c)] == c
  {
    assert Alphabet[72..82] == Punct2;
  }
  lemma Punct3Inverse(c: char)
    requires 82 <= SymbolValue(c)
    ensures Alphabet[SymbolValue(c)] == c
  {
    assert Alphabet[82..] == Punct3;
  }
  lemma UpperInverse(c: char)
    requires 'A' <= c <= 'Z'
    ensures Alphabet[SymbolValue(c)] == c
  {
    UpperRun();
    assert Alphabet[..26] == Upper;
    assert Upper[c as int - 'A' as int] == c;
  }
  lemma LowerInverse(c: char)
    requires 'a' <= c <= 'z'
    ensures Alphabet[SymbolValue(c)] == c
  {
    LowerRun();
    assert Alphabet[26..52] == Lower;
    assert Lower[c as int - 'a' as int] == c;
  }
  lemma DecimalInverse(c: char)
    requires '0' <= c <= '9'
    ensures Alphabet[SymbolValue(c)] == c
  {
    DecimalRun();
    assert Alphabet[52..62] == Decimal;
    assert Decimal[c as int - '0' as int] == c;
  }
  lemma SymbolValueInverse(c: char)
    ensures SymbolValue(c) == -1 || (0 <= SymbolValue(c) < 85 && Alphabet[SymbolValue(c)] == c)
  {
    if 'A' <= c <= 'Z' {
      UpperInverse(c);
    } else if 'a' <= c <= 'z' {
      LowerInverse(c);
    } else if '0' <= c <= '9' {
      DecimalInverse(c);
    } else {
      PunctInverse(c);
    }
  }

  /** The byte written for digit `d`: never a newline or a space, always 7-bit. */
  function SymbolByte(d: int): (b: Byte)
    requires 0 <= d < 85
    ensures b != NEWLINE && b != SPACE && b < TABLE_SIZE
  {
    AlphabetFacts();
    assert SymbolValue(NEWLINE as char) == -1 && SymbolValue(SPACE as char) == -1;
    Alphabet[d] as int
  }

  lemma SymbolByteValue(d: int)
    requires 0 <= d < 85
    ensures SymbolValue(SymbolByte(d) as char) == d
  {
    AlphabetFacts();
  }

  /** Whether byte `c` is one of the 85 symbols. */
  ghost predicate IsSymbolByte(c: int)
  {
    exists i :: 0 <= i < |Alphabet| && Alphabet[i] as int == c
  }

  /** `char_to_val` after initialisation: every symbol maps to its digit and every
      other 7-bit character to -1. */
  ghost predicate IsCharToVal(tbl: seq<int>)
  {
    && |tbl| == TABLE_SIZE
    && (forall i :: 0 <= i < |Alphabet| ==> Alphabet[i] as int < TABLE_SIZE && tbl[Alphabet[i] as int] == i)
    && (forall c :: 0 <= c < TABLE_SIZE && !IsSymbolByte(c) ==> tbl[c] == -1)
  }

  /** Any table the decoder can work with: 128 entries, each -1 or a digit. */
  ghost predicate ValidTable(tbl: seq<int>)
  {
    |tbl| == TABLE_SIZE && forall c :: 0 <= c < TABLE_SIZE ==> -1 <= tbl[c] < 85
  }

  /** `base85r_init_tables`: enter each symbol's digit into the table. The C code
      raises "Internal error" when a symbol's entry is already taken, which cannot
      happen for the alphabet, and then re-reads every entry, which is what
      `IsCharToVal` states. */
  method InitTables() returns (r: Result<seq<int>, Base85Error>)
    ensures r.Ok? && IsCharToVal(r.value)
  {
    AlphabetSize();
    AlphabetDistinct();
    r := FillTable(Alphabet);
    FilledTable(r.value);
  }

  /** No character occurs twice in `s`. */
  ghost predicate Distinct(s: string)
  {
    forall i, j :: 0 <= i < j < |s| ==> s[i] != s[j]
  }

  /** The table-filling loop of `base85r_init_tables` over the symbols `alphabet`:
      clear all 128 entries to -1, then give each symbol's entry its digit, failing
      as soon as an entry is taken twice. */
  method FillTable(alphabet: string) returns (r: Result<seq<int>, Base85Error>)
    requires forall i :: 0 <= i < |alphabet| ==> alphabet[i] as int < TABLE_SIZE
    ensures r.Ok? <==> Distinct(alphabet)
    ensures r.Err? ==> r.error == InternalError
    ensures r.Ok? ==> |r.value| == TABLE_SIZE
    ensures r.Ok? ==> forall j :: 0 <= j < |alphabet| ==> r.value[alphabet[j] as int] == j
    ensures r.Ok? ==> forall c :: 0 <= c < TABLE_SIZE ==>
      r.value[c] == -1 || (0 <= r.value[c] < |alphabet| && alphabet[r.value[c]] as int == c)
  {
    var tbl := seq(TABLE_SIZE, _ => -1);
    var i := 0;
    while i < |alphabet|
      invariant 0 <= i <= |alphabet| && |tbl| == TABLE_SIZE
      invariant Distinct(alphabet[..i])
      invariant forall j :: 0 <= j < i ==> tbl[alphabet[j] as int] == j
      invariant forall c :: 0 <= c < TABLE_SIZE ==> tbl[c] == -1 || (0 <= tbl[c] < i && alphabet[tbl[c]] as int == c)
    {
      var c := alphabet[i] as int;
      if tbl[c] != -1 {
        assert alphabet[tbl[c]] == alphabet[i];
        return Err(InternalError);
      }
      tbl := tbl[c := i];
      i := i + 1;
    }
    assert alphabet[..i] == alphabet;
    return Ok(tbl);
  }

  lemma AlphabetSize()
    ensures |Alphabet| == 85
    ensures forall i :: 0 <= i < 85 ==> Alphabet[i] as int < TABLE_SIZE
  {
    AlphabetFacts();
  }

  lemma AlphabetDistinct()
    ensures Distinct(Alphabet)
  {
    AlphabetFacts();
    forall i, j | 0 <= i < j < |Alphabet|
      ensures Alphabet[i] != Alphabet[j]
    {
      assert SymbolValue(Alphabet[i]) == i && SymbolValue(Alphabet[j]) == j;
    }
  }

  lemma FilledTable(tbl: seq<int>)
    requires |tbl| == TABLE_SIZE && |Alphabet| == 85
    requires forall j :: 0 <= j < 85 ==> Alphabet[j] as int < TABLE_SIZE && tbl[Alphabet[j] as int] == j
    requires forall c :: 0 <= c < TABLE_SIZE ==> tbl[c] == -1 || (0 <= tbl[c] < 85 && Alphabet[tbl[c]] as int == c)
    ensures IsCharToVal(tbl)
  {
    forall c | 0 <= c < TABLE_SIZE && !IsSymbolByte(c)
      ensures tbl[c] == -1
    {
    }
  }

  /** The initialised table agrees with the independent inverse `SymbolValue`. */
  lemma CharToValDigits(tbl: seq<int>)
    requires IsCharToVal(tbl)
    ensures forall c :: 0 <= c < TABLE_SIZE ==> tbl[c] == SymbolValue(c as char)
  {
    AlphabetFacts();
    forall c | 0 <= c < TABLE_SIZE
      ensures tbl[c] == SymbolValue(c as char)
    {
      SymbolValueInverse(c as char);
      if SymbolValue(c as char) != -1 {
        var j := SymbolValue(c as char);
        assert Alphabet[j] == c as char;
        assert tbl[Alphabet[j] as int] == j;
      }
    }
  }

  lemma CharToValValid(tbl: seq<int>)
    requires IsCharToVal(tbl)
    ensures ValidTable(tbl)
  {
    forall c | 0 <= c < TABLE_SIZE
      ensures -1 <= tbl[c] < 85
    {
      if j :| 0 <= j < |Alphabet| && Alphabet[j] == c as char {
        assert tbl[Alphabet[j] as int] == j;
        AlphabetFacts();
      }
    }
  }

  /** The digit the decoder reads for an input byte. Bytes outside the 7-bit table
      count as non-symbols; `DigitAsWritten` is the out-of-bounds read the C code
      performs for them. */
  function Digit(tbl: seq<int>, b: Byte): (d: int)
    requires ValidTable(tbl)
    ensures -1 <= d < 85
  {
    if b < TABLE_SIZE then tbl[b] else -1
  }

  /** With the initialised table the decoder reads back every symbol the encoder writes. */
  lemma SymbolRead(tbl: seq<int>, d: int)
    requires IsCharToVal(tbl) && 0 <= d < 85
    ensures ValidTable(tbl)
    ensures Digit(tbl, SymbolByte(d)) == d
  {
    CharToValValid(tbl);
    AlphabetFacts();
  }

  /** With the initialised table the decoder skips every byte that is not a symbol,
      line breaks included. */
  lemma NonSymbolSkipped(tbl: seq<int>, b: Byte)
    requires IsCharToVal(tbl) && !IsSymbolByte(b)
    ensures ValidTable(tbl)
    ensures Digit(tbl, b) == -1
  {
    CharToValValid(tbl);
  }

  lemma BreaksAreNotSymbols()
    ensures !IsSymbolByte(NEWLINE) && !IsSymbolByte(SPACE)
  {
    AlphabetFacts();
    assert SymbolValue(NEWLINE as char) == -1 && SymbolValue(SPACE as char) == -1;
  }

  /** The digits of the symbols of `s`, in order; every other byte is skipped. */
  function Symbols(tbl: seq<int>, s: seq<Byte>): (r: seq<int>)
    requires ValidTable(tbl)
  {
    if s == [] then []
    else
      var d := Digit(tbl, s[|s| - 1]);
      Symbols(tbl, s[..|s| - 1]) + (if d == -1 then [] else [d])
  }

  lemma {:induction false} SymbolsAppend(tbl: seq<int>, a: seq<Byte>, b: seq<Byte>)
    requires ValidTable(tbl)
    ensures Symbols(tbl, a + b) == Symbols(tbl, a) + Symbols(tbl, b)
    decreases |b|
  {
    if b != [] {
      assert (a + b)[..|a + b| - 1] == a + b[..|b| - 1];
      SymbolsAppend(tbl, a, b[..|b| - 1]);
    } else {
      assert a + b == a;
    }
  }

  /** Every symbol read is a digit. */
  lemma {:induction false} SymbolsAreDigits(tbl: seq<int>, s: seq<Byte>)
    requires ValidTable(tbl)
    ensures forall i :: 0 <= i < |Symbols(tbl, s)| ==> 0 <= Symbols(tbl, s)[i] < 85
    decreases |s|
  {
    if s != [] {
      SymbolsAreDigits(tbl, s[..|s| - 1]);
    }
  }

  /** The number a group's digits denote, most significant first. */
  function GroupValue(g: seq<int>): int
  {
    if g == [] then 0 else GroupValue(g[..|g| - 1]) * 85 + g[|g| - 1]
  }

  /** The four big-endian bytes of an `unsigned int`: the value is reduced modulo
      2^32 first, as the C accumulator wraps. */
  function Be4(v: int): (r: seq<Byte>)
    ensures |r| == 4
  {
    seq(4, i requires 0 <= i < 4 => (v % 0x1_0000_0000 / BYTE_PLACE[i]) % 256)
  }

  /** The `unsigned int` the encoder assembles from a 4-byte chunk, first byte most
      significant. */
  function ChunkValue(c: seq<Byte>): (v: nat)
    requires |c| == 4
    ensures v < U32
  {
    ((c[0] as int * 256 + c[1]) * 256 + c[2]) * 256 + c[3]
  }

  /** The four bytes a complete group decodes to. */
  function GroupBytes(g: seq<int>): (r: seq<Byte>)
    ensures |r| == 4
  {
    Be4(GroupValue(g))
  }

  /** The bytes of a digit string made of whole groups. */
  function GroupsToBytes(d: seq<int>): (r: seq<Byte>)
    requires |d| % 5 == 0
    ensures |r| == 4 * (|d| / 5)
  {
    if d == [] then [] else GroupsToBytes(d[..|d| - 5]) + GroupBytes(d[|d| - 5..])
  }

  lemma GroupsToBytesPush(groups: seq<int>, g: seq<int>)
    requires |groups| % 5 == 0 && |g| == 5
    ensures GroupsToBytes(groups + g) == GroupsToBytes(groups) + GroupBytes(g)
  {
    assert (groups + g)[..|groups + g| - 5] == groups;
    assert (groups + g)[|groups + g| - 5..] == g;
  }

  lemma {:induction false} GroupsToBytesAppend(a: seq<int>, b: seq<int>)
    requires |a| % 5 == 0 && |b| % 5 == 0
    ensures GroupsToBytes(a + b) == GroupsToBytes(a) + GroupsToBytes(b)
    decreases |b|
  {
    if b != [] {
      var ab := a + b;
      assert ab[..|ab| - 5] == a + b[..|b| - 5];
      assert ab[|ab| - 5..] == b[|b| - 5..];
      GroupsToBytesAppend(a, b[..|b| - 5]);
    } else {
      assert a + b == a;
    }
  }

  /** The number of bytes a tail symbol removes from the last group. */
  function TailCut(tail: int): int
  {
    if tail != 0 then 4 - tail else 0
  }

  /** Reference definition of `base85r_decode`: keep the symbols, take the first as
      the tail length, decode the rest in groups of five and drop the padding. */
  function DecodeSpec(tbl: seq<int>, input: seq<Byte>): Result<seq<Byte>, Base85Error>
    requires ValidTable(tbl)
  {
    DecodeSymbols(|input|, Symbols(tbl, input))
  }

  /** The decoding of an input of `len` bytes whose symbols are `syms`. */
  function DecodeSymbols(len: nat, syms: seq<int>): Result<seq<Byte>, Base85Error>
  {
    if len < 6 && len != 2 then Err(TooShort)
    else if syms == [] then Err(NegativeSize)
    else if syms[0] > 4 then Err(Corrupted)
    else if (|syms| - 1) % 5 != 0 then Err(Corrupted)
    else Trim(GroupsToBytes(syms[1..]), syms[0])
  }

  /** `out_len -= 4 - tail_len` followed by `rb_str_resize`, which refuses a
      negative length. */
  function Trim(bytes: seq<Byte>, tail: int): Result<seq<Byte>, Base85Error>
    requires tail <= 4
  {
    if |bytes| < TailCut(tail) then Err(NegativeSize)
    else Ok(bytes[..|bytes| - TailCut(tail)])
  }

  /** What the decoder has seen after a run of symbols: the tail length (-1 before
      the first symbol), the digits of the group in progress, and the bytes written. */
  datatype DecoderState = DecoderState(tail: int, cur: seq<int>, out: seq<Byte>)

  /** The decoder's reaction to one symbol. */
  function Next(st: DecoderState, d: int): DecoderState
  {
    if st.tail == -1 then st.(tail := d)
    else if |st.cur| == 4 then DecoderState(st.tail, [], st.out + GroupBytes(st.cur + [d]))
    else st.(cur := st.cur + [d])
  }

  /** The decoder's state after reading the symbols `syms`. */
  function Run(syms: seq<int>): (st: DecoderState)
    ensures |st.cur| < 5
  {
    if syms == [] then DecoderState(-1, [], []) else Next(Run(syms[..|syms| - 1]), syms[|syms| - 1])
  }

  lemma RunPush(syms: seq<int>, d: int)
    ensures Run(syms + [d]) == Next(Run(syms), d)
  {
    assert (syms + [d])[..|syms|] == syms;
  }

  /** After a non-empty run of symbols the first one is the tail, every complete
      group after it has been written out and the rest is the group in progress. */
  lemma {:induction false} RunShape(syms: seq<int>)
    requires syms != [] && syms[0] >= 0
    ensures var st := Run(syms); var body := syms[1..]; var w := 5 * (|body| / 5);
      && st.tail == syms[0]
      && st.cur == body[w..]
      && st.out == GroupsToBytes(body[..w])
    decreases |syms|
  {
    var prev := syms[..|syms| - 1];
    var d := syms[|syms| - 1];
    assert syms == prev + [d];
    RunPush(prev, d);
    if prev == [] {
      assert syms == [d];
    } else {
      RunShape(prev);
      assert syms[1..] == prev[1..] + [d];
      ShapeStep(Run(prev), prev[1..], d);
    }
  }

  /** One more symbol either extends the group in progress or completes it. */
  lemma ShapeStep(st: DecoderState, body: seq<int>, d: int)
    requires st.tail >= 0
    requires var w := 5 * (|body| / 5); st.cur == body[w..] && st.out == GroupsToBytes(body[..w])
    ensures var b := body + [d]; var w := 5 * (|b| / 5); var st' := Next(st, d);
      st'.tail == st.tail && st'.cur == b[w..] && st'.out == GroupsToBytes(b[..w])
  {
    var w := 5 * (|body| / 5);
    var b := body + [d];
    WholeGroups(|body|);
    assert b[w..] == st.cur + [d];
    if |body| % 5 == 4 {
      assert b[..w + 5] == body[..w] + b[w..];
      GroupsToBytesPush(body[..w], b[w..]);
      assert b[w + 5..] == [];
    } else {
      assert b[..w] == body[..w];
    }
  }

  /** Where the last whole group ends, before and after one more digit. */
  lemma WholeGroups(n: nat)
    ensures n - 5 * (n / 5) == n % 5
    ensures 5 * ((n + 1) / 5) == if n % 5 == 4 then 5 * (n / 5) + 5 else 5 * (n / 5)
  {
  }

  /** The `unsigned int` accumulator after the digits `cur` of a group: each digit is
      multiplied by its place value and added, wrapping modulo 2^32. */
  function Accumulated(cur: seq<int>): int
    requires |cur| <= 5
  {
    if cur == [] then 0
    else AddDigit(Accumulated(cur[..|cur| - 1]), cur[|cur| - 1], |cur| - 1)
  }

  /** `val += digit * di_val[shift]` on an `unsigned int`. */
  function AddDigit(acc: int, d: int, shift: nat): int
    requires shift < 5
  {
    (acc + d * DI_VAL[shift]) % 0x1_0000_0000
  }

  lemma AccumulatedPush(cur: seq<int>, d: int)
    requires |cur| < 5
    ensures Accumulated(cur + [d]) == AddDigit(Accumulated(cur), d, |cur|)
  {
    var c := cur + [d];
    assert c[..|c| - 1] == cur;
    assert c[|c| - 1] == d;
    AccumulatedLast(c);
  }

  lemma AccumulatedLast(c: seq<int>)
    requires 0 < |c| <= 5
    ensures Accumulated(c) == AddDigit(Accumulated(c[..|c| - 1]), c[|c| - 1], |c| - 1)
  {
  }

  /** Once a group is complete the positional sum wraps to the group's value. */
  lemma AccumulatedGroup(g: seq<int>)
    requires |g| == 5
    ensures Be4(Accumulated(g)) == GroupBytes(g)
  {
    assert g[..1][..0] == [];
    assert g[..2][..1] == g[..1];
    assert g[..3][..2] == g[..2];
    assert g[..4][..3] == g[..3];
    var m := 0x1_0000_0000;
    var s1 := g[0] * 52200625;
    var s2 := s1 + g[1] * 614125;
    var s3 := s2 + g[2] * 7225;
    var s4 := s3 + g[3] * 85;
    var s5 := s4 + g[4];
    assert Accumulated(g[..1]) == s1 % m;
    ModAdd(s1, g[1] * 614125);
    assert Accumulated(g[..2]) == s2 % m;
    ModAdd(s2, g[2] * 7225);
    assert Accumulated(g[..3]) == s3 % m;
    ModAdd(s3, g[3] * 85);
    assert Accumulated(g[..4]) == s4 % m;
    ModAdd(s4, g[4]);
    assert g[..4] == g[..|g| - 1];
    assert Accumulated(g) == s5 % m;
    assert GroupValue(g[..1]) == g[0];
    assert GroupValue(g[..2]) == g[0] * 85 + g[1];
    assert GroupValue(g[..3]) == (g[0] * 85 + g[1]) * 85 + g[2];
    assert GroupValue(g[..4]) == ((g[0] * 85 + g[1]) * 85 + g[2]) * 85 + g[3];
    assert GroupValue(g) == s5;
    assert s5 % m % m == s5 % m;
  }

  /** `unsigned int` addition wraps: reducing an operand first changes nothing. */
  lemma ModAdd(a: int, b: int)
    ensures (a % 0x1_0000_0000 + b) % 0x1_0000_0000 == (a + b) % 0x1_0000_0000
  {
  }

  /** `base85r_decode`. The length is read into an `int`, so an input longer
      than `INT_MAX` bytes is either refused as too short or cut to its wrapped
      length before the pass over it. */
  method Decode(tbl: seq<int>, input: seq<Byte>) returns (r: Result<seq<Byte>, Base85Error>)
    requires ValidTable(tbl)
    ensures |input| <= INT_MAX ==> r == DecodeSpec(tbl, input)
    ensures Wrap32(|input|) < 0 ==> r == Err(TooShort)
    ensures Wrap32(|input|) >= 0 ==> Wrap32(|input|) <= |input| && r == DecodeSpec(tbl, input[..Wrap32(|input|)])
  {
    var inpLen := Wrap32(|input|);
    WrapLength(|input|);
    if inpLen < 6 && inpLen != 2 {
      return Err(TooShort);
    }
    assert |input| <= INT_MAX ==> input[..inpLen] == input;
    r := DecodeChars(tbl, input[..inpLen]);
  }

  /** The body of `base85r_decode` on the `inp_len` bytes it reads: one pass,
      accumulating each group in an `unsigned int` and flushing it as four bytes
      when its fifth digit arrives. */
  method DecodeChars(tbl: seq<int>, input: seq<Byte>) returns (r: Result<seq<Byte>, Base85Error>)
    requires ValidTable(tbl)
    ensures r == DecodeSpec(tbl, input)
  {
    if |input| < 6 && |input| != 2 {
      return Err(TooShort);
    }
    var out: seq<Byte> := [];
    var tail := -1;
    var shift := 0;
    var val := 0;
    var pos := 0;
    ghost var syms: seq<int> := [];
    ghost var cur: seq<int> := [];
    while pos < |input|
      invariant 0 <= pos <= |input|
      invariant syms == Symbols(tbl, input[..pos])
      invariant Run(syms) == DecoderState(tail, cur, out)
      invariant shift == |cur| && val == Accumulated(cur)
      invariant tail <= 4 && (tail == -1 <==> syms == [])
    {
      var digit := Digit(tbl, input[pos]);
      SymbolsStep(tbl, input, pos);
      if digit != -1 {
        if tail == -1 {
          RunPush(syms, digit);
          tail := digit;
          if tail > 4 {
            TailTooLarge(tbl, input, pos);
            return Err(Corrupted);
          }
        } else {
          shift, val, out, cur := Accumulate(syms, tail, cur, digit, shift, val, out);
        }
        syms := syms + [digit];
      }
      pos := pos + 1;
    }
    assert input[..pos] == input;
    DecodeResult(tbl, input, tail, cur, out);
    if shift != 0 {
      return Err(Corrupted);
    }
    var outLen := |out| - TailCut(tail);
    if outLen < 0 {
      return Err(NegativeSize);
    }
    return Ok(out[..outLen]);
  }

  /** What the decoder's final checks make of the state after the whole input. */
  lemma DecodeFinish(len: nat, syms: seq<int>, tail: int, cur: seq<int>, out: seq<Byte>)
    requires len >= 6 || len == 2
    requires syms != [] ==> syms[0] >= 0
    requires Run(syms) == DecoderState(tail, cur, out) && tail <= 4
    ensures DecodeSymbols(len, syms) == if cur != [] then Err(Corrupted) else Trim(out, tail)
  {
    if syms != [] {
      RunShape(syms);
      var body := syms[1..];
      WholeGroups(|body|);
      if |body| % 5 == 0 {
        assert body[..5 * (|body| / 5)] == body;
      }
    }
  }

  /** A first symbol above 4 makes the whole input corrupted. */
  lemma TailTooLarge(tbl: seq<int>, input: seq<Byte>, pos: nat)
    requires ValidTable(tbl) && pos < |input| && (|input| >= 6 || |input| == 2)
    requires Symbols(tbl, input[..pos]) == []
    requires Digit(tbl, input[pos]) > 4
    ensures DecodeSpec(tbl, input) == Err(Corrupted)
  {
    SymbolsStep(tbl, input, pos);
    SymbolsPrefix(tbl, input, pos + 1);
  }

  /** The decoder's treatment of a digit after the tail symbol: add it to the
      `unsigned int` accumulator at its place value, and flush the group as four
      big-endian bytes when it is the fifth. */
  method Accumulate(ghost syms: seq<int>, ghost tail: int, ghost cur: seq<int>, digit: int,
                    shift: nat, val: int, out: seq<Byte>)
    returns (shift': nat, val': int, out': seq<Byte>, ghost cur': seq<int>)
    requires Run(syms) == DecoderState(tail, cur, out) && tail != -1
    requires shift == |cur| && val == Accumulated(cur)
    ensures Run(syms + [digit]) == DecoderState(tail, cur', out')
    ensures shift' == |cur'| && val' == Accumulated(cur')
  {
    RunPush(syms, digit);
    AccumulatedPush(cur, digit);
    val' := (val + digit * DI_VAL[shift]) % 0x1_0000_0000;
    shift' := shift + 1;
    out' := out;
    cur' := cur + [digit];
    if shift' == 5 {
      AccumulatedGroup(cur');
      out' := out + Be4(val');
      shift' := 0;
      val' := 0;
      cur' := [];
    }
  }

  /** The outcome `base85r_decode` reports once the whole input has been read. */
  lemma DecodeResult(tbl: seq<int>, input: seq<Byte>, tail: int, cur: seq<int>, out: seq<Byte>)
    requires ValidTable(tbl) && (|input| >= 6 || |input| == 2)
    requires Run(Symbols(tbl, input)) == DecoderState(tail, cur, out) && tail <= 4
    ensures DecodeSpec(tbl, input) == if cur != [] then Err(Corrupted) else Trim(out, tail)
  {
    FirstSymbol(tbl, input);
    DecodeFinish(|input|, Symbols(tbl, input), tail, cur, out);
  }

  lemma FirstSymbol(tbl: seq<int>, s: seq<Byte>)
    requires ValidTable(tbl)
    ensures Symbols(tbl, s) != [] ==> Symbols(tbl, s)[0] >= 0
  {
    SymbolsAreDigits(tbl, s);
  }

  lemma SymbolsStep(tbl: seq<int>, input: seq<Byte>, pos: nat)
    requires ValidTable(tbl) && pos < |input|
    ensures var d := Digit(tbl, input[pos]);
      Symbols(tbl, input[..pos + 1]) == Symbols(tbl, input[..pos]) + (if d == -1 then [] else [d])
  {
    assert input[..pos + 1][..pos] == input[..pos];
  }

  /** The symbols of a prefix start the symbols of the whole input. */
  lemma SymbolsPrefix(tbl: seq<int>, input: seq<Byte>, pos: nat)
    requires ValidTable(tbl) && pos <= |input|
    ensures Symbols(tbl, input[..pos]) <= Symbols(tbl, input)
  {
    SymbolsAppend(tbl, input[..pos], input[pos..]);
    assert input[..pos] + input[pos..] == input;
  }

  /** The five base-85 digits the encoder writes for a group value:
      `(val / di_val[i]) % 85`, the last place value being 1. */
  function GroupDigits(v: nat): (r: seq<int>)
    ensures |r| == 5 && forall i :: 0 <= i < 5 ==> 0 <= r[i] < 85
  {
    seq(5, i requires 0 <= i < 5 => (v / DI_VAL[i]) % 85)
  }

  /** The digits of a 32-bit group value spell it out again. */
  lemma GroupDigitsValue(v: nat)
    requires v < U32
    ensures GroupValue(GroupDigits(v)) == v
  {
    var d := GroupDigits(v);
    assert d == [(v / 52200625) % 85, (v / 614125) % 85, (v / 7225) % 85, (v / 85) % 85, v % 85];
    GroupValueStep(d, 1);
    assert GroupValue(d[..1]) == v / 52200625;
    GroupValueStep(d, 2);
    DivDiv(v, 614125, 85);
    assert GroupValue(d[..2]) == v / 614125;
    GroupValueStep(d, 3);
    DivDiv(v, 7225, 85);
    assert GroupValue(d[..3]) == v / 7225;
    GroupValueStep(d, 4);
    DivDiv(v, 85, 85);
    assert GroupValue(d[..4]) == v / 85;
    GroupValueStep(d, 5);
    DivDiv(v, 1, 85);
    assert d[..5] == d;
  }

  /** The value of the first `k` digits, from that of the first `k - 1`. */
  lemma GroupValueStep(d: seq<int>, k: nat)
    requires 0 < k <= |d|
    ensures GroupValue(d[..k]) == GroupValue(d[..k - 1]) * 85 + d[k - 1]
  {
    assert d[..k][..k - 1] == d[..k - 1];
  }

  /** Dividing by `a` and then by `b` is dividing by `a * b`; the quotient by `a`
      splits into its last base-`b` digit and the rest. */
  lemma DivDiv(v: nat, a: nat, b: nat)
    requires a > 0 && b > 0
    ensures v / a / b == v / (a * b)
    ensures v / a == (v / (a * b)) * b + (v / a) % b
  {
    var q := v / a;
    var r := v % a;
    var q2 := q / b;
    var r2 := q % b;
    assert q == b * q2 + r2;
    MulDistrib(a, b, q2, r2);
    assert v == (a * b) * q2 + (a * r2 + r);
    MulBelow(a, r2, b);
    DivUnique(v, a * b, q2, a * r2 + r);
  }

  lemma MulDistrib(a: nat, b: nat, q: nat, r: nat)
    ensures a * (b * q + r) == (a * b) * q + a * r
  {
  }

  /** A digit below `b`, scaled by `a`, plus a remainder below `a` stays below `a * b`. */
  lemma MulBelow(a: nat, r2: nat, b: nat)
    requires r2 < b
    ensures a * r2 + a <= a * b
  {
    MulAtLeast(a, b - r2);
    assert a * b == a * r2 + a * (b - r2);
  }

  /** The symbol bytes of a digit string. */
  function GroupSymbols(d: seq<int>): (r: seq<Byte>)
    requires forall i :: 0 <= i < |d| ==> 0 <= d[i] < 85
    ensures |r| == |d|
  {
    if d == [] then [] else GroupSymbols(d[..|d| - 1]) + [SymbolByte(d[|d| - 1])]
  }

  lemma GroupSymbolsRead(tbl: seq<int>, d: seq<int>)
    requires IsCharToVal(tbl)
    requires forall i :: 0 <= i < |d| ==> 0 <= d[i] < 85
    ensures ValidTable(tbl)
    ensures Symbols(tbl, GroupSymbols(d)) == d
  {
    CharToValValid(tbl);
    forall x | 0 <= x < 85
      ensures Digit(tbl, SymbolByte(x)) == x
    {
      SymbolRead(tbl, x);
    }
    SymbolsReadBack(tbl, d);
  }

  /** A table that reads every symbol back as its digit reads back a digit string. */
  ghost predicate ReadsBack(tbl: seq<int>)
    requires ValidTable(tbl)
  {
    forall x :: 0 <= x < 85 ==> Digit(tbl, SymbolByte(x)) == x
  }

  lemma {:induction false} SymbolsReadBack(tbl: seq<int>, d: seq<int>)
    requires ValidTable(tbl) && ReadsBack(tbl)
    requires forall i :: 0 <= i < |d| ==> 0 <= d[i] < 85
    ensures Symbols(tbl, GroupSymbols(d)) == d
    decreases |d|
  {
    if d != [] {
      var init, last := d[..|d| - 1], d[|d| - 1];
      assert d == init + [last];
      GroupSymbolsPush(init, last);
      SymbolsPush(tbl, GroupSymbols(init), SymbolByte(last));
      SymbolsReadBack(tbl, init);
    }
  }

  lemma GroupSymbolsPush(d: seq<int>, x: int)
    requires forall i :: 0 <= i < |d| ==> 0 <= d[i] < 85
    requires 0 <= x < 85
    ensures GroupSymbols(d + [x]) == GroupSymbols(d) + [SymbolByte(x)]
  {
    assert (d + [x])[..|d|] == d;
  }

  lemma SymbolsPush(tbl: seq<int>, s: seq<Byte>, b: Byte)
    requires ValidTable(tbl)
    ensures Symbols(tbl, s + [b]) == Symbols(tbl, s) + (if Digit(tbl, b) == -1 then [] else [Digit(tbl, b)])
  {
    assert (s + [b])[..|s|] == s;
  }

  /** The 4-byte chunk of the input starting at `pos`, zero-padded at the end. */
  function Chunk(s: seq<Byte>, pos: nat): (r: seq<Byte>)
    requires pos < |s|
    ensures |r| == 4
  {
    if pos + 4 <= |s| then s[pos..pos + 4] else s[pos..] + Zeros(pos + 4 - |s|)
  }

  function Zeros(k: nat): (r: seq<Byte>)
    ensures |r| == k && forall i :: 0 <= i < k ==> r[i] == 0
  {
    seq(k, _ => 0)
  }

  /** Where the chunk after the one at `pos` starts. */
  function NextPos(s: seq<Byte>, pos: nat): nat
  {
    if pos + 4 <= |s| then pos + 4 else |s|
  }

  /** The line break written after a group that ends at input position `next`:
      one after every `4 * STR_WIDTH` = 56 input bytes. */
  function LineBreak(next: nat): seq<Byte>
  {
    if next % 56 == 0 then [NEWLINE, SPACE] else []
  }

  /** The output of the encoder's main loop from input position `pos` on. */
  function EncodeBody(s: seq<Byte>, pos: nat): seq<Byte>
    decreases |s| - pos
  {
    if pos >= |s| then []
    else
      GroupSymbols(GroupDigits(ChunkValue(Chunk(s, pos)))) + LineBreak(NextPos(s, pos)) + EncodeBody(s, NextPos(s, pos))
  }

  /** The length of an encoded text for an input of `n` bytes: two header bytes, five
      symbols per started 4-byte chunk and a line break per full line of 56 bytes. */
  function EncodedLength(n: nat): nat
  {
    2 + 5 * ((n + 3) / 4) + 2 * (n / 56)
  }

  /** `base85_encode_buf_len` with unbounded integers: round the length up to whole
      chunks, add a quarter for the base change, 5% for line breaks, and 32 bytes. */
  function EncodeBufLen(n: nat): nat
  {
    var aligned := 4 * (n / 4) + (if n % 4 != 0 then 4 else 0);
    (aligned * 5 / 4) * 105 / 100 + 32
  }

  lemma {:induction false} EncodeBodyLength(s: seq<Byte>, pos: nat)
    requires pos % 4 == 0 && pos <= |s|
    ensures |EncodeBody(s, pos)| == 5 * ((|s| - pos + 3) / 4) + 2 * (|s| / 56 - pos / 56)
  {
    EncodeBodyCount(s, pos);
    BodyLengthClosed(|s|, pos);
  }

  /** The length of the encoder's output from input position `pos` on, for an input
      of `n` bytes, counted chunk by chunk. */
  function BodyLength(n: nat, pos: nat): nat
    decreases n - pos
  {
    if pos >= n then 0
    else
      var next := if pos + 4 <= n then pos + 4 else n;
      5 + (if next % 56 == 0 then 2 else 0) + BodyLength(n, next)
  }

  lemma {:induction false} EncodeBodyCount(s: seq<Byte>, pos: nat)
    ensures |EncodeBody(s, pos)| == BodyLength(|s|, pos)
    decreases |s| - pos
  {
    if pos < |s| {
      EncodeBodyStep(s, pos);
      EncodeBodyCount(s, NextPos(s, pos));
    }
  }

  lemma EncodeBodyStep(s: seq<Byte>, pos: nat)
    requires pos < |s|
    ensures var next := NextPos(s, pos);
      |EncodeBody(s, pos)| == 5 + (if next % 56 == 0 then 2 else 0) + |EncodeBody(s, next)|
  {
  }

  lemma {:induction false} BodyLengthClosed(n: nat, pos: nat)
    requires pos % 4 == 0 && pos <= n
    ensures BodyLength(n, pos) == 5 * ((n - pos + 3) / 4) + 2 * (n / 56 - pos / 56)
    decreases n - pos
  {
    if pos < n {
      if pos + 4 <= n {
        BodyLengthClosed(n, pos + 4);
        LineStep(n, pos);
      } else {
        LastChunkLine(pos, n);
      }
    }
  }

  lemma LineStep(n: nat, pos: nat)
    requires pos % 4 == 0 && pos + 4 <= n
    ensures 5 + (if (pos + 4) % 56 == 0 then 2 else 0) + 5 * ((n - (pos + 4) + 3) / 4) + 2 * (n / 56 - (pos + 4) / 56)
      == 5 * ((n - pos + 3) / 4) + 2 * (n / 56 - pos / 56)
  {
    assert (n - pos + 3) / 4 == (n - (pos + 4) + 3) / 4 + 1;
    LineCount(pos);
  }

  /** Four more bytes from a chunk boundary cross a line end exactly when they
      reach a multiple of 56. */
  lemma LineCount(pos: nat)
    requires pos % 4 == 0
    ensures (pos + 4) / 56 == pos / 56 + (if (pos + 4) % 56 == 0 then 1 else 0)
  {
    var q := pos / 56;
    var r := pos % 56;
    assert pos == 56 * q + r && r % 4 == 0 && r <= 52;
    if r == 52 {
      assert pos + 4 == 56 * (q + 1);
    } else {
      assert pos + 4 == 56 * q + (r + 4) && r + 4 < 56;
    }
  }

  lemma LastChunkLine(pos: nat, n: nat)
    requires pos % 4 == 0 && pos < n < pos + 4
    ensures n / 56 == pos / 56 && n % 56 != 0 && (n - pos + 3) / 4 == 1
  {
  }

  /** The buffer `base85_encode_buf_len` asks for always holds the encoded text. */
  lemma BufLenSuffices(n: nat)
    ensures EncodedLength(n) < EncodeBufLen(n)
  {
    var g := (n + 3) / 4;
    assert 4 * (n / 4) + (if n % 4 != 0 then 4 else 0) == 4 * g;
    assert 4 * g * 5 / 4 == 5 * g;
    assert 5 * g * 105 / 100 >= 5 * g + g / 4 - 1;
    assert n / 56 <= g / 14;
  }

  /** `base85r_encode` as intended: the buffer length is `EncodeBufLen`, computed
      without overflow, and since it always exceeds the encoded length the
      "internal memory error" check never fires (`EncodeAsWritten` keeps the
      32-bit buffer length of the C code). */
  function Encode(s: seq<Byte>): (r: Result<seq<Byte>, Base85Error>)
    ensures r.Ok?
    ensures |r.value| == EncodedLength(|s|)
    ensures r.value[..2] == [SPACE, SymbolByte(|s| % 4)]
  {
    var out := [SPACE, SymbolByte(|s| % 4)] + EncodeBody(s, 0);
    EncodeBodyLength(s, 0);
    BufLenSuffices(|s|);
    if |out| >= EncodeBufLen(|s|) then Err(InternalMemoryError) else Ok(out)
  }

  /** The digits the encoder writes from position `pos` on. */
  function DigitStream(s: seq<Byte>, pos: nat): (r: seq<int>)
    ensures |r| % 5 == 0
    decreases |s| - pos
  {
    if pos >= |s| then [] else GroupDigits(ChunkValue(Chunk(s, pos))) + DigitStream(s, NextPos(s, pos))
  }

  lemma LineBreakSkipped(tbl: seq<int>, next: nat)
    requires IsCharToVal(tbl)
    ensures ValidTable(tbl)
    ensures Symbols(tbl, LineBreak(next)) == []
  {
    CharToValValid(tbl);
    var brk := LineBreak(next);
    if brk != [] {
      BreaksAreNotSymbols();
      NonSymbolSkipped(tbl, NEWLINE);
      NonSymbolSkipped(tbl, SPACE);
      assert brk == [NEWLINE, SPACE];
      assert brk[..1] == [NEWLINE];
      assert Symbols(tbl, [NEWLINE]) == [] by {
        assert [NEWLINE][..0] == [];
      }
    }
  }

  lemma {:induction false} EncodeBodySymbols(tbl: seq<int>, s: seq<Byte>, pos: nat)
    requires IsCharToVal(tbl)
    ensures ValidTable(tbl)
    ensures Symbols(tbl, EncodeBody(s, pos)) == DigitStream(s, pos)
    decreases |s| - pos
  {
    CharToValValid(tbl);
    if pos < |s| {
      var next := NextPos(s, pos);
      GroupThenBreak(tbl, GroupDigits(ChunkValue(Chunk(s, pos))), next, EncodeBody(s, next));
      EncodeBodySymbols(tbl, s, next);
    }
  }

  /** A group's symbols and the line break after it read back as the group's digits. */
  lemma GroupThenBreak(tbl: seq<int>, d: seq<int>, next: nat, rest: seq<Byte>)
    requires IsCharToVal(tbl)
    requires forall i :: 0 <= i < |d| ==> 0 <= d[i] < 85
    ensures ValidTable(tbl)
    ensures Symbols(tbl, GroupSymbols(d) + LineBreak(next) + rest) == d + Symbols(tbl, rest)
  {
    CharToValValid(tbl);
    var g := GroupSymbols(d);
    var b := LineBreak(next);
    GroupSymbolsRead(tbl, d);
    LineBreakSkipped(tbl, next);
    SymbolsAppend(tbl, g, b);
    assert Symbols(tbl, g + b) == d + [];
    assert d + [] == d;
    SymbolsAppend(tbl, g + b, rest);
  }

  /** The number of zero bytes that pad `k` bytes to whole chunks. */
  function PadLen(k: nat): nat
  {
    (4 - k % 4) % 4
  }

  /** A chunk survives the trip through its five digits. */
  lemma ChunkBytes(c: seq<Byte>)
    requires |c| == 4
    ensures GroupBytes(GroupDigits(ChunkValue(c))) == c
  {
    var v := ChunkValue(c);
    GroupDigitsValue(v);
    Be4Chunk(c);
  }

  lemma Be4Chunk(c: seq<Byte>)
    requires |c| == 4
    ensures Be4(ChunkValue(c)) == c
  {
    Be4Of(c[0], c[1], c[2], c[3]);
    assert c == [c[0], c[1], c[2], c[3]];
  }

  lemma Be4Of(a: Byte, b: Byte, x: Byte, y: Byte)
    ensures Be4(((a * 256 + b) * 256 + x) * 256 + y) == [a, b, x, y]
  {
    var v := ((a * 256 + b) * 256 + x) * 256 + y;
    var r := Be4(v);
    var w := v % 0x1_0000_0000;
    ByteOf(v, 0x100_0000, a, b * 0x1_0000 + x * 256 + y, 0);
    ByteOf(v, 0x1_0000, a * 256 + b, x * 256 + y, a);
    ByteOf(v, 256, (a * 256 + b) * 256 + x, y, a * 256 + b);
    ByteOf(v, 1, v, 0, (a * 256 + b) * 256 + x);
    assert r[0] == w / BYTE_PLACE[0] % 256;
    assert r[1] == w / BYTE_PLACE[1] % 256;
    assert r[2] == w / BYTE_PLACE[2] % 256;
    assert r[3] == w / BYTE_PLACE[3] % 256;
  }

  /** The byte of `v` at place value `m`, when `v == m * (256 * hi + byte) + lo`. */
  lemma ByteOf(v: nat, m: nat, q: nat, lo: nat, hi: nat)
    requires m > 0 && v < 0x1_0000_0000 && v == m * q + lo && lo < m && q >= 256 * hi && q - 256 * hi < 256
    ensures v % 0x1_0000_0000 / m % 256 == q - 256 * hi
  {
    DivMod(v, 0x1_0000_0000, 0, v);
    DivMod(v, m, q, lo);
    DivMod(q, 256, hi, q - 256 * hi);
  }

  /** The digit groups of the whole input decode to the input followed by its
      zero padding. */
  lemma DigitStreamBytes(s: seq<Byte>)
    ensures GroupsToBytes(DigitStream(s, 0)) == s + Zeros(PadLen(|s|))
  {
    var f := (p: nat) => GroupsToBytes(DigitStream(s, p));
    forall p | 0 <= p < |s| && p % 4 == 0
      ensures f(p) == Chunk(s, p) + f(NextPos(s, p))
    {
      DigitStreamStep(s, p);
    }
    ChunkInduction(s, 0, f);
    assert s[0..] == s;
  }

  /** Any function of the input position that emits the chunk at every chunk
      boundary and nothing at the end emits the rest of the input, zero-padded. */
  lemma {:induction false} ChunkInduction(s: seq<Byte>, pos: nat, f: nat -> seq<Byte>)
    requires (pos % 4 == 0 || pos == |s|) && pos <= |s|
    requires f(|s|) == []
    requires forall p :: 0 <= p < |s| && p % 4 == 0 ==> f(p) == Chunk(s, p) + f(NextPos(s, p))
    ensures f(pos) == s[pos..] + Zeros(PadLen(|s| - pos))
    decreases |s| - pos
  {
    if pos < |s| {
      var next := NextPos(s, pos);
      ChunkInduction(s, next, f);
      ChunkThenRest(s, pos, f(next));
    } else {
      assert s[pos..] == [] && Zeros(0) == [];
    }
  }

  /** A chunk followed by the rest of the input and its padding is the input from
      the chunk on, with the same padding. */
  lemma ChunkThenRest(s: seq<Byte>, pos: nat, rest: seq<Byte>)
    requires pos < |s| && pos % 4 == 0
    requires rest == s[NextPos(s, pos)..] + Zeros(PadLen(|s| - NextPos(s, pos)))
    ensures Chunk(s, pos) + rest == s[pos..] + Zeros(PadLen(|s| - pos))
  {
    if pos + 4 <= |s| {
      PadStep(|s| - pos);
      assert s[pos..pos + 4] + s[pos + 4..] == s[pos..];
    } else {
      PadLast(|s| - pos);
      assert s[|s|..] == [] && Zeros(0) == [];
    }
  }

  /** One chunk of digits decodes to the chunk. */
  lemma DigitStreamStep(s: seq<Byte>, pos: nat)
    requires pos < |s|
    ensures GroupsToBytes(DigitStream(s, pos)) == Chunk(s, pos) + GroupsToBytes(DigitStream(s, NextPos(s, pos)))
  {
    var c := Chunk(s, pos);
    var d := GroupDigits(ChunkValue(c));
    var rest := DigitStream(s, NextPos(s, pos));
    assert DigitStream(s, pos) == d + rest;
    ChunkBytes(c);
    GroupsToBytesPush([], d);
    assert [] + d == d;
    GroupsToBytesAppend(d, rest);
  }

  lemma PadStep(k: nat)
    requires k >= 4
    ensures PadLen(k) == PadLen(k - 4)
  {
  }

  lemma PadLast(k: nat)
    requires 0 < k < 4
    ensures PadLen(k) == 4 - k
  {
  }

  /** Decoding an encoded text gives back the input. */
  lemma DecodeEncode(tbl: seq<int>, s: seq<Byte>)
    requires IsCharToVal(tbl)
    ensures ValidTable(tbl)
    ensures DecodeSpec(tbl, Encode(s).value) == Ok(s)
  {
    CharToValValid(tbl);
    var e := Encode(s).value;
    EncodeSymbols(tbl, s);
    DigitStreamBytes(s);
    DecodeOfDigits(|e|, s, DigitStream(s, 0));
  }

  /** The symbols of an encoded text: the tail length, then every group's digits. */
  lemma EncodeSymbols(tbl: seq<int>, s: seq<Byte>)
    requires IsCharToVal(tbl)
    ensures ValidTable(tbl)
    ensures Symbols(tbl, Encode(s).value) == [|s| % 4] + DigitStream(s, 0)
  {
    CharToValValid(tbl);
    var t := |s| % 4;
    var head := [SPACE, SymbolByte(t)];
    assert Encode(s).value == head + EncodeBody(s, 0);
    SymbolsAppend(tbl, head, EncodeBody(s, 0));
    HeadSymbols(tbl, t);
    EncodeBodySymbols(tbl, s, 0);
  }

  lemma HeadSymbols(tbl: seq<int>, t: int)
    requires IsCharToVal(tbl) && 0 <= t < 85
    ensures ValidTable(tbl)
    ensures Symbols(tbl, [SPACE, SymbolByte(t)]) == [t]
  {
    var head := [SPACE, SymbolByte(t)];
    BreaksAreNotSymbols();
    NonSymbolSkipped(tbl, SPACE);
    SymbolRead(tbl, t);
    assert Symbols(tbl, [SPACE]) == [] by {
      assert [SPACE][..0] == [];
    }
    assert head[..1] == [SPACE];
    assert Symbols(tbl, head) == Symbols(tbl, [SPACE]) + [t];
  }

  lemma DecodeOfDigits(len: nat, s: seq<Byte>, ds: seq<int>)
    requires len == EncodedLength(|s|) && |ds| % 5 == 0
    requires GroupsToBytes(ds) == s + Zeros(PadLen(|s|))
    ensures DecodeSymbols(len, [|s| % 4] + ds) == Ok(s)
  {
    var syms := [|s| % 4] + ds;
    EncodedLengthPasses(|s|);
    assert syms[1..] == ds && syms[0] == |s| % 4;
    TrimPadding(s);
  }

  /** Cutting the padding the tail symbol announces leaves the input. */
  lemma TrimPadding(s: seq<Byte>)
    ensures Trim(s + Zeros(PadLen(|s|)), |s| % 4) == Ok(s)
  {
    PadTail(|s|);
    assert (s + Zeros(PadLen(|s|)))[..|s|] == s;
  }

  /** Every encoded length passes the decoder's length check. */
  lemma EncodedLengthPasses(n: nat)
    ensures EncodedLength(n) == 2 || EncodedLength(n) >= 6
  {
  }

  /** The tail symbol cuts exactly the zero padding of the last chunk. */
  lemma PadTail(n: nat)
    ensures TailCut(n % 4) == PadLen(n) && (n + PadLen(n)) % 4 == 0
  {
  }

  /** A byte that is not a symbol does not change a decoding that passes the length check. */
  lemma DecodeSkipsNonSymbols(tbl: seq<int>, a: seq<Byte>, b: Byte, c: seq<Byte>)
    requires IsCharToVal(tbl) && !IsSymbolByte(b)
    requires |a + c| >= 6
    ensures ValidTable(tbl)
    ensures DecodeSpec(tbl, a + [b] + c) == DecodeSpec(tbl, a + c)
  {
    SymbolsSkip(tbl, a, b, c);
    assert |a + [b] + c| >= 6;
  }

  /** A byte that is no symbol contributes nothing to the symbols of an input. */
  lemma SymbolsSkip(tbl: seq<int>, a: seq<Byte>, b: Byte, c: seq<Byte>)
    requires IsCharToVal(tbl) && !IsSymbolByte(b)
    ensures ValidTable(tbl)
    ensures Symbols(tbl, a + [b] + c) == Symbols(tbl, a + c)
  {
    NonSymbolSkipped(tbl, b);
    SymbolsAppend(tbl, a + [b], c);
    SymbolsAppend(tbl, a, [b]);
    SymbolsAppend(tbl, a, c);
    assert Symbols(tbl, [b]) == [] by {
      assert [b][..0] == [];
    }
  }

  // ---- `base85_encode_buf_len` and the table read in `base85r_decode`, as written ----

  /** A C `int` result as a two's-complement machine keeps it: the mathematical value
      reduced into `INT_MIN..INT_MAX`. */
  function Wrap32(x: int): (r: int)
    ensures INT_MIN <= r <= INT_MAX
    ensures (r - x) % 0x1_0000_0000 == 0
  {
    (x - INT_MIN) % 0x1_0000_0000 + INT_MIN
  }

  /** A length read into an `int` is kept as it is up to `INT_MAX`; a longer one
      comes out negative or shorter than it was. */
  lemma WrapLength(n: nat)
    ensures Wrap32(n) <= n
    ensures n <= INT_MAX ==> Wrap32(n) == n
    ensures INT_MAX < n < 0x1_0000_0000 ==> Wrap32(n) < 0
  {
  }

  /** C division of `int`s, which truncates toward zero. */
  function CDiv(a: int, b: int): (q: int)
    requires b > 0
    ensures a >= 0 ==> q == a / b
    ensures a < 0 ==> q == -((-a) / b)
  {
    if a >= 0 then a / b else -((-a) / b)
  }

  /** `base85_encode_buf_len` on 32-bit `int`s, every intermediate product wrapping. */
  function BufLenAsWritten(n: nat): int
    requires n <= INT_MAX
  {
    var aligned := Wrap32(4 * (n / 4) + (if n % 4 != 0 then 4 else 0));
    var quarter := CDiv(Wrap32(aligned * 5), 4);
    var margin := CDiv(Wrap32(quarter * 105), 100);
    Wrap32(margin + 32)
  }

  /** At 16361781 input bytes `buf_len * 105` passes `INT_MAX` and the buffer length
      comes out negative, so `rb_str_new` refuses to allocate the output. */
  lemma BufLenOverflows()
    ensures BufLenAsWritten(16361781) == -21474799 < 0 < EncodedLength(16361781)
  {
    var n := 16361781;
    assert 4 * (n / 4) + (if n % 4 != 0 then 4 else 0) == 16361784;
    assert Wrap32(16361784) == 16361784;
    assert Wrap32(16361784 * 5) == 81808920;
    assert CDiv(81808920, 4) == 20452230;
    assert 20452230 * 105 == 2147484150;
    assert Wrap32(2147484150) == -2147483146;
    assert CDiv(-2147483146, 100) == -21474831;
    assert Wrap32(-21474831 + 32) == -21474799;
  }

  /** Below that size nothing wraps and the C function computes `EncodeBufLen`. */
  lemma BufLenAsWrittenAgrees(n: nat)
    requires n <= 16361780
    ensures BufLenAsWritten(n) == EncodeBufLen(n)
  {
    var a := 4 * (n / 4) + (if n % 4 != 0 then 4 else 0);
    assert 0 <= a <= 16361780;
    WrapSmall(a);
    WrapSmall(a * 5);
    var q := a * 5 / 4;
    assert q <= 20452225;
    WrapSmall(q * 105);
    var m := q * 105 / 100;
    WrapSmall(m + 32);
  }

  /** `base85r_encode` as written, for inputs whose length fits the `int` it is
      read into: the output buffer is `BufLenAsWritten` bytes, a negative size makes
      `rb_str_new` raise, and a buffer too small for the text trips the memory check
      once the text has been written. */
  function EncodeAsWritten(s: seq<Byte>): (r: Result<seq<Byte>, Base85Error>)
    requires |s| <= INT_MAX
    ensures r.Ok? ==> r == Encode(s)
    ensures |s| <= 16361780 ==> r == Encode(s)
    ensures BufLenAsWritten(|s|) < 0 ==> r == Err(NegativeSize)
  {
    var bufLen := BufLenAsWritten(|s|);
    SmallBufLenSuffices(|s|);
    if bufLen < 0 then Err(NegativeSize)
    else if EncodedLength(|s|) >= bufLen then Err(InternalMemoryError)
    else Encode(s)
  }

  /** An input of 16361781 bytes, which the intended encoder turns into text, makes
      the C encoder raise. */
  lemma EncodeAsWrittenFails(s: seq<Byte>)
    requires |s| == 16361781
    ensures Encode(s).Ok? && EncodeAsWritten(s) == Err(NegativeSize)
  {
    BufLenOverflows();
  }

  lemma SmallBufLenSuffices(n: nat)
    requires n <= INT_MAX
    ensures n <= 16361780 ==> EncodedLength(n) < BufLenAsWritten(n)
  {
    if n <= 16361780 {
      BufLenAsWrittenAgrees(n);
      BufLenSuffices(n);
    }
  }

  lemma WrapSmall(x: int)
    requires 0 <= x <= INT_MAX
    ensures Wrap32(x) == x
  {
  }

  /** `char_to_val[(int) inptr[pos]]` as written: the index is the unsigned byte, and
      a byte of 128 or more reads past the 128-entry table. `None` stands for that
      out-of-bounds read. */
  function DigitAsWritten(tbl: seq<int>, b: Byte): (d: Option<int>)
    requires ValidTable(tbl)
    ensures d.Some? <==> b < |tbl|
  {
    if b < |tbl| then Some(tbl[b]) else None
  }

  /** The first byte outside 7-bit ASCII already reads outside the table. */
  lemma DigitAsWrittenOutOfBounds(tbl: seq<int>)
    requires ValidTable(tbl)
    ensures DigitAsWritten(tbl, 0x80) == None
  {
  }

  /** `Digit` reads exactly what the C code reads wherever that read is in bounds,
      and skips every other byte like any other non-symbol. */
  lemma DigitCorrects(tbl: seq<int>, b: Byte)
    requires ValidTable(tbl)
    ensures b < TABLE_SIZE ==> DigitAsWritten(tbl, b) == Some(Digit(tbl, b))
    ensures b >= TABLE_SIZE ==> Digit(tbl, b) == -1 && !IsSymbolByte(b)
  {
    if b >= TABLE_SIZE {
      AlphabetFacts();
    }
  }
}

=== FILE: dumper.dfy ===
/** The second pass of a dump (ext/node-marshal/nodedump.c): every slot of every
    node in the node table is replaced by a location code and a word
    (`dump_node_value`), the records are packed into one string (`dump_nodes`),
    and the tables become the arrays of the dump Hash (`NODEInfo_toHash`,
    `m_nodedump_to_hash`). */
module Dumper {
  import opened Wrappers
  import opened Words
  import opened Kinds
  import opened NodeLayout
  import opened Values
  import opened LeafTables
  import opened Walker
  import opened Records
  import Shapes

  datatype DumpError =
    | WalkFailed(e: WalkError)       // the first pass raised
    | ChildNotANode(slot: int)       // "is not a node"
    | ChildNotFound(slot: int)       // a child node missing from the node table
    | LiteralNotFound                // "Cannot find literal"
    | SymbolNotFound                 // "Cannot find symbol ID"
    | EntryNotFound                  // "Cannot find some entry"
    | UnknownChildKind(kind: int)    // "Unknown child node type"
    | CorruptedArgs                  // an argument record not of ten items
    | UnknownNodeInArgs              // "Unknown NODE in args tables"
    | UnknownSymbolInArgs            // "Unknown symbolic ID in args tables"
    | IntRange                       // FIX2INT of a Fixnum outside the C int range
    | Undefined                      // C undefined behaviour: a wrong type read as another

  /** `NODEInfo_getTableByID`: the table of `info` that keeps the children of
      kind `kind`. Raw words, `NT_NULL`, `NT_LONG` and the unknown kinds have none. */
  function TableOf(info: NodeInfo, kind: int): (r: Option<Table>)
    ensures r.Some? <==> kind in {NT_ID, NT_VALUE, NT_IDTABLE, NT_ARGS, NT_ENTRY, NT_NODE}
    ensures kind == NT_ID ==> r == Some(info.syms)
    ensures kind == NT_VALUE ==> r == Some(info.lits)
    ensures kind == NT_IDTABLE ==> r == Some(info.idTabs)
    ensures kind == NT_ARGS ==> r == Some(info.args)
    ensures kind == NT_ENTRY ==> r == Some(info.gentries)
    ensures kind == NT_NODE ==> r == Some(info.nodes)
    ensures r.Some? && info.Valid() ==> r.value.Valid()
    ensures r.Some? && info.Bounded() ==> r.value.Pos() <= ORD_LIMIT
  {
    if kind == NT_ID then Some(info.syms)
    else if kind == NT_VALUE then Some(info.lits)
    else if kind == NT_IDTABLE then Some(info.idTabs)
    else if kind == NT_ARGS then Some(info.args)
    else if kind == NT_ENTRY then Some(info.gentries)
    else if kind == NT_NODE then Some(info.nodes)
    else None
  }

  /** The location code `dump_node_value` dumps a global entry, an argument
      record or a local ID table under. */
  function EntryCode(kind: int): (vl: int)
    requires kind in {NT_ENTRY, NT_ARGS, NT_IDTABLE}
  {
    if kind == NT_ENTRY then VL_GVAR else if kind == NT_ARGS then VL_ARGS else VL_IDTABLE
  }

  /** `dump_node_value`: the location code and word a slot of kind `kind` holding
      `value` is dumped as, in child slot `slot` of a node of type `nodeType`. A
      raw word stays as it is; anything the loader must relocate becomes its
      ordinal in the matching table. */
  function DumpNodeValue(heap: Heap, info: NodeInfo, nodeType: int, kind: int, value: Word, slot: int)
    : (r: Result<Field, DumpError>)
    requires info.Valid() && info.Bounded()
    ensures r.Ok? ==> r.value.Valid() && r.value.vl in VL_CODES
    ensures r.Ok? && r.value.vl == VL_RAW ==> r.value.value == value
    ensures r.Ok? && r.value.vl == VL_NODE ==>
      kind == NT_NODE && r.value.value < info.nodes.Pos() && info.nodes.keys[r.value.value] == Key(value)
    ensures r.Ok? && r.value.vl == VL_LIT ==>
      kind == NT_VALUE && r.value.value < info.lits.Pos() && info.lits.keys[r.value.value] == Key(value)
    ensures r.Ok? && r.value.vl == VL_ID ==>
      kind == NT_ID && r.value.value < info.syms.Pos() && info.syms.keys[r.value.value] == Fix(value)
    ensures r.Ok? && r.value.vl == VL_GVAR ==>
      kind == NT_ENTRY && r.value.value < info.gentries.Pos() && info.gentries.keys[r.value.value] == Key(value)
    ensures r.Ok? && r.value.vl == VL_ARGS ==>
      kind == NT_ARGS && r.value.value < info.args.Pos() && info.args.keys[r.value.value] == Key(value)
    ensures r.Ok? && r.value.vl == VL_IDTABLE ==>
      kind == NT_IDTABLE && r.value.value < info.idTabs.Pos() && info.idTabs.keys[r.value.value] == Key(value)
    ensures kind == NT_NULL || kind == NT_LONG ==> r == Ok(Field(VL_RAW, value))
    ensures kind == NT_ID ==> (r.Err? <==> Fix(value) !in info.syms.keys)
    ensures kind == NT_VALUE ==> (r.Err? <==> IsValueInHeap(value) && Key(value) !in info.lits.keys)
    ensures kind == NT_NODE && value != 0 && !(nodeType == NODE_ATTRASGN && value == 1 && slot == 1) ==>
      (r.Ok? <==> heap.IsNode(value) && Key(value) in info.nodes.keys)
    ensures !IsSlotKind(kind) ==> r == Err(UnknownChildKind(kind))
  {
    if kind == NT_NULL || kind == NT_LONG then
      Ok(Field(VL_RAW, value))
    else if kind == NT_NODE then
      if value == 0 then Ok(Field(VL_RAW, value))
      else if nodeType == NODE_ATTRASGN && value == 1 && slot == 1 then Ok(Field(VL_RAW, value))
      else if !heap.IsNode(value) then Err(ChildNotANode(slot))
      else
        var id := KeyToID(info.nodes, Key(value));
        if id == -1 then Err(ChildNotFound(slot)) else Ok(Field(VL_NODE, id))
    else if kind == NT_VALUE then
      if !IsValueInHeap(value) then Ok(Field(VL_RAW, value))
      else
        var id := KeyToID(info.lits, Key(value));
        if id == -1 then Err(LiteralNotFound) else Ok(Field(VL_LIT, id))
    else if kind == NT_ID then
      var id := KeyToID(info.syms, Fix(value));
      if id == -1 then Err(SymbolNotFound) else Ok(Field(VL_ID, id))
    else if kind == NT_ENTRY || kind == NT_ARGS || kind == NT_IDTABLE then
      var table := TableOf(info, kind).value;
      var id := KeyToID(table, Key(value));
      if id == -1 then Err(EntryNotFound) else Ok(Field(EntryCode(kind), id))
    else
      Err(UnknownChildKind(kind))
  }

  /** The kinds `dump_nodes` gives the three slots of `node`: the table's row,
      overridden for a `NODE_OP_ASGN2` whose first slot is a known symbol and
      for `NODE_ARGS_AUX`. The walk's overrides look at the parent node instead,
      which the dump pass no longer knows. */
  function DumpKinds(ctbl: seq<int>, info: NodeInfo, node: Node): (ut: seq<int>)
    requires |ctbl| == 3 * Shapes.CTBL_SIZE
    requires info.Valid()
    ensures |ut| == 3
    ensures var t := NdType(node.flags);
      t != NODE_OP_ASGN2 && t != NODE_ARGS_AUX ==> ut == ctbl[3 * t .. 3 * t + 3]
    ensures NdType(node.flags) == NODE_OP_ASGN2 && Fix(node.u1) in info.syms.keys ==> ut == [NT_ID, NT_ID, NT_ID]
    ensures NdType(node.flags) == NODE_OP_ASGN2 && Fix(node.u1) !in info.syms.keys ==>
      ut == ctbl[3 * NODE_OP_ASGN2 .. 3 * NODE_OP_ASGN2 + 3]
    ensures NdType(node.flags) == NODE_ARGS_AUX ==>
      && ut[0] == (if node.u1 == 0 then NT_NULL else NT_ID)
      && ut[1] == (if node.u2 == 0 then NT_NULL else if Fix(node.u2) in info.syms.keys then NT_ID else NT_LONG)
      && ut[2] == (if node.u3 == 0 then NT_NULL else NT_NODE)
  {
    var t := NdType(node.flags);
    var row := ctbl[3 * t .. 3 * t + 3];
    var row := if t == NODE_OP_ASGN2 && KeyToID(info.syms, Fix(node.u1)) != -1 then [NT_ID, NT_ID, NT_ID] else row;
    if t == NODE_ARGS_AUX then
      [ if node.u1 == 0 then NT_NULL else NT_ID,
        if node.u2 == 0 then NT_NULL else if KeyToID(info.syms, Fix(node.u2)) != -1 then NT_ID else NT_LONG,
        if node.u3 == 0 then NT_NULL else NT_NODE ]
    else row
  }

  /** One record of `dump_nodes`: the flags shifted right by five and the three
      dumped slots. */
  function DumpRecord(ctbl: seq<int>, heap: Heap, info: NodeInfo, node: Node): (r: Result<Record, DumpError>)
    requires |ctbl| == 3 * Shapes.CTBL_SIZE
    requires info.Valid() && info.Bounded()
    ensures r.Ok? ==> r.value.Valid() && r.value.saved == SaveFlags(node.flags)
    ensures r.Ok? ==> var ut := DumpKinds(ctbl, info, node); var t := NdType(node.flags);
      && Ok(r.value.f1) == DumpNodeValue(heap, info, t, ut[0], node.u1, 1)
      && Ok(r.value.f2) == DumpNodeValue(heap, info, t, ut[1], node.u2, 2)
      && Ok(r.value.f3) == DumpNodeValue(heap, info, t, ut[2], node.u3, 3)
  {
    var ut := DumpKinds(ctbl, info, node);
    var t := NdType(node.flags);
    var f1 :- DumpNodeValue(heap, info, t, ut[0], node.u1, 1);
    var f2 :- DumpNodeValue(heap, info, t, ut[1], node.u2, 2);
    var f3 :- DumpNodeValue(heap, info, t, ut[2], node.u3, 3);
    Ok(Record(SaveFlags(node.flags), f1, f2, f3))
  }

  /** The records of the nodes whose address texts are `keys`, in order. A key
      that names no node is read as one anyway in C. */
  function DumpRecords(ctbl: seq<int>, heap: Heap, info: NodeInfo, keys: seq<RValue>): (r: Result<seq<Record>, DumpError>)
    requires |ctbl| == 3 * Shapes.CTBL_SIZE
    requires info.Valid() && info.Bounded()
    ensures r.Ok? ==> |r.value| == |keys|
    ensures r.Ok? ==> forall i :: 0 <= i < |keys| ==>
      keys[i].Key? && keys[i].addr in heap.nodes && Ok(r.value[i]) == DumpRecord(ctbl, heap, info, heap.nodes[keys[i].addr])
    ensures (forall i :: 0 <= i < |keys| ==>
      keys[i].Key? && keys[i].addr in heap.nodes && DumpRecord(ctbl, heap, info, heap.nodes[keys[i].addr]).Ok?) ==> r.Ok?
    decreases |keys|
  {
    if keys == [] then Ok([])
    else
      var init :- (assert forall i :: 0 <= i < |keys| - 1 ==> keys[..|keys| - 1][i] == keys[i];
        DumpRecords(ctbl, heap, info, keys[..|keys| - 1]));
      var k := keys[|keys| - 1];
      if !k.Key? || k.addr !in heap.nodes then Err(DumpError.Undefined)
      else
        var last :- DumpRecord(ctbl, heap, info, heap.nodes[k.addr]);
        assert forall i :: 0 <= i < |keys| - 1 ==> keys[..|keys| - 1][i] == keys[i];
        Ok(init + [last])
  }

  /** `dump_nodes`: the records of all nodes in node-table order, then one more
      byte, whose value the C leaves unset (`filler`). */
  function DumpNodes(ctbl: seq<int>, heap: Heap, info: NodeInfo, filler: Byte): (r: Result<seq<Byte>, DumpError>)
    requires |ctbl| == 3 * Shapes.CTBL_SIZE
    requires info.Valid() && info.Bounded()
    ensures r.Ok? <==> DumpRecords(ctbl, heap, info, info.nodes.keys).Ok?
    ensures r.Ok? ==> DecodeAll(r.value, info.nodes.Pos()) == Some(DumpRecords(ctbl, heap, info, info.nodes.keys).value)
    ensures r.Ok? ==> forall n: nat :: n > info.nodes.Pos() ==> DecodeAll(r.value, n).None?
  {
    var records :- DumpRecords(ctbl, heap, info, info.nodes.keys);
    DecodeAllEncodeAll(records, [filler]);
    NothingPast(records, [filler]);
    Ok(EncodeAll(records) + [filler])
  }

  /** Behind the last record there is no further one to read. */
  lemma NothingPast(records: seq<Record>, rest: seq<Byte>)
    requires forall i :: 0 <= i < |records| ==> records[i].Valid()
    requires |rest| < 4
    ensures forall n: nat :: n > |records| ==> DecodeAll(EncodeAll(records) + rest, n).None?
  {
    forall n: nat | n > |records|
      ensures DecodeAll(EncodeAll(records) + rest, n).None?
    {
      DecodeAllPastEnd(records, rest, n);
    }
  }

  /** An item of a local ID table in `NODEInfo_toHash`: the symbol's ordinal. */
  function RewriteSymbol(syms: Table, item: RValue): (r: Result<RValue, DumpError>)
    requires syms.Valid() && syms.Pos() <= ORD_LIMIT
    ensures r.Ok? <==> item in syms.keys
    ensures r.Ok? ==> r.value.Fix? && 0 <= r.value.i < syms.Pos() && syms.keys[r.value.i] == item
    ensures r.Err? ==> r == Err(SymbolNotFound)
  {
    var id := KeyToID(syms, item);
    if id == -1 then Err(SymbolNotFound) else Ok(Fix(id))
  }

  /** All items of a local ID table, in order; the first unknown symbol raises. */
  function RewriteSymbols(syms: Table, items: seq<RValue>): (r: Result<seq<RValue>, DumpError>)
    requires syms.Valid() && syms.Pos() <= ORD_LIMIT
    ensures r.Ok? <==> forall j :: 0 <= j < |items| ==> items[j] in syms.keys
    ensures r.Ok? ==> |r.value| == |items| && forall j :: 0 <= j < |items| ==> Ok(r.value[j]) == RewriteSymbol(syms, items[j])
    decreases |items|
  {
    if items == [] then Ok([])
    else
      var init := items[..|items| - 1];
      assert forall j :: 0 <= j < |init| ==> init[j] == items[j];
      var done :- RewriteSymbols(syms, init);
      var last :- RewriteSymbol(syms, items[|items| - 1]);
      Ok(done + [last])
  }

  /** The `id_tables` array of `NODEInfo_toHash`: every local ID table with its
      symbol IDs replaced by their ordinals. An entry that is no array is read
      as one in C. */
  function RewriteIdTables(syms: Table, tables: seq<RValue>): (r: Result<seq<RValue>, DumpError>)
    requires syms.Valid() && syms.Pos() <= ORD_LIMIT
    ensures r.Ok? ==> |r.value| == |tables|
    ensures r.Ok? ==> forall i :: 0 <= i < |tables| ==>
      tables[i].Ary? && RewriteSymbols(syms, tables[i].items).Ok? && r.value[i] == Ary(RewriteSymbols(syms, tables[i].items).value)
    decreases |tables|
  {
    if tables == [] then Ok([])
    else
      var init := tables[..|tables| - 1];
      assert forall j :: 0 <= j < |init| ==> init[j] == tables[j];
      var done :- RewriteIdTables(syms, init);
      var last := tables[|tables| - 1];
      if !last.Ary? then Err(DumpError.Undefined)
      else
        var items :- RewriteSymbols(syms, last.items);
        Ok(done + [Ary(items)])
  }

  /** A node field of an argument record in `NODEInfo_toHash`: -1 for a null
      pointer, otherwise the node's ordinal. */
  function RewriteNodeRef(nodes: Table, item: RValue): (r: Result<RValue, DumpError>)
    requires nodes.Valid() && nodes.Pos() <= ORD_LIMIT
    ensures item == Key(0) ==> r == Ok(Fix(-1))
    ensures item.Key? && item.addr != 0 ==> (r.Ok? <==> item in nodes.keys)
    ensures r.Ok? && item != Key(0) ==> r.value.Fix? && 0 <= r.value.i < nodes.Pos() && nodes.keys[r.value.i] == item
  {
    if !item.Key? then Err(DumpError.Undefined)
    else if item.addr == 0 then Ok(Fix(-1))
    else
      var id := KeyToID(nodes, item);
      if id == -1 then Err(UnknownNodeInArgs) else Ok(Fix(id))
  }

  /** An `ID` field of an argument record in `NODEInfo_toHash`: -1 for no symbol
      (`FIX2INT(key) == 0`), otherwise the symbol's ordinal. `FIX2INT` raises for
      a Fixnum outside the C `int` range. */
  function RewriteSymbolRef(syms: Table, item: RValue): (r: Result<RValue, DumpError>)
    requires syms.Valid() && syms.Pos() <= ORD_LIMIT
    ensures item == Fix(0) ==> r == Ok(Fix(-1))
    ensures item.Fix? && item.i != 0 && INT_MIN <= item.i <= INT_MAX ==> (r.Ok? <==> item in syms.keys)
    ensures r.Ok? && item != Fix(0) ==> r.value.Fix? && 0 <= r.value.i < syms.Pos() && syms.keys[r.value.i] == item
  {
    if !item.Fix? then Err(DumpError.Undefined)
    else if !(INT_MIN <= item.i <= INT_MAX) then Err(IntRange)
    else if item.i == 0 then Ok(Fix(-1))
    else
      var id := KeyToID(syms, item);
      if id == -1 then Err(UnknownSymbolInArgs) else Ok(Fix(id))
  }

  /** One entry of the `args` array of `NODEInfo_toHash`: the node fields (items
      0, 1, 7, 8, 9) and then the `ID` fields (items 4, 5, 6) are replaced by
      ordinals; the two counts stay. */
  function RewriteArgs(info: NodeInfo, entry: RValue): (r: Result<RValue, DumpError>)
    requires info.Valid() && info.Bounded()
    ensures r.Ok? ==> entry.Ary? && |entry.items| == 10 && r.value.Ary? && |r.value.items| == 10
    ensures r.Ok? ==> var e := entry.items; var d := r.value.items;
      && d[2] == e[2] && d[3] == e[3]
      && Ok(d[0]) == RewriteNodeRef(info.nodes, e[0]) && Ok(d[1]) == RewriteNodeRef(info.nodes, e[1])
      && Ok(d[7]) == RewriteNodeRef(info.nodes, e[7]) && Ok(d[8]) == RewriteNodeRef(info.nodes, e[8])
      && Ok(d[9]) == RewriteNodeRef(info.nodes, e[9])
      && Ok(d[4]) == RewriteSymbolRef(info.syms, e[4]) && Ok(d[5]) == RewriteSymbolRef(info.syms, e[5])
      && Ok(d[6]) == RewriteSymbolRef(info.syms, e[6])
    ensures entry.Ary? && |entry.items| != 10 ==> r == Err(CorruptedArgs)
  {
    if !entry.Ary? then Err(DumpError.Undefined)
    else if |entry.items| != 10 then Err(CorruptedArgs)
    else
      var e := entry.items;
      var n0 :- RewriteNodeRef(info.nodes, e[0]);
      var n1 :- RewriteNodeRef(info.nodes, e[1]);
      var n7 :- RewriteNodeRef(info.nodes, e[7]);
      var n8 :- RewriteNodeRef(info.nodes, e[8]);
      var n9 :- RewriteNodeRef(info.nodes, e[9]);
      var s4 :- RewriteSymbolRef(info.syms, e[4]);
      var s5 :- RewriteSymbolRef(info.syms, e[5]);
      var s6 :- RewriteSymbolRef(info.syms, e[6]);
      Ok(Ary([n0, n1, e[2], e[3], s4, s5, s6, n7, n8, n9]))
  }

  /** The `args` array of `NODEInfo_toHash`, entry by entry. */
  function RewriteArgsAll(info: NodeInfo, entries: seq<RValue>): (r: Result<seq<RValue>, DumpError>)
    requires info.Valid() && info.Bounded()
    ensures r.Ok? ==> |r.value| == |entries|
    ensures r.Ok? ==> forall i :: 0 <= i < |entries| ==> Ok(r.value[i]) == RewriteArgs(info, entries[i])
    decreases |entries|
  {
    if entries == [] then Ok([])
    else
      var init := entries[..|entries| - 1];
      assert forall j :: 0 <= j < |init| ==> init[j] == entries[j];
      var done :- RewriteArgsAll(info, init);
      var last :- RewriteArgs(info, entries[|entries| - 1]);
      Ok(done + [last])
  }

  /** The fields of the Hash `NODEInfo_toHash` returns. */
  const HASH_FIELDS: set<string> := {"MAGIC", "RUBY_PLATFORM", "RUBY_VERSION", "literals", "symbols",
    "global_entries", "id_tables", "args", "nodes"}

  /** What the interpreter and the caller contribute to a dump Hash: the
      `RUBY_PLATFORM` and `RUBY_VERSION` strings, the `@nodename`, `@filename`
      and `@filepath` values, and the byte `dump_nodes` leaves unset. */
  datatype Env = Env(platform: seq<Byte>, version: seq<Byte>, nodename: RValue, filename: RValue, filepath: RValue, filler: Byte)

  /** `NODEInfo_toHash`: the signatures, the leaf tables as arrays (ID tables
      and argument records rewritten to ordinals) and the packed node records. */
  function ToHash(ctbl: seq<int>, heap: Heap, info: NodeInfo, env: Env): (r: Result<map<string, RValue>, DumpError>)
    requires |ctbl| == 3 * Shapes.CTBL_SIZE
    requires info.Valid() && info.Bounded()
    ensures r.Ok? <==>
      && RewriteIdTables(info.syms, LeavesTable(info.idTabs)).Ok?
      && RewriteArgsAll(info, LeavesTable(info.args)).Ok?
      && DumpRecords(ctbl, heap, info, info.nodes.keys).Ok?
    ensures r.Ok? ==> r.value.Keys == HASH_FIELDS
    ensures r.Ok? ==> r.value["nodes"].Str?
    ensures r.Ok? ==> DecodeAll(r.value["nodes"].bytes, info.nodes.Pos()) == Some(DumpRecords(ctbl, heap, info, info.nodes.keys).value)
    ensures r.Ok? ==> forall n: nat :: n > info.nodes.Pos() ==> DecodeAll(r.value["nodes"].bytes, n).None?
  {
    var idTables :- RewriteIdTables(info.syms, LeavesTable(info.idTabs));
    var args :- RewriteArgsAll(info, LeavesTable(info.args));
    var nodes :- DumpNodes(ctbl, heap, info, env.filler);
    Ok(map[
      "MAGIC" := Str(MAGIC),
      "RUBY_PLATFORM" := Str(env.platform),
      "RUBY_VERSION" := Str(env.version),
      "literals" := Ary(LeavesTable(info.lits)),
      "symbols" := Ary(LeavesTable(info.syms)),
      "global_entries" := Ary(LeavesTable(info.gentries)),
      "id_tables" := Ary(idTables),
      "args" := Ary(args),
      "nodes" := Str(nodes)])
  }

  /** The tables `count_num_of_nodes(root, root, info)` fills from empty ones,
      with the number of nodes it visited. The root is its own parent. */
  function WalkRoot(ctbl: seq<int>, heap: Heap, root: Word, fuel: nat): (r: Result<(NodeInfo, nat), DumpError>)
    requires |ctbl| == 3 * Shapes.CTBL_SIZE
    ensures r.Ok? ==> r.value.0.Valid() && r.value.0.Bounded() && r.value.1 <= INT_MAX
    ensures r.Ok? && root != 0 ==> r.value.0.nodes.Pos() >= 1 && r.value.0.nodes.keys[0] == Key(root)
    ensures r.Ok? ==> r.value.0.nodes.Pos() <= r.value.1
  {
    var parentType := if root in heap.nodes then NdType(heap.nodes[root].flags) else 0;
    match Walk(ctbl, heap, root, parentType, EmptyInfo(), fuel)
    case Err(e) => Err(WalkFailed(e))
    case Ok((info, count)) =>
      if !info.Bounded() || count > INT_MAX then Err(DumpError.Undefined)
      else
        assert root != 0 ==> info.nodes.keys[0] == Key(root) by {
          if root != 0 {
            assert info.nodes.ids[Key(root)] == 0;
          }
        }
        Ok((info, count))
  }

  /** The Hash `m_nodedump_to_hash` returns: the one `NODEInfo_toHash` built,
      with `num_of_nodes` and the three names added. */
  function Complete(hash: map<string, RValue>, count: int, env: Env): map<string, RValue>
  {
    hash["num_of_nodes" := Fix(count)]["nodename" := env.nodename]["filename" := env.filename]["filepath" := env.filepath]
  }

  /** The added fields hold what was added, and every field `NODEInfo_toHash`
      wrote is still there, unchanged. */
  lemma CompleteFields(hash: map<string, RValue>, count: int, env: Env)
    requires hash.Keys == HASH_FIELDS
    ensures var c := Complete(hash, count, env);
      && c["num_of_nodes"] == Fix(count)
      && c["nodename"] == env.nodename && c["filename"] == env.filename && c["filepath"] == env.filepath
    ensures forall name :: name in HASH_FIELDS ==> name in Complete(hash, count, env) && Complete(hash, count, env)[name] == hash[name]
  {
  }

  /** `m_nodedump_to_hash`: walk, build the Hash, and add `num_of_nodes` (the
      number of nodes the walk visited) and the three names. A node reached
      twice is counted twice, so the count can exceed the number of records. */
  function DumpAsWritten(ctbl: seq<int>, heap: Heap, root: Word, fuel: nat, env: Env): (r: Result<map<string, RValue>, DumpError>)
    requires |ctbl| == 3 * Shapes.CTBL_SIZE
    ensures r.Ok? <==> Dump(ctbl, heap, root, fuel, env).Ok?
    ensures r.Ok? ==> "num_of_nodes" in r.value && r.value["num_of_nodes"] == Fix(WalkRoot(ctbl, heap, root, fuel).value.1)
    ensures r.Ok? ==> "nodes" in r.value && r.value["nodes"] == Dump(ctbl, heap, root, fuel, env).value["nodes"]
    ensures r.Ok? ==> r.value["num_of_nodes"].i >= Dump(ctbl, heap, root, fuel, env).value["num_of_nodes"].i
  {
    var (info, count) :- WalkRoot(ctbl, heap, root, fuel);
    DumpCounted(ctbl, heap, info, count, env)
  }

  /** `m_nodedump_to_hash` with `num_of_nodes` the number of records written,
      the size of the node table: the count the loader reads back is exactly
      the number of records in the `nodes` string. */
  function Dump(ctbl: seq<int>, heap: Heap, root: Word, fuel: nat, env: Env): (r: Result<map<string, RValue>, DumpError>)
    requires |ctbl| == 3 * Shapes.CTBL_SIZE
    ensures r.Ok? ==> WalkRoot(ctbl, heap, root, fuel).Ok?
    ensures r.Ok? ==> "num_of_nodes" in r.value && r.value["num_of_nodes"].Fix? && r.value["num_of_nodes"].i >= 0
    ensures r.Ok? ==> "nodes" in r.value && r.value["nodes"].Str?
    ensures r.Ok? ==> DecodeAll(r.value["nodes"].bytes, r.value["num_of_nodes"].i).Some?
    ensures r.Ok? ==> forall n: nat :: n > r.value["num_of_nodes"].i ==> DecodeAll(r.value["nodes"].bytes, n).None?
  {
    var (info, count) :- WalkRoot(ctbl, heap, root, fuel);
    DumpCounted(ctbl, heap, info, info.nodes.Pos(), env)
  }

  /** The Hash `NODEInfo_toHash` builds from walked tables, completed with
      `count` as `num_of_nodes` and the three names. The records in `nodes`
      read back as exactly as many as the node table holds. */
  function DumpCounted(ctbl: seq<int>, heap: Heap, info: NodeInfo, count: int, env: Env): (r: Result<map<string, RValue>, DumpError>)
    requires |ctbl| == 3 * Shapes.CTBL_SIZE
    requires info.Valid() && info.Bounded()
    ensures r.Ok? <==> ToHash(ctbl, heap, info, env).Ok?
    ensures r.Ok? ==> "num_of_nodes" in r.value && r.value["num_of_nodes"] == Fix(count)
    ensures r.Ok? ==> "nodes" in r.value && r.value["nodes"] == ToHash(ctbl, heap, info, env).value["nodes"]
    ensures r.Ok? ==> r.value["nodes"].Str?
    ensures r.Ok? ==> DecodeAll(r.value["nodes"].bytes, info.nodes.Pos()).Some?
    ensures r.Ok? ==> forall n: nat :: n > info.nodes.Pos() ==> DecodeAll(r.value["nodes"].bytes, n).None?
  {
    var hash :- ToHash(ctbl, heap, info, env);
    CompleteFields(hash, count, env);
    Ok(Complete(hash, count, env))
  }
}

=== FILE: kinds.dfy ===
/** The constants of ext/node-marshal/nodedump.h: the kinds of the three child
    slots of a node (`NT_*`), the location codes a dumped slot carries (`VL_*`)
    and the signature of the format. */
module Kinds {
  import opened Words

  // Slot kinds, as stored in the child-info table.
  const NT_NULL: int := 0
  const NT_UNKNOWN: int := 1
  const NT_NODE: int := 2
  const NT_VALUE: int := 3
  const NT_ID: int := 4
  const NT_INTEGER: int := 5
  const NT_LONG: int := 5
  const NT_ARGS: int := 6
  const NT_ENTRY: int := 7
  const NT_IDTABLE: int := 8
  const NT_MEMORY: int := 9

  // Where the loader finds a dumped slot's value.
  const VL_RAW: int := 0     // the word itself
  const VL_NODE: int := 1    // ordinal in the node table
  const VL_ID: int := 2      // ordinal in the symbol table
  const VL_GVAR: int := 3    // ordinal in the global-entry table
  const VL_IDTABLE: int := 4 // ordinal in the table of local ID tables
  const VL_ARGS: int := 5    // ordinal in the table of argument records
  const VL_LIT: int := 6     // ordinal in the literal table

  /** The location codes in order. */
  const VL_CODES: seq<int> := [VL_RAW, VL_NODE, VL_ID, VL_GVAR, VL_IDTABLE, VL_ARGS, VL_LIT]

  /** `NODEMARSHAL_MAGIC`, the format signature written by the dumper: the ASCII
      bytes of "NODEMARSHAL11". */
  const MAGIC: seq<Byte> := [0x4e, 0x4f, 0x44, 0x45, 0x4d, 0x41, 0x52, 0x53, 0x48, 0x41, 0x4c, 0x31, 0x31]

  /** The slot kinds the child-info table may hold for a described node type. */
  predicate IsSlotKind(k: int)
  {
    k == NT_NULL || k == NT_NODE || k == NT_VALUE || k == NT_ID || k == NT_LONG
    || k == NT_ARGS || k == NT_ENTRY || k == NT_IDTABLE
  }
}

=== FILE: layout.dfy ===
/** The node layout of Ruby 2.2 as seen by the extension (ext/node-marshal/node220.h):
    the `node_type` enumeration, the bit layout of a node's `flags` word and the
    `rb_args_info` record a `NODE_ARGS` node points to. */
module NodeLayout {
  import opened Words

  // `enum node_type`, in declaration order.
  const NODE_SCOPE: int := 0  const NODE_BLOCK: int := 1  const NODE_IF: int := 2
  const NODE_CASE: int := 3  const NODE_WHEN: int := 4  const NODE_OPT_N: int := 5
  const NODE_WHILE: int := 6  const NODE_UNTIL: int := 7  const NODE_ITER: int := 8
  const NODE_FOR: int := 9  const NODE_BREAK: int := 10  const NODE_NEXT: int := 11
  const NODE_REDO: int := 12  const NODE_RETRY: int := 13  const NODE_BEGIN: int := 14
  const NODE_RESCUE: int := 15  const NODE_RESBODY: int := 16  const NODE_ENSURE: int := 17
  const NODE_AND: int := 18  const NODE_OR: int := 19  const NODE_MASGN: int := 20
  const NODE_LASGN: int := 21  const NODE_DASGN: int := 22  const NODE_DASGN_CURR: int := 23
  const NODE_GASGN: int := 24  const NODE_IASGN: int := 25  const NODE_IASGN2: int := 26
  const NODE_CDECL: int := 27  const NODE_CVASGN: int := 28  const NODE_CVDECL: int := 29
  const NODE_OP_ASGN1: int := 30  const NODE_OP_ASGN2: int := 31  const NODE_OP_ASGN_AND: int := 32
  const NODE_OP_ASGN_OR: int := 33  const NODE_OP_CDECL: int := 34  const NODE_CALL: int := 35
  const NODE_FCALL: int := 36  const NODE_VCALL: int := 37  const NODE_SUPER: int := 38
  const NODE_ZSUPER: int := 39  const NODE_ARRAY: int := 40  const NODE_ZARRAY: int := 41
  const NODE_VALUES: int := 42  const NODE_HASH: int := 43  const NODE_RETURN: int := 44
  const NODE_YIELD: int := 45  const NODE_LVAR: int := 46  const NODE_DVAR: int := 47
  const NODE_GVAR: int := 48  const NODE_IVAR: int := 49  const NODE_CONST: int := 50
  const NODE_CVAR: int := 51  const NODE_NTH_REF: int := 52  const NODE_BACK_REF: int := 53
  const NODE_MATCH: int := 54  const NODE_MATCH2: int := 55  const NODE_MATCH3: int := 56
  const NODE_LIT: int := 57  const NODE_STR: int := 58  const NODE_DSTR: int := 59
  const NODE_XSTR: int := 60  const NODE_DXSTR: int := 61  const NODE_EVSTR: int := 62
  const NODE_DREGX: int := 63  const NODE_DREGX_ONCE: int := 64  const NODE_ARGS: int := 65
  const NODE_ARGS_AUX: int := 66  const NODE_OPT_ARG: int := 67  const NODE_KW_ARG: int := 68
  const NODE_POSTARG: int := 69  const NODE_ARGSCAT: int := 70  const NODE_ARGSPUSH: int := 71
  const NODE_SPLAT: int := 72  const NODE_TO_ARY: int := 73  const NODE_BLOCK_ARG: int := 74
  const NODE_BLOCK_PASS: int := 75  const NODE_DEFN: int := 76  const NODE_DEFS: int := 77
  const NODE_ALIAS: int := 78  const NODE_VALIAS: int := 79  const NODE_UNDEF: int := 80
  const NODE_CLASS: int := 81  const NODE_MODULE: int := 82  const NODE_SCLASS: int := 83
  const NODE_COLON2: int := 84  const NODE_COLON3: int := 85  const NODE_CREF: int := 86
  const NODE_DOT2: int := 87  const NODE_DOT3: int := 88  const NODE_FLIP2: int := 89
  const NODE_FLIP3: int := 90  const NODE_SELF: int := 91  const NODE_NIL: int := 92
  const NODE_TRUE: int := 93  const NODE_FALSE: int := 94  const NODE_ERRINFO: int := 95
  const NODE_DEFINED: int := 96  const NODE_POSTEXE: int := 97  const NODE_ALLOCA: int := 98
  const NODE_BMETHOD: int := 99  const NODE_MEMO: int := 100  const NODE_IFUNC: int := 101
  const NODE_DSYM: int := 102  const NODE_ATTRASGN: int := 103  const NODE_PRELUDE: int := 104
  const NODE_LAMBDA: int := 105  const NODE_LAST: int := 106

  /** A node type the enumeration declares, `NODE_LAST` included. */
  predicate IsNodeType(t: int)
  {
    NODE_SCOPE <= t <= NODE_LAST
  }

  /** `RUBY_T_NODE` of Ruby 2.2's ruby.h: the built-in type code kept in bits 0..4
      of every node's flags. ruby.h is not part of this model. */
  const T_NODE: nat := 0x1b

  // The flags word is a `VALUE`. Its fields are bits 0..7 (GC and built-in type
  // bits), 8..14 (`nd_type`) and 15..63 (`nd_line`). The masks and shifts of the
  // C macros are written as the equivalent remainders, quotients and products by
  // powers of two.
  const TYPE_UNIT: nat := 0x100      // 1 << NODE_TYPESHIFT
  const TYPE_LIMIT: nat := 0x80      // NODE_TYPEMASK >> NODE_TYPESHIFT, plus one
  const LINE_UNIT: nat := 0x8000     // 1 << NODE_LSHIFT
  const LINE_LIMIT: nat := 0x2_0000_0000_0000 // NODE_LMASK plus one: 49 bits
  const SAVE_UNIT: nat := 0x20       // the dump stores flags >> 5
  const SAVED_LIMIT: nat := 0x800_0000_0000_0000 // 2^59, the range of flags >> 5

  /** A C `int`. */
  type Int32 = i: int | INT_MIN <= i <= INT_MAX

  /** The C conversion of a word to `int`: its low 32 bits in two's complement. */
  function ToInt32(x: int): (r: Int32)
    ensures (r - x) % UINT_LIMIT == 0
    ensures INT_MIN <= x <= INT_MAX ==> r == x
  {
    var low := x % UINT_LIMIT;
    if low <= INT_MAX then low else low - UINT_LIMIT
  }

  /** `nd_type`: `(flags & NODE_TYPEMASK) >> NODE_TYPESHIFT`, bits 8..14. */
  function NdType(flags: Word): int
  {
    flags / TYPE_UNIT % TYPE_LIMIT
  }

  /** The flags word with line field `line`, type field `t` and low byte `low`. */
  function Flags(line: nat, t: nat, low: nat): Word
    requires line < LINE_LIMIT && t < TYPE_LIMIT && low < TYPE_UNIT
  {
    line * LINE_UNIT + t * TYPE_UNIT + low
  }

  /** `nd_set_type`: bits 8..14 are cleared and receive `(unsigned long) t << 8`
      under the mask, that is the seven low bits of `t` (2^64 is a multiple of
      128, so the conversion to `unsigned long` keeps them). */
  function SetType(flags: Word, t: int): Word
  {
    Flags(flags / LINE_UNIT, t % TYPE_LIMIT, flags % TYPE_UNIT)
  }

  /** `nd_line`: `(int) (flags >> NODE_LSHIFT)`. */
  function NdLine(flags: Word): Int32
  {
    ToInt32(flags / LINE_UNIT)
  }

  /** `nd_set_line`: bits 0..14 are kept and bits 15..63 receive `l & NODE_LMASK`,
      the two's-complement bits of the (sign-extended) line cut to 49 bits. */
  function SetLine(flags: Word, l: Int32): Word
  {
    l % LINE_LIMIT * LINE_UNIT + flags % LINE_UNIT
  }

  /** The flags word a dump stores: `flags >> 5`, dropping the built-in type bits. */
  function SaveFlags(flags: Word): Word
  {
    flags / SAVE_UNIT
  }

  /** The flags word a load rebuilds: `(f << 5) | T_NODE`. The shift keeps the 59
      low bits of `f` and leaves bits 0..4 clear for `T_NODE`. */
  function RestoreFlags(saved: Word): Word
  {
    saved % SAVED_LIMIT * SAVE_UNIT + T_NODE
  }

  /** Every word splits into its line field, type field and low byte, and the
      field accessors read back what `Flags` put together. */
  lemma FlagFields(line: nat, t: nat, low: nat)
    requires line < LINE_LIMIT && t < TYPE_LIMIT && low < TYPE_UNIT
    ensures Flags(line, t, low) / LINE_UNIT == line
    ensures NdType(Flags(line, t, low)) == t
    ensures Flags(line, t, low) % TYPE_UNIT == low
  {
    var f := Flags(line, t, low);
    DivMod(f, LINE_UNIT, line, t * TYPE_UNIT + low);
    DivMod(f, TYPE_UNIT, line * TYPE_LIMIT + t, low);
    DivMod(line * TYPE_LIMIT + t, TYPE_LIMIT, line, t);
  }

  lemma FlagsOf(flags: Word)
    ensures flags / LINE_UNIT < LINE_LIMIT
    ensures flags == Flags(flags / LINE_UNIT, NdType(flags), flags % TYPE_UNIT)
  {
    var q := flags / TYPE_UNIT;
    DivMod(q, TYPE_LIMIT, q / TYPE_LIMIT, q % TYPE_LIMIT);
    DivMod(flags, LINE_UNIT, q / TYPE_LIMIT, q % TYPE_LIMIT * TYPE_UNIT + flags % TYPE_UNIT);
  }

  /** After `nd_set_type(n, t)`, `nd_type(n)` is `t` cut to seven bits (so `t`
      itself for every declared type), and the line and the low byte of the
      flags are those from before. */
  lemma SetTypeThenNdType(flags: Word, t: int)
    ensures NdType(SetType(flags, t)) == t % TYPE_LIMIT
    ensures IsNodeType(t) ==> NdType(SetType(flags, t)) == t
    ensures SetType(flags, t) / LINE_UNIT == flags / LINE_UNIT
    ensures SetType(flags, t) % TYPE_UNIT == flags % TYPE_UNIT
    ensures NdLine(SetType(flags, t)) == NdLine(flags)
  {
    FlagsOf(flags);
    FlagFields(flags / LINE_UNIT, t % TYPE_LIMIT, flags % TYPE_UNIT);
  }

  /** After `nd_set_line(n, l)`, `nd_line(n)` gives back `l`, and bits 0..14, the
      type among them, are those from before. */
  lemma SetLineThenNdLine(flags: Word, l: Int32)
    ensures NdLine(SetLine(flags, l)) == l
    ensures SetLine(flags, l) % LINE_UNIT == flags % LINE_UNIT
    ensures NdType(SetLine(flags, l)) == NdType(flags)
  {
    var line := l % LINE_LIMIT;
    var f := SetLine(flags, l);
    DivMod(f, LINE_UNIT, line, flags % LINE_UNIT);
    var k := l / LINE_LIMIT;
    SameLowBits(line, l, k * (LINE_LIMIT / UINT_LIMIT));
    FlagsOf(flags);
    FlagsOf(f);
    FlagFields(line, NdType(flags), flags % TYPE_UNIT);
  }

  /** Two numbers a multiple of 2^32 apart have the same low 32 bits. */
  lemma SameLowBits(a: int, b: int, k: int)
    requires a == b - k * UINT_LIMIT
    ensures a % UINT_LIMIT == b % UINT_LIMIT
  {
  }

  /** Saving `flags >> 5` and restoring `(f << 5) | T_NODE` replaces bits 0..4 by
      `T_NODE` and nothing else, so type and line survive. */
  lemma SaveRestoreFlags(flags: Word)
    ensures SaveFlags(flags) < SAVED_LIMIT
    ensures RestoreFlags(SaveFlags(flags)) == flags - flags % SAVE_UNIT + T_NODE
    ensures NdType(RestoreFlags(SaveFlags(flags))) == NdType(flags)
    ensures NdLine(RestoreFlags(SaveFlags(flags))) == NdLine(flags)
  {
    var q := flags / SAVE_UNIT;
    assert RestoreFlags(q) == q * SAVE_UNIT + T_NODE;
    FlagsOf(flags);
    var line := flags / LINE_UNIT;
    var t := NdType(flags);
    var low := flags % TYPE_UNIT;
    DivMod(flags, SAVE_UNIT, line * (LINE_UNIT / SAVE_UNIT) + t * (TYPE_UNIT / SAVE_UNIT) + low / SAVE_UNIT, flags % SAVE_UNIT);
    FlagFields(line, t, low / SAVE_UNIT * SAVE_UNIT + T_NODE);
  }

  /** Restoring inverts saving on the 59-bit range that saving produces. */
  lemma RestoreThenSave(saved: Word)
    requires saved < SAVED_LIMIT
    ensures SaveFlags(RestoreFlags(saved)) == saved
  {
    DivMod(RestoreFlags(saved), SAVE_UNIT, saved, T_NODE);
  }

  /** `struct RNode`: the flags word and the three child slots, each a machine
      word whose meaning the node type decides. `nd_reserved` is left out. */
  datatype Node = Node(flags: Word, u1: Word, u2: Word, u3: Word)

  /** `struct rb_args_info`: the argument description a `NODE_ARGS` node points
      to in its third slot. The node fields are addresses (0 for none) and the
      `ID` fields are symbol IDs (0 for none). */
  datatype ArgsInfo = ArgsInfo(
    preInit: Word, postInit: Word,
    preArgsNum: Int32, postArgsNum: Int32,
    firstPostArg: Word, restArg: Word, blockArg: Word,
    kwArgs: Word, kwRestArg: Word, optArgs: Word)
  {
    /** The five node pointers, in the order `count_num_of_nodes` visits them. */
    function NodeFields(): seq<Word>
    {
      [preInit, postInit, kwArgs, kwRestArg, optArgs]
    }
  }
}

=== FILE: leaftable.dfy ===
/** `LeafTableInfo` of ext/node-marshal/nodedump.c: an interning table that
    gives every distinct key a dense ordinal, in order of first appearance, and
    keeps one payload per key. The C keeps two Ruby Hashes (`vals`, `ids`) and a
    counter (`pos`); Ruby Hashes iterate in insertion order, which `keys` keeps
    explicitly here. */
module LeafTables {

  datatype LeafTable<K(==,!new), V> = LeafTable(keys: seq<K>, vals: map<K, V>, ids: map<K, nat>)
  {
    /** `pos`: the next free ordinal. */
    function Pos(): nat
    {
      |keys|
    }

    /** The keys are distinct, both Hashes hold exactly them, and each key's
        ordinal is its position in insertion order. */
    ghost predicate Valid()
    {
      && ids.Keys == vals.Keys
      && (forall i :: 0 <= i < |keys| ==> keys[i] in ids && ids[keys[i]] == i)
      && (forall k :: k in ids ==> ids[k] < |keys| && keys[ids[k]] == k)
    }
  }

  /** `u` is `t` with possibly more keys appended: no key, ordinal or payload
      of `t` changes. */
  ghost predicate Grows<K(!new), V>(t: LeafTable<K, V>, u: LeafTable<K, V>)
  {
    && t.keys <= u.keys
    && (forall k :: k in t.ids ==> k in u.ids && u.ids[k] == t.ids[k])
    && (forall k :: k in t.vals ==> k in u.vals && u.vals[k] == t.vals[k])
  }

  lemma GrowsTrans<K(!new), V>(a: LeafTable<K, V>, b: LeafTable<K, V>, c: LeafTable<K, V>)
    requires Grows(a, b) && Grows(b, c)
    ensures Grows(a, c)
  {
  }

  /** `LeafTableInfo_init`: two empty Hashes and `pos = 0`. */
  function Empty<K(==,!new), V>(): (t: LeafTable<K, V>)
    ensures t.Valid() && t.Pos() == 0
  {
    LeafTable([], map[], map[])
  }

  /** `LeafTableInfo_addEntry`: a key seen before returns its ordinal and changes
      nothing; a new key gets ordinal `pos`, which then grows by one. */
  function AddEntry<K(==,!new), V>(t: LeafTable<K, V>, key: K, value: V): (r: (LeafTable<K, V>, nat))
    requires t.Valid()
    ensures r.0.Valid() && Grows(t, r.0) && key in r.0.ids && r.0.ids[key] == r.1
    ensures key in t.ids ==> r == (t, t.ids[key])
    ensures key !in t.ids ==> r.1 == t.Pos() && r.0.Pos() == t.Pos() + 1 && r.0.keys == t.keys + [key]
    ensures key !in t.ids ==> r.0.vals == t.vals[key := value] && r.0.ids == t.ids[key := t.Pos()]
  {
    if key in t.ids then (t, t.ids[key])
    else
      var id := |t.keys|;
      var u := LeafTable(t.keys + [key], t.vals[key := value], t.ids[key := id]);
      assert forall i :: 0 <= i < |t.keys| ==> u.keys[i] == t.keys[i];
      (u, id)
  }

  /** `LeafTableInfo_keyToID`: the ordinal of a key, or -1 for a key never added. */
  function KeyToID<K(==,!new), V>(t: LeafTable<K, V>, key: K): (id: int)
    requires t.Valid()
    ensures id == -1 <==> key !in t.keys
    ensures id != -1 ==> 0 <= id < t.Pos() && t.keys[id] == key
  {
    if key in t.ids then t.ids[key] else -1
  }

  /** `LeafTableInfo_getLeavesTable`: the payloads, indexed by ordinal. */
  function LeavesTable<K(==,!new), V>(t: LeafTable<K, V>): (r: seq<V>)
    requires t.Valid()
    ensures |r| == t.Pos()
    ensures forall k :: k in t.ids ==> r[t.ids[k]] == t.vals[k]
  {
    seq(|t.keys|, i requires 0 <= i < |t.keys| => t.vals[t.keys[i]])
  }

  /** Adding a key and asking for it gives the ordinal `AddEntry` returned, and
      the payload at that ordinal is the one stored for the key. */
  lemma AddThenLookup<K(!new), V>(t: LeafTable<K, V>, key: K, value: V)
    requires t.Valid()
    ensures var (u, id) := AddEntry(t, key, value);
      KeyToID(u, key) == id && LeavesTable(u)[id] == u.vals[key]
  {
  }

  /** Adding a new key appends its payload to the leaves; adding a known key
      leaves them as they were. Earlier ordinals never move. */
  lemma AddEntryLeaves<K(!new), V>(t: LeafTable<K, V>, key: K, value: V)
    requires t.Valid()
    ensures key !in t.ids ==> LeavesTable(AddEntry(t, key, value).0) == LeavesTable(t) + [value]
    ensures key in t.ids ==> LeavesTable(AddEntry(t, key, value).0) == LeavesTable(t)
    ensures forall k :: k in t.ids ==> KeyToID(AddEntry(t, key, value).0, k) == KeyToID(t, k)
  {
  }
}

=== FILE: loader.dfy ===
/** Loading a dump Hash back into nodes (ext/node-marshal/nodedump.c, part 4 and
    `m_nodedump_from_memory`): the tables are read first (`resolve_*_ords`),
    each turning ordinals into the things they stand for, then every record of
    the node string is read and its slots relocated (`load_nodes_from_str`). */
module Loader {
  import opened Wrappers
  import opened Words
  import opened Kinds
  import opened NodeLayout
  import opened Values
  import opened Records

  datatype LoadError =
    | Missing(field: string)             // "Cannot find ... table", "num_of_nodes not found"
    | NotAnArray(field: string)          // "... is not an array", "... should be an array"
    | NotAString(field: string)          // "Hash field ... is not a string", "Nodes description must be a string"
    | CorruptedSymbols                   // "Symbols table is corrupted"
    | CorruptedArgsEntry(index: nat)     // "args entry %d is corrupted"
    | InvalidNodeOrdinal(ord: int)       // "Invalid node ordinal"
    | InvalidSymbolOrdinal(ord: int)     // "Invalid symbol ID ordinal"
    | TooShort                           // "Nodes binary dump is too short"
    | CannotResolve(vl: int, value: Word)// "Cannot resolve VL_... entry"
    | UnknownRtype(vl: int)              // "Unknown RTYPE"
    | BadMagic                           // "Bad value of MAGIC signature"
    | IncompatiblePlatform               // "Incompatible RUBY_PLATFORM value"
    | IncompatibleVersion                // "Incompatible RUBY_VERSION value"
    | CorruptedName(field: string)       // "... value is corrupted"
    | IntRange                           // FIX2INT of a Fixnum outside the C int range
    | NegativeCount                      // ALLOC_N of a negative number of nodes
    | Undefined                          // C undefined behaviour: an unchecked type or index

  /** A slot of a loaded node, relocated into the loading process.
      - `Raw(w)`: the word as dumped.
      - `NodeRef(ord)`: the loaded node with that ordinal.
      - `Sym(id)`: a symbol ID of this process.
      - `Gvar(id)`: the global entry `rb_global_entry` gives for symbol `id`.
      - `IdTableRef(ord)`, `ArgsRef(ord)`: the loaded ID table or argument record with that ordinal.
      - `Lit(v)`: the literal object. */
  datatype Slot =
    | Raw(w: Word)
    | NodeRef(ord: nat)
    | Sym(id: Word)
    | Gvar(id: Word)
    | IdTableRef(ord: nat)
    | ArgsRef(ord: nat)
    | Lit(v: RValue)

  datatype LoadedNode = LoadedNode(flags: Word, u1: Slot, u2: Slot, u3: Slot)

  /** A node pointer of a loaded argument record. */
  datatype NodePtr = NullNode | NodeAt(ord: nat)

  /** A loaded `rb_args_info`. */
  datatype LoadedArgs = LoadedArgs(
    preInit: NodePtr, postInit: NodePtr,
    preArgsNum: Int32, postArgsNum: Int32,
    firstPostArg: Word, restArg: Word, blockArg: Word,
    kwArgs: NodePtr, kwRestArg: NodePtr, optArgs: NodePtr)

  /** `NODEObjAddresses`: the relocation tables. A local ID table is the list of
      its IDs; the empty list stands for the null pointer the loader stores for
      an empty table. */
  datatype Relocs = Relocs(
    syms: seq<Word>, lits: seq<RValue>, gvars: seq<Word>,
    idTables: seq<seq<Word>>, nodesLen: nat, args: seq<LoadedArgs>)

  /** `FIX2INT`: a Fixnum in the C `int` range. */
  function Fix2Int(v: RValue): (r: Result<Int32, LoadError>)
    ensures r.Ok? <==> v.Fix? && INT_MIN <= v.i <= INT_MAX
    ensures r.Ok? ==> r.value == v.i
  {
    if !v.Fix? then Err(Undefined)
    else if !(INT_MIN <= v.i <= INT_MAX) then Err(IntRange)
    else Ok(v.i)
  }

  /** `(ID) i` for a C `int` `i`: sign extension to 64 bits. */
  function IdOfInt(i: Int32): (id: Word)
    ensures i >= 0 ==> id == i
    ensures i < 0 ==> id == WORD_LIMIT + i
  {
    i % WORD_LIMIT
  }

  /** One entry of the symbol table: a name is interned, a Fixnum is the ID itself. */
  function ResolveSymbol(item: RValue, intern: seq<Byte> -> Word): (r: Result<Word, LoadError>)
    ensures item.Str? ==> r == Ok(intern(CString(item.bytes)))
    ensures item.Fix? && 0 <= item.i <= INT_MAX ==> r == Ok(item.i)
    ensures !item.Str? && !item.Fix? ==> r == Err(CorruptedSymbols)
  {
    if item.Str? then Ok(intern(CString(item.bytes)))
    else if item.Fix? then
      var i :- Fix2Int(item);
      Ok(IdOfInt(i))
    else Err(CorruptedSymbols)
  }

  /** The entries of the symbol table in order; the first bad one raises. */
  function ResolveSymbolList(items: seq<RValue>, intern: seq<Byte> -> Word): (r: Result<seq<Word>, LoadError>)
    ensures r.Ok? <==> forall i :: 0 <= i < |items| ==> ResolveSymbol(items[i], intern).Ok?
    ensures r.Ok? ==> |r.value| == |items| && forall i :: 0 <= i < |items| ==> Ok(r.value[i]) == ResolveSymbol(items[i], intern)
    decreases |items|
  {
    if items == [] then Ok([])
    else
      var init := items[..|items| - 1];
      assert forall i :: 0 <= i < |init| ==> init[i] == items[i];
      var done :- ResolveSymbolList(init, intern);
      var last :- ResolveSymbol(items[|items| - 1], intern);
      Ok(done + [last])
  }

  /** `resolve_syms_ords`. */
  function ResolveSyms(data: Container, intern: seq<Byte> -> Word): (r: Result<seq<Word>, LoadError>)
    ensures data.Get("symbols") == Nil ==> r == Err(Missing("symbols"))
    ensures r.Ok? ==> data.Get("symbols").Ary? && Ok(r.value) == ResolveSymbolList(data.Get("symbols").items, intern)
  {
    var v := data.Get("symbols");
    if v == Nil then Err(Missing("symbols"))
    else if !v.Ary? then Err(NotAnArray("symbols"))
    else ResolveSymbolList(v.items, intern)
  }

  /** `resolve_lits_ords`: the literals are used as they are. */
  function ResolveLits(data: Container): (r: Result<seq<RValue>, LoadError>)
    ensures data.Get("literals") == Nil ==> r == Err(Missing("literals"))
    ensures r.Ok? <==> data.Get("literals").Ary?
    ensures r.Ok? ==> r.value == data.Get("literals").items
  {
    var v := data.Get("literals");
    if v == Nil then Err(Missing("literals"))
    else if !v.Ary? then Err(NotAnArray("literals"))
    else Ok(v.items)
  }

  /** `syms_adr[FIX2INT(item)]`. The C does not check the index. */
  function SymbolAt(syms: seq<Word>, item: RValue): (r: Result<Word, LoadError>)
    ensures r.Ok? <==> item.Fix? && 0 <= item.i < |syms| && item.i <= INT_MAX
    ensures r.Ok? ==> r.value == syms[item.i]
  {
    var ind :- Fix2Int(item);
    if 0 <= ind < |syms| then Ok(syms[ind]) else Err(Undefined)
  }

  /** Each item's symbol, in order. */
  function SymbolsAt(syms: seq<Word>, items: seq<RValue>): (r: Result<seq<Word>, LoadError>)
    ensures r.Ok? <==> forall i :: 0 <= i < |items| ==> SymbolAt(syms, items[i]).Ok?
    ensures r.Ok? ==> |r.value| == |items| && forall i :: 0 <= i < |items| ==> Ok(r.value[i]) == SymbolAt(syms, items[i])
    decreases |items|
  {
    if items == [] then Ok([])
    else
      var init := items[..|items| - 1];
      assert forall i :: 0 <= i < |init| ==> init[i] == items[i];
      var done :- SymbolsAt(syms, init);
      var last :- SymbolAt(syms, items[|items| - 1]);
      Ok(done + [last])
  }

  /** `resolve_gvars_ords`: each entry is the ordinal of the variable's symbol;
      the loader asks the interpreter for that symbol's global entry, here the
      symbol itself stands for it. */
  function ResolveGvars(data: Container, syms: seq<Word>): (r: Result<seq<Word>, LoadError>)
    ensures data.Get("global_entries") == Nil ==> r == Err(Missing("global_entries"))
    ensures r.Ok? ==> data.Get("global_entries").Ary? && Ok(r.value) == SymbolsAt(syms, data.Get("global_entries").items)
  {
    var v := data.Get("global_entries");
    if v == Nil then Err(Missing("global_entries"))
    else if !v.Ary? then Err(NotAnArray("global_entries"))
    else SymbolsAt(syms, v.items)
  }

  /** The local ID tables, each as the list of its symbols. The C reads every
      entry as an array without checking. */
  function IdTablesAt(syms: seq<Word>, tables: seq<RValue>): (r: Result<seq<seq<Word>>, LoadError>)
    ensures r.Ok? <==> forall i :: 0 <= i < |tables| ==> tables[i].Ary? && SymbolsAt(syms, tables[i].items).Ok?
    ensures r.Ok? ==> |r.value| == |tables|
    ensures r.Ok? ==> forall i :: 0 <= i < |tables| ==>
      tables[i].Ary? && Ok(r.value[i]) == SymbolsAt(syms, tables[i].items)
    decreases |tables|
  {
    if tables == [] then Ok([])
    else
      var init := tables[..|tables| - 1];
      assert forall i :: 0 <= i < |init| ==> init[i] == tables[i];
      var done :- IdTablesAt(syms, init);
      var last := tables[|tables| - 1];
      if !last.Ary? then Err(Undefined)
      else
        var ids :- SymbolsAt(syms, last.items);
        Ok(done + [ids])
  }

  /** `resolve_idtbls_ords`. */
  function ResolveIdTables(data: Container, syms: seq<Word>): (r: Result<seq<seq<Word>>, LoadError>)
    ensures data.Get("id_tables") == Nil ==> r == Err(Missing("id_tables"))
    ensures r.Ok? ==> data.Get("id_tables").Ary? && Ok(r.value) == IdTablesAt(syms, data.Get("id_tables").items)
  {
    var v := data.Get("id_tables");
    if v == Nil then Err(Missing("id_tables"))
    else if !v.Ary? then Err(Undefined)
    else IdTablesAt(syms, v.items)
  }

  /** `resolve_nodes_ords`: room for `count` nodes. */
  function ResolveNodes(data: Container, count: Int32): (r: Result<nat, LoadError>)
    ensures r.Ok? <==> data.Get("nodes").Str? && count >= 0
    ensures r.Ok? ==> r.value == count
  {
    var v := data.Get("nodes");
    if v == Nil then Err(Missing("nodes"))
    else if !v.Str? then Err(NotAString("nodes"))
    else if count < 0 then Err(NegativeCount)
    else Ok(count)
  }

  /** `FIX2LONG`. */
  function Fix2Long(v: RValue): (r: Result<int, LoadError>)
    ensures r.Ok? <==> v.Fix?
    ensures r.Ok? ==> r.value == v.i
  {
    if v.Fix? then Ok(v.i) else Err(Undefined)
  }

  /** A node field of an argument record: the low 32 bits of the Fixnum, as an
      `int`, are an ordinal in `-1 .. nodesLen - 1`, and -1 is the null pointer. */
  function NodeOrdinal(v: int, nodesLen: nat): (r: Result<NodePtr, LoadError>)
    ensures r.Ok? <==> -1 <= ToInt32(v) < nodesLen
    ensures r.Ok? && ToInt32(v) == -1 ==> r.value == NullNode
    ensures r.Ok? && ToInt32(v) != -1 ==> r.value == NodeAt(ToInt32(v))
  {
    var ord := ToInt32(v);
    if ord < -1 || ord >= nodesLen then Err(InvalidNodeOrdinal(ord))
    else if ord == -1 then Ok(NullNode)
    else Ok(NodeAt(ord))
  }

  /** An `ID` field of an argument record: an ordinal in `-1 .. |syms| - 1`, and
      -1 is no symbol (0). */
  function SymbolOrdinal(ord: Int32, syms: seq<Word>): (r: Result<Word, LoadError>)
    ensures r.Ok? <==> -1 <= ord < |syms|
    ensures r.Ok? && ord == -1 ==> r.value == 0
    ensures r.Ok? && ord != -1 ==> r.value == syms[ord]
  {
    if ord < -1 || ord >= |syms| then Err(InvalidSymbolOrdinal(ord))
    else if ord == -1 then Ok(0)
    else Ok(syms[ord])
  }

  /** One entry of `resolve_args_ords`: the ten items are read (node fields with
      `FIX2LONG`, counts and `ID` fields with `FIX2INT`), then the node ordinals
      and the symbol ordinals are resolved, in the C's order. */
  function ResolveArgsEntry(index: nat, entry: RValue, syms: seq<Word>, nodesLen: nat): (r: Result<LoadedArgs, LoadError>)
    ensures !entry.Ary? || |entry.items| != 10 ==> r == Err(CorruptedArgsEntry(index))
    ensures r.Ok? ==> var e := entry.items;
      && e[0].Fix? && e[1].Fix? && e[7].Fix? && e[8].Fix? && e[9].Fix?
      && Ok(r.value.preInit) == NodeOrdinal(e[0].i, nodesLen)
      && Ok(r.value.postInit) == NodeOrdinal(e[1].i, nodesLen)
      && Ok(r.value.kwArgs) == NodeOrdinal(e[7].i, nodesLen)
      && Ok(r.value.kwRestArg) == NodeOrdinal(e[8].i, nodesLen)
      && Ok(r.value.optArgs) == NodeOrdinal(e[9].i, nodesLen)
      && Ok(r.value.preArgsNum) == Fix2Int(e[2]) && Ok(r.value.postArgsNum) == Fix2Int(e[3])
      && Fix2Int(e[4]).Ok? && Ok(r.value.firstPostArg) == SymbolOrdinal(Fix2Int(e[4]).value, syms)
      && Fix2Int(e[5]).Ok? && Ok(r.value.restArg) == SymbolOrdinal(Fix2Int(e[5]).value, syms)
      && Fix2Int(e[6]).Ok? && Ok(r.value.blockArg) == SymbolOrdinal(Fix2Int(e[6]).value, syms)
  {
    if !entry.Ary? || |entry.items| != 10 then Err(CorruptedArgsEntry(index))
    else
      var e := entry.items;
      var preInit :- Fix2Long(e[0]);
      var postInit :- Fix2Long(e[1]);
      var preArgsNum :- Fix2Int(e[2]);
      var postArgsNum :- Fix2Int(e[3]);
      var firstPostArg :- Fix2Int(e[4]);
      var restArg :- Fix2Int(e[5]);
      var blockArg :- Fix2Int(e[6]);
      var kwArgs :- Fix2Long(e[7]);
      var kwRestArg :- Fix2Long(e[8]);
      var optArgs :- Fix2Long(e[9]);
      var p0 :- NodeOrdinal(preInit, nodesLen);
      var p1 :- NodeOrdinal(postInit, nodesLen);
      var p7 :- NodeOrdinal(kwArgs, nodesLen);
      var p8 :- NodeOrdinal(kwRestArg, nodesLen);
      var p9 :- NodeOrdinal(optArgs, nodesLen);
      var s4 :- SymbolOrdinal(firstPostArg, syms);
      var s5 :- SymbolOrdinal(restArg, syms);
      var s6 :- SymbolOrdinal(blockArg, syms);
      Ok(LoadedArgs(p0, p1, preArgsNum, postArgsNum, s4, s5, s6, p7, p8, p9))
  }

  /** The entries of the `args` array from `index` on. */
  function ResolveArgsList(index: nat, entries: seq<RValue>, syms: seq<Word>, nodesLen: nat): (r: Result<seq<LoadedArgs>, LoadError>)
    ensures r.Ok? <==> forall i :: 0 <= i < |entries| ==> ResolveArgsEntry(index + i, entries[i], syms, nodesLen).Ok?
    ensures r.Ok? ==> |r.value| == |entries|
    ensures r.Ok? ==> forall i :: 0 <= i < |entries| ==> Ok(r.value[i]) == ResolveArgsEntry(index + i, entries[i], syms, nodesLen)
    decreases |entries|
  {
    if entries == [] then Ok([])
    else
      var first :- ResolveArgsEntry(index, entries[0], syms, nodesLen);
      var rest :- ResolveArgsList(index + 1, entries[1..], syms, nodesLen);
      assert forall i :: 1 <= i < |entries| ==> entries[i] == entries[1..][i - 1];
      Ok([first] + rest)
  }

  /** `resolve_args_ords`. */
  function ResolveArgs(data: Container, syms: seq<Word>, nodesLen: nat): (r: Result<seq<LoadedArgs>, LoadError>)
    ensures data.Get("args") == Nil ==> r == Err(Missing("args"))
    ensures r.Ok? ==> data.Get("args").Ary? && Ok(r.value) == ResolveArgsList(0, data.Get("args").items, syms, nodesLen)
  {
    var v := data.Get("args");
    if v == Nil then Err(Missing("args"))
    else if !v.Ary? then Err(NotAnArray("args"))
    else ResolveArgsList(0, v.items, syms, nodesLen)
  }

  /** The relocation of one slot of a record in `load_nodes_from_str`: a raw
      word stays, an ordinal must be inside its table. */
  function ResolveField(f: Field, relocs: Relocs): (r: Result<Slot, LoadError>)
    ensures f.vl == VL_RAW ==> r == Ok(Raw(f.value))
    ensures f.vl == VL_NODE ==> (r.Ok? <==> f.value < relocs.nodesLen) && (r.Ok? ==> r.value == NodeRef(f.value))
    ensures f.vl == VL_ID ==> (r.Ok? <==> f.value < |relocs.syms|) && (r.Ok? ==> r.value == Sym(relocs.syms[f.value]))
    ensures f.vl == VL_GVAR ==> (r.Ok? <==> f.value < |relocs.gvars|) && (r.Ok? ==> r.value == Gvar(relocs.gvars[f.value]))
    ensures f.vl == VL_IDTABLE ==> (r.Ok? <==> f.value < |relocs.idTables|) && (r.Ok? ==> r.value == IdTableRef(f.value))
    ensures f.vl == VL_ARGS ==> (r.Ok? <==> f.value < |relocs.args|) && (r.Ok? ==> r.value == ArgsRef(f.value))
    ensures f.vl == VL_LIT ==> (r.Ok? <==> f.value < |relocs.lits|) && (r.Ok? ==> r.value == Lit(relocs.lits[f.value]))
    ensures f.vl !in VL_CODES ==> r == Err(UnknownRtype(f.vl))
  {
    var u := f.value;
    if f.vl == VL_RAW then Ok(Raw(u))
    else if f.vl == VL_NODE then
      if u < relocs.nodesLen then Ok(NodeRef(u)) else Err(CannotResolve(VL_NODE, u))
    else if f.vl == VL_ID then
      if u < |relocs.syms| then Ok(Sym(relocs.syms[u])) else Err(CannotResolve(VL_ID, u))
    else if f.vl == VL_GVAR then
      if u < |relocs.gvars| then Ok(Gvar(relocs.gvars[u])) else Err(CannotResolve(VL_GVAR, u))
    else if f.vl == VL_IDTABLE then
      if u < |relocs.idTables| then Ok(IdTableRef(u)) else Err(CannotResolve(VL_IDTABLE, u))
    else if f.vl == VL_ARGS then
      if u < |relocs.args| then Ok(ArgsRef(u)) else Err(CannotResolve(VL_ARGS, u))
    else if f.vl == VL_LIT then
      if u < |relocs.lits| then Ok(Lit(relocs.lits[u])) else Err(CannotResolve(VL_LIT, u))
    else Err(UnknownRtype(f.vl))
  }

  /** One loaded node: flags `(saved << 5) | T_NODE` and the three relocated slots. */
  function LoadRecord(rec: Record, relocs: Relocs): (r: Result<LoadedNode, LoadError>)
    ensures r.Ok? <==> ResolveField(rec.f1, relocs).Ok? && ResolveField(rec.f2, relocs).Ok? && ResolveField(rec.f3, relocs).Ok?
    ensures r.Ok? ==> r.value == LoadedNode(RestoreFlags(rec.saved),
      ResolveField(rec.f1, relocs).value, ResolveField(rec.f2, relocs).value, ResolveField(rec.f3, relocs).value)
  {
    var u1 :- ResolveField(rec.f1, relocs);
    var u2 :- ResolveField(rec.f2, relocs);
    var u3 :- ResolveField(rec.f3, relocs);
    Ok(LoadedNode(RestoreFlags(rec.saved), u1, u2, u3))
  }

  /** `load_nodes_from_str`, from the front of `s`: `n` records, each read, checked
      against the end of the string, and relocated before the next one. */
  function LoadNodes(s: seq<Byte>, relocs: Relocs, n: nat): (r: Result<seq<LoadedNode>, LoadError>)
    ensures r.Ok? ==> |r.value| == n
    decreases n
  {
    if n == 0 then Ok([])
    else
      match Decode(s)
      case None => Err(TooShort)
      case Some((rec, len)) =>
        var node :- LoadRecord(rec, relocs);
        var rest :- LoadNodes(s[len..], relocs, Prev(n));
        Ok([node] + rest)
  }

  /** One step of a successful load: the first record decodes and relocates,
      and the rest of the string loads. */
  lemma LoadNodesStep(s: seq<Byte>, relocs: Relocs, n: nat)
    requires n > 0 && LoadNodes(s, relocs, n).Ok?
    ensures Decode(s).Some?
    ensures var (rec, len) := Decode(s).value;
      && LoadRecord(rec, relocs).Ok? && LoadNodes(s[len..], relocs, Prev(n)).Ok?
      && LoadNodes(s, relocs, n).value == [LoadRecord(rec, relocs).value] + LoadNodes(s[len..], relocs, Prev(n)).value
  {
  }

  /** `nodes` are the relocations of `records`, one for one. */
  predicate Relocated(records: seq<Record>, nodes: seq<LoadedNode>, relocs: Relocs)
  {
    && |records| == |nodes|
    && forall i :: 0 <= i < |records| ==> LoadRecord(records[i], relocs) == Ok(nodes[i])
  }

  lemma RelocatedCons(rec: Record, node: LoadedNode, records: seq<Record>, nodes: seq<LoadedNode>, relocs: Relocs)
    requires LoadRecord(rec, relocs) == Ok(node) && Relocated(records, nodes, relocs)
    ensures Relocated([rec] + records, [node] + nodes, relocs)
  {
    assert forall i :: 1 <= i <= |records| ==> ([rec] + records)[i] == records[i - 1] && ([node] + nodes)[i] == nodes[i - 1];
  }


  /** A successful front-to-back load decoded `n` records and relocated each of
      them, in order. */
  lemma {:induction false} LoadNodesDecodes(s: seq<Byte>, relocs: Relocs, n: nat)
    requires LoadNodes(s, relocs, n).Ok?
    ensures DecodeAll(s, n).Some? && Relocated(DecodeAll(s, n).value, LoadNodes(s, relocs, n).value, relocs)
    decreases n
  {
    if n > 0 {
      LoadNodesStep(s, relocs, n);
      var (rec, len) := Decode(s).value;
      LoadNodesDecodes(s[len..], relocs, Prev(n));
      var tail := DecodeAll(s[len..], Prev(n)).value;
      DecodeAllCons(s, n);
      RelocatedCons(rec, LoadRecord(rec, relocs).value, tail, LoadNodes(s[len..], relocs, Prev(n)).value, relocs);
    }
  }

  /** Conversely, when the string holds `n` records and each relocates, the load
      succeeds. */
  lemma {:induction false} DecodesLoadNodes(s: seq<Byte>, relocs: Relocs, n: nat)
    requires DecodeAll(s, n).Some?
    requires forall i :: 0 <= i < n ==> LoadRecord(DecodeAll(s, n).value[i], relocs).Ok?
    ensures LoadNodes(s, relocs, n).Ok?
    decreases n
  {
    if n > 0 {
      var (rec, len) := Decode(s).value;
      var tail := DecodeAll(s[len..], Prev(n)).value;
      var all := [rec] + tail;
      assert DecodeAll(s, n) == Some(all);
      assert all[0] == rec;
      assert forall i :: 0 <= i < Prev(n) ==> tail[i] == all[i + 1];
      DecodesLoadNodes(s[len..], relocs, Prev(n));
    }
  }

  /** The string field `name`; anything else raises ("is not a string"). */
  function StrField(data: Container, name: string): (r: Result<seq<Byte>, LoadError>)
    ensures r.Ok? <==> data.Get(name).Str?
    ensures r.Ok? ==> r.value == data.Get(name).bytes
  {
    var v := data.Get(name);
    if v.Str? then Ok(v.bytes) else Err(NotAString(name))
  }

  /** `check_hash_magic`: the signature and the interpreter's platform and
      version, compared as C strings (up to the first NUL). */
  function CheckHashMagic(data: Container, platform: seq<Byte>, version: seq<Byte>): (r: Result<(), LoadError>)
    ensures r.Ok? <==>
      && data.Get("MAGIC").Str? && CString(data.Get("MAGIC").bytes) == MAGIC
      && data.Get("RUBY_PLATFORM").Str? && CString(data.Get("RUBY_PLATFORM").bytes) == CString(platform)
      && data.Get("RUBY_VERSION").Str? && CString(data.Get("RUBY_VERSION").bytes) == CString(version)
    ensures data.Get("MAGIC").Str? && CString(data.Get("MAGIC").bytes) != MAGIC ==> r == Err(BadMagic)
    ensures data.Get("MAGIC").Str? && CString(data.Get("MAGIC").bytes) == MAGIC
      && data.Get("RUBY_PLATFORM").Str? && CString(data.Get("RUBY_PLATFORM").bytes) != CString(platform)
      ==> r == Err(IncompatiblePlatform)
    ensures data.Get("MAGIC").Str? && CString(data.Get("MAGIC").bytes) == MAGIC
      && data.Get("RUBY_PLATFORM").Str? && CString(data.Get("RUBY_PLATFORM").bytes) == CString(platform)
      && data.Get("RUBY_VERSION").Str? && CString(data.Get("RUBY_VERSION").bytes) != CString(version)
      ==> r == Err(IncompatibleVersion)
  {
    var magic :- StrField(data, "MAGIC");
    if CString(magic) != MAGIC then Err(BadMagic)
    else
      var p :- StrField(data, "RUBY_PLATFORM");
      if CString(p) != CString(platform) then Err(IncompatiblePlatform)
      else
        var v :- StrField(data, "RUBY_VERSION");
        if CString(v) != CString(version) then Err(IncompatibleVersion)
        else Ok(())
  }

  /** A name field: `nil` or a string. */
  function NameField(data: Container, name: string): (r: Result<RValue, LoadError>)
    ensures r.Ok? <==> data.Get(name) == Nil || data.Get(name).Str?
    ensures r.Ok? ==> r.value == data.Get(name)
  {
    var v := data.Get(name);
    if v == Nil || v.Str? then Ok(v) else Err(CorruptedName(name))
  }

  /** What the loading interpreter supplies: its `RUBY_PLATFORM` and
      `RUBY_VERSION`, and `rb_intern`. */
  datatype LoadEnv = LoadEnv(platform: seq<Byte>, version: seq<Byte>, intern: seq<Byte> -> Word)

  /** The result of a load: the relocation tables, the nodes (the root is the
      first), and the three names. */
  datatype Loaded = Loaded(relocs: Relocs, nodes: seq<LoadedNode>, nodename: RValue, filename: RValue, filepath: RValue)

  /** `m_nodedump_from_memory` after `Marshal.load`: the count, the signatures,
      the names, the tables in the C's order, then the nodes. The root is
      `nodes_adr[0]`, which does not exist when the count is zero. */
  function FromMemory(data: Container, env: LoadEnv): (r: Result<Loaded, LoadError>)
    ensures r.Ok? ==> CheckHashMagic(data, env.platform, env.version).Ok?
    ensures r.Ok? ==> data.Get("num_of_nodes").Fix? && |r.value.nodes| == data.Get("num_of_nodes").i >= 1
    ensures r.Ok? ==> r.value.relocs.nodesLen == |r.value.nodes|
    ensures r.Ok? ==> data.Get("nodes").Str?
    ensures r.Ok? ==> LoadNodes(data.Get("nodes").bytes, r.value.relocs, |r.value.nodes|) == Ok(r.value.nodes)
  {
    var count := data.Get("num_of_nodes");
    if count == Nil then Err(Missing("num_of_nodes"))
    else
      var n :- Fix2Int(count);
      var _ :- CheckHashMagic(data, env.platform, env.version);
      var nodename :- NameField(data, "nodename");
      var filename :- NameField(data, "filename");
      var filepath :- NameField(data, "filepath");
      var relocs :- ResolveTables(data, env.intern, n);
      var nodes :- LoadNodes(data.Get("nodes").bytes, relocs, relocs.nodesLen);
      if relocs.nodesLen == 0 then Err(Undefined)
      else Ok(Loaded(relocs, nodes, nodename, filename, filepath))
  }

  /** The relocation tables of `m_nodedump_from_memory`, resolved in the C's
      order: symbols, literals, global entries, local ID tables, room for
      `count` nodes, argument records. */
  function ResolveTables(data: Container, intern: seq<Byte> -> Word, count: Int32): (r: Result<Relocs, LoadError>)
    ensures r.Ok? ==> data.Get("nodes").Str? && r.value.nodesLen == count
    ensures r.Ok? ==> ResolveSyms(data, intern) == Ok(r.value.syms) && ResolveLits(data) == Ok(r.value.lits)
    ensures r.Ok? ==> ResolveArgs(data, r.value.syms, r.value.nodesLen) == Ok(r.value.args)
  {
    var syms :- ResolveSyms(data, intern);
    var lits :- ResolveLits(data);
    var gvars :- ResolveGvars(data, syms);
    var idTables :- ResolveIdTables(data, syms);
    var nodesLen :- ResolveNodes(data, count);
    var args :- ResolveArgs(data, syms, nodesLen);
    Ok(Relocs(syms, lits, gvars, idTables, nodesLen, args))
  }
}

=== FILE: records.dfy ===
/** The binary node records of the `nodes` string (`dump_nodes` writes them,
    `load_nodes_from_str` reads them). A record is four header bytes, then the
    saved flags word and the three slot words, each in the variable-length form
    of `value_to_bin`. Header bytes 0..2 hold a slot's location code (`VL_*`) in
    their low half and the length of its word in their high half; header byte 3
    holds the length of the flags word. */
module Records {
  import opened Words
  import opened Wrappers
  import opened Vlq

  /** The bytes `dump_nodes` reserves per node: an `int` and four `VALUE`s. */
  const NODE_SIZE: nat := 4 + 4 * WORD_SIZE

  /** A dumped slot: where the loader finds its value, and the word stored. */
  datatype Field = Field(vl: int, value: Word)
  {
    /** A location code fits the low half of the header byte. */
    predicate Valid()
    {
      0 <= vl < 16
    }
  }

  /** One dumped node: its flags shifted right by five, and its three slots. */
  datatype Record = Record(saved: Word, f1: Field, f2: Field, f3: Field)
  {
    predicate Valid()
    {
      f1.Valid() && f2.Valid() && f3.Valid()
    }
  }

  /** A record as laid out in the string: the three location codes and the
      bytes of the flags word and of the three slot words. */
  datatype Chunk = Chunk(vl1: int, vl2: int, vl3: int, s0: seq<Byte>, s1: seq<Byte>, s2: seq<Byte>, s3: seq<Byte>)
  {
    predicate Valid()
    {
      && 0 <= vl1 < 16 && 0 <= vl2 < 16 && 0 <= vl3 < 16
      && |s0| <= WORD_SIZE && |s1| <= WORD_SIZE && |s2| <= WORD_SIZE && |s3| <= WORD_SIZE
    }
  }

  /** `vl | (len << 4)`, the header byte of a slot whose word takes `len` bytes.
      The loader's `b & 0x0F` and `(b & 0xF0) >> 4` read both halves back. */
  function Tag(vl: int, len: nat): (b: Byte)
    requires 0 <= vl < 16 && len <= WORD_SIZE
    ensures b % 16 == vl && b / 16 == len
  {
    DivMod(vl + 16 * len, 16, len, vl);
    vl + 16 * len
  }

  /** The bytes of a chunk: the header, then the four words. */
  function Bytes(c: Chunk): (bytes: seq<Byte>)
    requires c.Valid()
    ensures |bytes| == 4 + |c.s0| + |c.s1| + |c.s2| + |c.s3| <= NODE_SIZE
  {
    [Tag(c.vl1, |c.s1|), Tag(c.vl2, |c.s2|), Tag(c.vl3, |c.s3|), |c.s0|] + c.s0 + c.s1 + c.s2 + c.s3
  }

  function BytesAll(cs: seq<Chunk>): (bytes: seq<Byte>)
    requires forall i :: 0 <= i < |cs| ==> cs[i].Valid()
    ensures |bytes| <= NODE_SIZE * |cs|
  {
    if cs == [] then [] else Bytes(cs[0]) + BytesAll(cs[1..])
  }

  /** The record the loader makes of a chunk. */
  function Read(c: Chunk): (r: Record)
    requires c.Valid()
    ensures r.Valid()
  {
    Record(BinToValue(c.s0), Field(c.vl1, BinToValue(c.s1)), Field(c.vl2, BinToValue(c.s2)), Field(c.vl3, BinToValue(c.s3)))
  }

  function ReadAll(cs: seq<Chunk>): (rs: seq<Record>)
    requires forall i :: 0 <= i < |cs| ==> cs[i].Valid()
    ensures |rs| == |cs|
  {
    if cs == [] then [] else [Read(cs[0])] + ReadAll(cs[1..])
  }

  /** The chunk the dumper makes of a record: each word through `value_to_bin`. */
  function Write(r: Record): (c: Chunk)
    requires r.Valid()
    ensures c.Valid() && Read(c) == r
  {
    WordBytes(r.saved);
    WordBytes(r.f1.value);
    WordBytes(r.f2.value);
    WordBytes(r.f3.value);
    Chunk(r.f1.vl, r.f2.vl, r.f3.vl, ValueToBin(r.saved), ValueToBin(r.f1.value), ValueToBin(r.f2.value), ValueToBin(r.f3.value))
  }

  function WriteAll(rs: seq<Record>): (cs: seq<Chunk>)
    requires forall i :: 0 <= i < |rs| ==> rs[i].Valid()
    ensures |cs| == |rs| && forall i :: 0 <= i < |cs| ==> cs[i].Valid() && Read(cs[i]) == rs[i]
  {
    if rs == [] then [] else [Write(rs[0])] + WriteAll(rs[1..])
  }

  /** The bytes `dump_nodes` writes for the nodes `rs`, one after the other. */
  function EncodeAll(rs: seq<Record>): (bytes: seq<Byte>)
    requires forall i :: 0 <= i < |rs| ==> rs[i].Valid()
    ensures |bytes| <= NODE_SIZE * |rs|
  {
    BytesAll(WriteAll(rs))
  }

  /** The two facts about `value_to_bin` a record needs. */
  lemma WordBytes(w: Word)
    ensures |ValueToBin(w)| <= WORD_SIZE && BinToValue(ValueToBin(w)) == w
  {
    ValueToBinRoundTrip(w);
  }

  /** One iteration of the loop of `load_nodes_from_str` on the bytes `s` that
      remain: the record and the number of bytes it takes, or `None` when it runs
      past the end of the string ("Nodes binary dump is too short"). The C reads
      first and compares afterwards; the model compares first, which raises in
      the same cases. */
  function Decode(s: seq<Byte>): (r: Option<(Record, nat)>)
    ensures r.Some? ==> 4 <= r.value.1 <= |s| && r.value.0.Valid()
  {
    if |s| < 4 then None
    else
      var b := 4 + s[3] as int;
      var c := b + s[0] / 16;
      var d := c + s[1] / 16;
      var e := d + s[2] / 16;
      if e > |s| then None
      else
        Some((Record(BinToValue(s[4..b]),
                     Field(s[0] % 16, BinToValue(s[b..c])),
                     Field(s[1] % 16, BinToValue(s[c..d])),
                     Field(s[2] % 16, BinToValue(s[d..e]))), e))
  }

  /** The loop of `load_nodes_from_str`: `n` consecutive records. */
  function DecodeAll(s: seq<Byte>, n: nat): (r: Option<seq<Record>>)
    ensures r.Some? ==> |r.value| == n && forall i :: 0 <= i < n ==> r.value[i].Valid()
    decreases n
  {
    if n == 0 then Some([])
    else
      match Decode(s)
      case None => None
      case Some((rec, len)) =>
        match DecodeAll(s[len..], Prev(n))
        case None => None
        case Some(rest) => Some([rec] + rest)
  }

  /** The first of `n` decoded records, followed by the `n - 1` after it. */
  lemma DecodeAllCons(s: seq<Byte>, n: nat)
    requires n > 0 && Decode(s).Some? && DecodeAll(s[Decode(s).value.1..], Prev(n)).Some?
    ensures DecodeAll(s, n) == Some([Decode(s).value.0] + DecodeAll(s[Decode(s).value.1..], Prev(n)).value)
  {
  }

  /** What `Decode` reads from bytes whose header and word slices are known. */
  lemma DecodeAt(s: seq<Byte>, c: Chunk)
    requires c.Valid()
    requires 4 + |c.s0| + |c.s1| + |c.s2| + |c.s3| <= |s|
    requires s[0] == c.vl1 + 16 * |c.s1| && s[1] == c.vl2 + 16 * |c.s2|
    requires s[2] == c.vl3 + 16 * |c.s3| && s[3] == |c.s0|
    requires s[4..4 + |c.s0|] == c.s0
    requires s[4 + |c.s0|..4 + |c.s0| + |c.s1|] == c.s1
    requires s[4 + |c.s0| + |c.s1|..4 + |c.s0| + |c.s1| + |c.s2|] == c.s2
    requires s[4 + |c.s0| + |c.s1| + |c.s2|..4 + |c.s0| + |c.s1| + |c.s2| + |c.s3|] == c.s3
    ensures Decode(s) == Some((Read(c), 4 + |c.s0| + |c.s1| + |c.s2| + |c.s3|))
  {
    DivMod(s[0], 16, |c.s1|, c.vl1);
    DivMod(s[1], 16, |c.s2|, c.vl2);
    DivMod(s[2], 16, |c.s3|, c.vl3);
  }

  /** Where the parts of a record's bytes sit in a string that starts with them. */
  lemma LayoutSlices(h: seq<Byte>, s0: seq<Byte>, s1: seq<Byte>, s2: seq<Byte>, s3: seq<Byte>, rest: seq<Byte>)
    requires |h| == 4
    ensures var s := h + s0 + s1 + s2 + s3 + rest;
      && s[..4] == h
      && s[4..4 + |s0|] == s0
      && s[4 + |s0|..4 + |s0| + |s1|] == s1
      && s[4 + |s0| + |s1|..4 + |s0| + |s1| + |s2|] == s2
      && s[4 + |s0| + |s1| + |s2|..4 + |s0| + |s1| + |s2| + |s3|] == s3
  {
    var s := h + s0 + s1 + s2 + s3 + rest;
    assert s == h + s0 + (s1 + s2 + s3 + rest);
    SliceMiddle(h, s0, s1 + s2 + s3 + rest);
    assert s == (h + s0) + s1 + (s2 + s3 + rest);
    SliceMiddle(h + s0, s1, s2 + s3 + rest);
    assert s == (h + s0 + s1) + s2 + (s3 + rest);
    SliceMiddle(h + s0 + s1, s2, s3 + rest);
    assert s == (h + s0 + s1 + s2) + s3 + rest;
    SliceMiddle(h + s0 + s1 + s2, s3, rest);
  }

  lemma SliceMiddle(x: seq<Byte>, y: seq<Byte>, z: seq<Byte>)
    ensures (x + y + z)[|x|..|x| + |y|] == y
  {
  }

  /** Where the header and the words of a chunk sit in its bytes. */
  lemma BytesLayout(c: Chunk, rest: seq<Byte>)
    requires c.Valid()
    ensures var s := Bytes(c) + rest;
      && 4 + |c.s0| + |c.s1| + |c.s2| + |c.s3| <= |s|
      && s[0] == c.vl1 + 16 * |c.s1| && s[1] == c.vl2 + 16 * |c.s2|
      && s[2] == c.vl3 + 16 * |c.s3| && s[3] == |c.s0|
      && s[4..4 + |c.s0|] == c.s0
      && s[4 + |c.s0|..4 + |c.s0| + |c.s1|] == c.s1
      && s[4 + |c.s0| + |c.s1|..4 + |c.s0| + |c.s1| + |c.s2|] == c.s2
      && s[4 + |c.s0| + |c.s1| + |c.s2|..4 + |c.s0| + |c.s1| + |c.s2| + |c.s3|] == c.s3
  {
    var h := [Tag(c.vl1, |c.s1|), Tag(c.vl2, |c.s2|), Tag(c.vl3, |c.s3|), |c.s0|];
    var s := Bytes(c) + rest;
    assert s == h + c.s0 + c.s1 + c.s2 + c.s3 + rest;
    LayoutSlices(h, c.s0, c.s1, c.s2, c.s3, rest);
  }

  /** A chunk's bytes, whatever follows them, decode to the chunk's record. */
  lemma DecodeBytes(c: Chunk, rest: seq<Byte>)
    requires c.Valid()
    ensures Decode(Bytes(c) + rest) == Some((Read(c), |Bytes(c)|))
  {
    BytesLayout(c, rest);
    DecodeAt(Bytes(c) + rest, c);
  }

  /** Reading `|cs|` records from the chunks' bytes gives the chunks' records. */
  lemma {:induction false} DecodeAllBytes(cs: seq<Chunk>, rest: seq<Byte>)
    requires forall i :: 0 <= i < |cs| ==> cs[i].Valid()
    ensures DecodeAll(BytesAll(cs) + rest, |cs|) == Some(ReadAll(cs))
    decreases |cs|
  {
    if cs != [] {
      var s := BytesAll(cs) + rest;
      var e := Bytes(cs[0]);
      var tail := BytesAll(cs[1..]) + rest;
      assert s == e + tail;
      DecodeBytes(cs[0], tail);
      assert s[|e|..] == tail;
      DecodeAllBytes(cs[1..], rest);
      DecodeAllCons(s, |cs|);
    }
  }

  /** Asking for more records than were laid out fails as soon as fewer than
      four bytes remain after them. */
  lemma {:induction false} DecodeAllPastBytes(cs: seq<Chunk>, rest: seq<Byte>)
    requires forall i :: 0 <= i < |cs| ==> cs[i].Valid()
    requires |rest| < 4
    ensures DecodeAll(BytesAll(cs) + rest, |cs| + 1).None?
    decreases |cs|
  {
    var s := BytesAll(cs) + rest;
    if cs == [] {
      assert s == rest;
    } else {
      var e := Bytes(cs[0]);
      var tail := BytesAll(cs[1..]) + rest;
      assert s == e + tail;
      DecodeBytes(cs[0], tail);
      assert s[|e|..] == tail;
      DecodeAllPastBytes(cs[1..], rest);
    }
  }

  /** Once reading fails, reading more records fails too. */
  lemma {:induction false} DecodeAllMore(s: seq<Byte>, k: nat, n: nat)
    requires DecodeAll(s, k).None? && k <= n
    ensures DecodeAll(s, n).None?
    decreases k
  {
    if Decode(s).Some? {
      var len := Decode(s).value.1;
      DecodeAllMore(s[len..], k - 1, n - 1);
    }
  }

  lemma {:induction false} ReadWriteAll(rs: seq<Record>)
    requires forall i :: 0 <= i < |rs| ==> rs[i].Valid()
    ensures ReadAll(WriteAll(rs)) == rs
    decreases |rs|
  {
    if rs != [] {
      ReadWriteAll(rs[1..]);
      assert WriteAll(rs)[1..] == WriteAll(rs[1..]);
    }
  }

  /** `load_nodes_from_str` reads back exactly the records `dump_nodes` wrote,
      whatever bytes follow them. */
  lemma DecodeAllEncodeAll(rs: seq<Record>, rest: seq<Byte>)
    requires forall i :: 0 <= i < |rs| ==> rs[i].Valid()
    ensures DecodeAll(EncodeAll(rs) + rest, |rs|) == Some(rs)
  {
    DecodeAllBytes(WriteAll(rs), rest);
    ReadWriteAll(rs);
  }

  /** Asking for more records than were written fails when fewer than four
      bytes follow them ("Nodes binary dump is too short"). */
  lemma DecodeAllPastEnd(rs: seq<Record>, rest: seq<Byte>, n: nat)
    requires forall i :: 0 <= i < |rs| ==> rs[i].Valid()
    requires |rest| < 4 && n > |rs|
    ensures DecodeAll(EncodeAll(rs) + rest, n).None?
  {
    var cs := WriteAll(rs);
    DecodeAllPastBytes(cs, rest);
    DecodeAllMore(BytesAll(cs) + rest, |cs| + 1, n);
  }
}

=== FILE: rename.dfy ===
/** `NodeMarshal#change_symbol` (ext/node-marshal/nodedump.c): renaming one
    symbol in the symbol table of a dump Hash, used to obfuscate code. The
    nodes refer to symbols by ordinal, so replacing the name at one ordinal
    renames every use of that symbol at once. */
module Rename {
  import opened Wrappers
  import opened Words
  import opened Values
  import Loader

  datatype RenameError =
    | NotPreparsed          // "This node is not preparsed into Hash"
    | OldNotAString         // "old_sym argument must be a string"
    | NewNotAString         // "new_sym argument must be a string"
    | NoSymbols             // "Preparsed hash has no :symbols field"
    | SymbolsNotAnArray     // `find_index` on something other than an Array
    | NewPresent            // "new_sym value must be absent in table of symbols"

  /** `Array#find_index`: the first position holding `v`. */
  function FindIndex(items: seq<RValue>, v: RValue): (r: Option<nat>)
    ensures r.Some? <==> v in items
    ensures r.Some? ==> r.value < |items| && items[r.value] == v
    ensures r.Some? ==> forall j :: 0 <= j < r.value ==> items[j] != v
  {
    if items == [] then None
    else if items[0] == v then Some(0)
    else
      match FindIndex(items[1..], v)
      case None => None
      case Some(j) => Some(j + 1)
  }

  /** `change_symbol(old_sym, new_sym)` on the `@nodehash` of a NodeMarshal
      object (`None` before `to_hash`). `Ok(None)` is the `nil` returned when
      `old_sym` is not in the table, which is then left alone; `Ok(Some(h))` is
      the Hash after the first occurrence of `old_sym` is replaced. */
  function ChangeSymbol(nodehash: Option<Container>, oldSym: RValue, newSym: RValue): (r: Result<Option<Container>, RenameError>)
    ensures r.Ok? <==>
      && nodehash.Some? && oldSym.Str? && newSym.Str?
      && nodehash.value.Get("symbols").Ary? && newSym !in nodehash.value.Get("symbols").items
    ensures r.Ok? ==> var items := nodehash.value.Get("symbols").items;
      && (r.value.None? <==> oldSym !in items)
      && (r.value.Some? ==>
            r.value.value == Container(nodehash.value.fields["symbols" := Ary(items[FindIndex(items, oldSym).value := newSym])]))
    ensures (&& nodehash.Some? && oldSym.Str? && newSym.Str? && nodehash.value.Get("symbols").Ary?
             && newSym in nodehash.value.Get("symbols").items) ==> r == Err(NewPresent)
  {
    if nodehash.None? then Err(NotPreparsed)
    else if !oldSym.Str? then Err(OldNotAString)
    else if !newSym.Str? then Err(NewNotAString)
    else
      var hash := nodehash.value;
      var syms := hash.Get("symbols");
      if syms == Nil then Err(NoSymbols)
      else if !syms.Ary? then Err(SymbolsNotAnArray)
      else if FindIndex(syms.items, newSym).Some? then Err(NewPresent)
      else
        match FindIndex(syms.items, oldSym)
        case None => Ok(None)
        case Some(i) =>
          Ok(Some(Container(hash.fields["symbols" := Ary(syms.items[i := newSym])])))
  }

  /** Renaming back undoes a rename, when the old name occurred once. */
  lemma ChangeSymbolBack(hash: Container, oldSym: RValue, newSym: RValue)
    requires ChangeSymbol(Some(hash), oldSym, newSym).Ok?
    requires var items := hash.Get("symbols").items; oldSym in items && multiset(items)[oldSym] == 1
    ensures ChangeSymbol(ChangeSymbol(Some(hash), oldSym, newSym).value, newSym, oldSym) == Ok(Some(hash))
  {
    var items := hash.Get("symbols").items;
    var i := FindIndex(items, oldSym).value;
    var items' := items[i := newSym];
    OnlyOnce(items, oldSym, i);
    assert oldSym !in items';
    assert items'[i] == newSym;
    assert FindIndex(items', newSym) == Some(i);
    assert items'[i := oldSym] == items;
    var renamed := Container(hash.fields["symbols" := Ary(items')]);
    assert ChangeSymbol(Some(hash), oldSym, newSym) == Ok(Some(renamed));
    assert renamed.Get("symbols") == Ary(items');
    assert renamed.fields["symbols" := Ary(items)] == hash.fields;
  }

  /** An item that occurs once is nowhere but at its position. */
  lemma OnlyOnce(items: seq<RValue>, v: RValue, i: nat)
    requires i < |items| && items[i] == v && multiset(items)[v] == 1
    ensures forall j :: 0 <= j < |items| && j != i ==> items[j] != v
  {
    forall j | 0 <= j < |items| && j != i
      ensures items[j] != v
    {
      if i < j {
        TwoOccurrences(items, i, j);
      } else {
        TwoOccurrences(items, j, i);
      }
    }
  }

  /** Two positions holding the same item make it occur at least twice. */
  lemma TwoOccurrences(items: seq<RValue>, i: nat, j: nat)
    ensures i < j < |items| && items[i] == items[j] ==> multiset(items)[items[i]] >= 2
  {
    if i < j < |items| && items[i] == items[j] {
      var v := items[i];
      assert items == items[..j] + items[j..];
      assert items[..j][i] == v && v in multiset(items[..j]);
      assert items[j..][0] == v && v in multiset(items[j..]);
    }
  }

  /** After a rename, the loader interns the new name at the renamed ordinal
      and resolves every other symbol as before. */
  lemma ChangeSymbolLoads(hash: Container, oldSym: RValue, newSym: RValue, intern: seq<Byte> -> Word)
    requires ChangeSymbol(Some(hash), oldSym, newSym).Ok? && ChangeSymbol(Some(hash), oldSym, newSym).value.Some?
    requires Loader.ResolveSyms(hash, intern).Ok?
    ensures var items := hash.Get("symbols").items;
      var i := FindIndex(items, oldSym).value;
      Loader.ResolveSyms(ChangeSymbol(Some(hash), oldSym, newSym).value.value, intern)
        == Ok(Loader.ResolveSyms(hash, intern).value[i := intern(CString(newSym.bytes))])
  {
    var items := hash.Get("symbols").items;
    var i := FindIndex(items, oldSym).value;
    var syms := Loader.ResolveSyms(hash, intern).value;
    var items' := items[i := newSym];
    assert forall j :: 0 <= j < |items'| ==> Loader.ResolveSymbol(items'[j], intern).Ok? by {
      forall j | 0 <= j < |items'|
        ensures Loader.ResolveSymbol(items'[j], intern).Ok?
      {
        if j != i {
          assert items'[j] == items[j];
        }
      }
    }
    var syms' := Loader.ResolveSymbolList(items', intern).value;
    assert syms' == syms[i := intern(CString(newSym.bytes))] by {
      forall j | 0 <= j < |items'|
        ensures syms'[j] == syms[i := intern(CString(newSym.bytes))][j]
      {
        if j != i {
          assert items'[j] == items[j];
        }
      }
    }
  }
}

=== FILE: roundtrip.dfy ===
/** A dump read back (ext/node-marshal/nodedump.c): the Hash `m_nodedump_to_hash`
    builds, handed to `m_nodedump_from_memory` in an interpreter of the same
    platform and version that knows the same symbols, loads one node per
    record, in node-table order, and every slot of every loaded node stands
    for the word the dumped node held there. */
module RoundTrip {
  import opened Wrappers
  import opened Words
  import opened Kinds
  import opened NodeLayout
  import opened Values
  import opened LeafTables
  import opened Walker
  import opened WalkSound
  import opened Records
  import opened Dumper
  import opened Loader
  import Shapes

  /** A loaded node pointer of an argument record stands for the address `w`:
      the null pointer for 0, otherwise the node the dumper gave `w`'s ordinal. */
  ghost predicate PtrDenotes(info: NodeInfo, p: NodePtr, w: Word)
  {
    if w == 0 then p == NullNode
    else p.NodeAt? && p.ord < info.nodes.Pos() && info.nodes.keys[p.ord] == Key(w)
  }

  /** A loaded `rb_args_info` stands for the dumped one, field by field. */
  ghost predicate ArgsDenote(info: NodeInfo, la: LoadedArgs, a: ArgsInfo)
  {
    && PtrDenotes(info, la.preInit, a.preInit) && PtrDenotes(info, la.postInit, a.postInit)
    && la.preArgsNum == a.preArgsNum && la.postArgsNum == a.postArgsNum
    && la.firstPostArg == a.firstPostArg && la.restArg == a.restArg && la.blockArg == a.blockArg
    && PtrDenotes(info, la.kwArgs, a.kwArgs) && PtrDenotes(info, la.kwRestArg, a.kwRestArg)
    && PtrDenotes(info, la.optArgs, a.optArgs)
  }

  /** The symbol ordinals of the loader are those of the dumper. */
  ghost predicate SymsMatch(syms: Table, loaded: seq<Word>)
  {
    |loaded| == syms.Pos() && forall j :: 0 <= j < |loaded| ==> syms.keys[j] == Fix(loaded[j])
  }

  ghost predicate GvarDenotes(heap: Heap, k: RValue, id: Word)
  {
    k.Key? && k.addr in heap.entries && heap.entries[k.addr] == id
  }

  ghost predicate IdTableDenotes(heap: Heap, k: RValue, ids: seq<Word>)
  {
    k.Key? && (k.addr == 0 || k.addr in heap.idTables) && ids == TableIds(heap, k.addr)
  }

  ghost predicate ArgsKeyDenotes(heap: Heap, info: NodeInfo, k: RValue, la: LoadedArgs)
  {
    k.Key? && k.addr in heap.args && ArgsDenote(info, la, heap.args[k.addr])
  }

  /** Every relocation table the loader builds stands, ordinal by ordinal, for
      the table of the same kind the dumper filled. */
  ghost predicate Matches(heap: Heap, info: NodeInfo, relocs: Relocs)
  {
    && relocs.nodesLen == info.nodes.Pos()
    && SymsMatch(info.syms, relocs.syms)
    && |relocs.lits| == info.lits.Pos()
    && (forall j :: 0 <= j < |relocs.lits| ==> info.lits.keys[j].Key? && relocs.lits[j] == Obj(info.lits.keys[j].addr))
    && |relocs.gvars| == info.gentries.Pos()
    && (forall j :: 0 <= j < |relocs.gvars| ==> GvarDenotes(heap, info.gentries.keys[j], relocs.gvars[j]))
    && |relocs.idTables| == info.idTabs.Pos()
    && (forall j :: 0 <= j < |relocs.idTables| ==> IdTableDenotes(heap, info.idTabs.keys[j], relocs.idTables[j]))
    && |relocs.args| == info.args.Pos()
    && (forall j :: 0 <= j < |relocs.args| ==> ArgsKeyDenotes(heap, info, info.args.keys[j], relocs.args[j]))
  }

  /** A loaded slot stands for the word `value` the dumped node held. */
  ghost predicate Denotes(heap: Heap, info: NodeInfo, relocs: Relocs, s: Slot, value: Word)
  {
    match s
    case Raw(w) => w == value
    case NodeRef(j) => j < info.nodes.Pos() && info.nodes.keys[j] == Key(value)
    case Sym(id) => id == value
    case Gvar(id) => value in heap.entries && id == heap.entries[value]
    case IdTableRef(j) =>
      (value == 0 || value in heap.idTables) && j < |relocs.idTables| && relocs.idTables[j] == TableIds(heap, value)
    case ArgsRef(j) => value in heap.args && j < |relocs.args| && ArgsDenote(info, relocs.args[j], heap.args[value])
    case Lit(v) => v == Obj(value)
  }

  /** A loaded node stands for a dumped one: the flags survive up to their low
      five bits, which say `T_NODE`, and every slot stands for its word. */
  ghost predicate NodeDenotes(heap: Heap, info: NodeInfo, relocs: Relocs, ln: LoadedNode, node: Node)
  {
    && ln.flags == RestoreFlags(SaveFlags(node.flags))
    && Denotes(heap, info, relocs, ln.u1, node.u1)
    && Denotes(heap, info, relocs, ln.u2, node.u2)
    && Denotes(heap, info, relocs, ln.u3, node.u3)
  }

  /** A slot `dump_node_value` dumped is relocated by `load_nodes_from_str` into
      a slot that stands for the same word. */
  lemma FieldLoads(heap: Heap, info: NodeInfo, relocs: Relocs, nodeType: int, kind: int, value: Word, slot: int, f: Field)
    requires info.Valid() && info.Bounded() && Matches(heap, info, relocs)
    requires DumpNodeValue(heap, info, nodeType, kind, value, slot) == Ok(f)
    ensures ResolveField(f, relocs).Ok?
    ensures Denotes(heap, info, relocs, ResolveField(f, relocs).value, value)
  {
    var j := f.value;
    if f.vl == VL_ID {
      assert info.syms.keys[j] == Fix(relocs.syms[j]);
    } else if f.vl == VL_GVAR {
      assert GvarDenotes(heap, info.gentries.keys[j], relocs.gvars[j]);
    } else if f.vl == VL_IDTABLE {
      assert IdTableDenotes(heap, info.idTabs.keys[j], relocs.idTables[j]);
    } else if f.vl == VL_ARGS {
      assert ArgsKeyDenotes(heap, info, info.args.keys[j], relocs.args[j]);
    }
  }

  /** A record `dump_nodes` wrote loads into a node that stands for the dumped one. */
  lemma RecordLoads(ctbl: seq<int>, heap: Heap, info: NodeInfo, relocs: Relocs, node: Node, rec: Record)
    requires |ctbl| == 3 * Shapes.CTBL_SIZE
    requires info.Valid() && info.Bounded() && Matches(heap, info, relocs)
    requires DumpRecord(ctbl, heap, info, node) == Ok(rec)
    ensures LoadRecord(rec, relocs).Ok?
    ensures NodeDenotes(heap, info, relocs, LoadRecord(rec, relocs).value, node)
  {
    var ut := DumpKinds(ctbl, info, node);
    var t := NdType(node.flags);
    FieldLoads(heap, info, relocs, t, ut[0], node.u1, 1, rec.f1);
    FieldLoads(heap, info, relocs, t, ut[1], node.u2, 2, rec.f2);
    FieldLoads(heap, info, relocs, t, ut[2], node.u3, 3, rec.f3);
  }

  /** The node string `dump_nodes` wrote loads, record for record, into nodes
      that stand for the nodes of the node table, in its order. */
  lemma NodesLoad(ctbl: seq<int>, heap: Heap, info: NodeInfo, relocs: Relocs, bytes: seq<Byte>)
    requires |ctbl| == 3 * Shapes.CTBL_SIZE
    requires info.Valid() && info.Bounded() && Matches(heap, info, relocs)
    requires DumpRecords(ctbl, heap, info, info.nodes.keys).Ok?
    requires DecodeAll(bytes, info.nodes.Pos()) == Some(DumpRecords(ctbl, heap, info, info.nodes.keys).value)
    ensures LoadNodes(bytes, relocs, info.nodes.Pos()).Ok?
    ensures forall i :: 0 <= i < info.nodes.Pos() ==>
      && info.nodes.keys[i].Key? && info.nodes.keys[i].addr in heap.nodes
      && NodeDenotes(heap, info, relocs, LoadNodes(bytes, relocs, info.nodes.Pos()).value[i], heap.nodes[info.nodes.keys[i].addr])
  {
    var n := info.nodes.Pos();
    var records := DumpRecords(ctbl, heap, info, info.nodes.keys).value;
    RecordsLoad(ctbl, heap, info, relocs, records);
    DecodesLoadNodes(bytes, relocs, n);
    LoadNodesDecodes(bytes, relocs, n);
  }

  /** Every record `dump_nodes` wrote loads into a node standing for its node. */
  lemma RecordsLoad(ctbl: seq<int>, heap: Heap, info: NodeInfo, relocs: Relocs, records: seq<Record>)
    requires |ctbl| == 3 * Shapes.CTBL_SIZE
    requires info.Valid() && info.Bounded() && Matches(heap, info, relocs)
    requires DumpRecords(ctbl, heap, info, info.nodes.keys) == Ok(records)
    ensures forall i :: 0 <= i < |records| ==>
      && info.nodes.keys[i].Key? && info.nodes.keys[i].addr in heap.nodes
      && LoadRecord(records[i], relocs).Ok?
      && NodeDenotes(heap, info, relocs, LoadRecord(records[i], relocs).value, heap.nodes[info.nodes.keys[i].addr])
  {
    forall i | 0 <= i < |records|
      ensures info.nodes.keys[i].Key? && info.nodes.keys[i].addr in heap.nodes
      ensures LoadRecord(records[i], relocs).Ok?
      ensures NodeDenotes(heap, info, relocs, LoadRecord(records[i], relocs).value, heap.nodes[info.nodes.keys[i].addr])
    {
      RecordLoads(ctbl, heap, info, relocs, heap.nodes[info.nodes.keys[i].addr], records[i]);
    }
  }

  /** The payload at ordinal `j` of a table's leaves is the one stored for the
      key with that ordinal. */
  lemma LeafAt(t: Table, j: nat)
    requires t.Valid() && j < t.Pos()
    ensures LeavesTable(t)[j] == t.vals[t.keys[j]]
  {
    assert t.ids[t.keys[j]] == j;
  }

  /** The loading interpreter gives every symbol of the dump the ID it had: a
      named one is interned back to it, and a nameless one fits the C `int`
      the loader reads it as. */
  ghost predicate SameIds(heap: Heap, syms: Table, intern: seq<Byte> -> Word)
  {
    forall k :: k in syms.ids && k.Fix? && 0 <= k.i < WORD_LIMIT ==>
      if k.i in heap.symNames then intern(CString(heap.symNames[k.i])) == k.i else k.i <= INT_MAX
  }

  /** `resolve_syms_ords` on the symbol array `NODEInfo_toHash` wrote gives
      back, at each ordinal, the symbol the dumper gave it. */
  lemma SymsResolve(heap: Heap, syms: Table, intern: seq<Byte> -> Word)
    requires syms.Valid() && SymsSound(heap, syms) && SameIds(heap, syms, intern)
    ensures ResolveSymbolList(LeavesTable(syms), intern).Ok?
    ensures SymsMatch(syms, ResolveSymbolList(LeavesTable(syms), intern).value)
  {
    var items := LeavesTable(syms);
    forall j | 0 <= j < |items|
      ensures ResolveSymbol(items[j], intern) == Ok(syms.keys[j].i)
    {
      LeafAt(syms, j);
      var k := syms.keys[j];
      assert k in syms.ids;
    }
  }

  /** `resolve_lits_ords` on the literal array: each ordinal is the object the
      dumper gave it. */
  lemma LitsResolve(lits: Table)
    requires lits.Valid() && LitsSound(lits)
    ensures forall j :: 0 <= j < lits.Pos() ==> lits.keys[j].Key? && LeavesTable(lits)[j] == Obj(lits.keys[j].addr)
  {
    forall j | 0 <= j < lits.Pos()
      ensures lits.keys[j].Key? && LeavesTable(lits)[j] == Obj(lits.keys[j].addr)
    {
      LeafAt(lits, j);
      assert lits.keys[j] in lits.ids;
    }
  }

  /** The symbol ordinal the dumper gave `id` is read back as `id`. */
  lemma SymbolBack(syms: Table, loaded: seq<Word>, o: int, id: Word)
    requires syms.Valid() && syms.Pos() <= ORD_LIMIT && SymsMatch(syms, loaded)
    requires 0 <= o < syms.Pos() && syms.keys[o] == Fix(id)
    ensures SymbolAt(loaded, Fix(o)) == Ok(id)
  {
    assert syms.keys[o] == Fix(loaded[o]);
  }

  /** `resolve_gvars_ords` on the global-entry array: each ordinal is the
      symbol of the entry the dumper gave it. */
  lemma GvarsResolve(heap: Heap, info: NodeInfo, loaded: seq<Word>)
    requires info.Valid() && info.Bounded() && EntriesSound(heap, info.gentries, info.syms)
    requires SymsMatch(info.syms, loaded)
    ensures SymbolsAt(loaded, LeavesTable(info.gentries)).Ok?
    ensures forall j :: 0 <= j < info.gentries.Pos() ==>
      GvarDenotes(heap, info.gentries.keys[j], SymbolsAt(loaded, LeavesTable(info.gentries)).value[j])
  {
    var items := LeavesTable(info.gentries);
    forall j | 0 <= j < |items|
      ensures GvarDenotes(heap, info.gentries.keys[j], heap.entries[info.gentries.keys[j].addr])
      ensures SymbolAt(loaded, items[j]) == Ok(heap.entries[info.gentries.keys[j].addr])
    {
      LeafAt(info.gentries, j);
      var k := info.gentries.keys[j];
      assert k in info.gentries.ids;
      var key := Fix(heap.entries[k.addr]);
      SymbolBack(info.syms, loaded, info.syms.ids[key], heap.entries[k.addr]);
    }
  }

  /** The IDs of a local ID table, rewritten to ordinals by `NODEInfo_toHash`,
      are read back by `resolve_idtbls_ords` as the same IDs. */
  lemma IdsResolve(syms: Table, loaded: seq<Word>, ids: seq<Word>)
    requires syms.Valid() && syms.Pos() <= ORD_LIMIT && SymsMatch(syms, loaded)
    requires RewriteSymbols(syms, Fixes(ids)).Ok?
    ensures SymbolsAt(loaded, RewriteSymbols(syms, Fixes(ids)).value) == Ok(ids)
  {
    var rw := RewriteSymbols(syms, Fixes(ids)).value;
    forall m | 0 <= m < |ids|
      ensures SymbolAt(loaded, rw[m]) == Ok(ids[m])
    {
      assert Ok(rw[m]) == RewriteSymbol(syms, Fix(ids[m]));
      SymbolBack(syms, loaded, rw[m].i, ids[m]);
    }
    var r := SymbolsAt(loaded, rw);
    assert r.Ok? && |r.value| == |ids|;
    assert forall m :: 0 <= m < |ids| ==> r.value[m] == ids[m];
    assert r.value == ids;
  }

  /** `resolve_idtbls_ords` on the ID-table array: each ordinal is the list of
      IDs of the table the dumper gave it. */
  lemma IdTablesResolve(heap: Heap, info: NodeInfo, loaded: seq<Word>, rewritten: seq<RValue>)
    requires info.Valid() && info.Bounded() && IdTabsSound(heap, info.idTabs)
    requires SymsMatch(info.syms, loaded)
    requires RewriteIdTables(info.syms, LeavesTable(info.idTabs)) == Ok(rewritten)
    ensures IdTablesAt(loaded, rewritten).Ok?
    ensures |IdTablesAt(loaded, rewritten).value| == info.idTabs.Pos()
    ensures forall j :: 0 <= j < info.idTabs.Pos() ==>
      IdTableDenotes(heap, info.idTabs.keys[j], IdTablesAt(loaded, rewritten).value[j])
  {
    var tables := LeavesTable(info.idTabs);
    forall j | 0 <= j < |tables|
      ensures rewritten[j].Ary?
      ensures IdTableDenotes(heap, info.idTabs.keys[j], TableIds(heap, info.idTabs.keys[j].addr))
      ensures SymbolsAt(loaded, rewritten[j].items) == Ok(TableIds(heap, info.idTabs.keys[j].addr))
    {
      LeafAt(info.idTabs, j);
      var k := info.idTabs.keys[j];
      assert k in info.idTabs.ids;
      IdsResolve(info.syms, loaded, TableIds(heap, k.addr));
    }
  }

  /** A node field of an argument record, rewritten by `NODEInfo_toHash`, is
      read back as a pointer to the same node. */
  lemma NodeRefResolves(info: NodeInfo, w: Word, d: RValue)
    requires info.Valid() && info.Bounded()
    requires RewriteNodeRef(info.nodes, Key(w)) == Ok(d)
    ensures d.Fix? && NodeOrdinal(d.i, info.nodes.Pos()).Ok?
    ensures PtrDenotes(info, NodeOrdinal(d.i, info.nodes.Pos()).value, w)
  {
  }

  /** An `ID` field of an argument record, rewritten by `NODEInfo_toHash`, is
      read back as the same ID. */
  lemma SymRefResolves(syms: Table, loaded: seq<Word>, w: Word, d: RValue)
    requires syms.Valid() && syms.Pos() <= ORD_LIMIT && SymsMatch(syms, loaded)
    requires RewriteSymbolRef(syms, Fix(w)) == Ok(d)
    ensures Fix2Int(d).Ok? && SymbolOrdinal(Fix2Int(d).value, loaded) == Ok(w)
  {
    if w != 0 {
      assert syms.keys[d.i] == Fix(loaded[d.i]);
    }
  }

  /** An argument record, rewritten by `NODEInfo_toHash`, is read back by
      `resolve_args_ords` as one that stands for the dumped `rb_args_info`. */
  lemma ArgsEntryResolves(info: NodeInfo, loaded: seq<Word>, a: ArgsInfo, d: RValue, index: nat)
    requires info.Valid() && info.Bounded() && SymsMatch(info.syms, loaded)
    requires RewriteArgs(info, Ary(ArgsRecord(a))) == Ok(d)
    ensures ResolveArgsEntry(index, d, loaded, info.nodes.Pos()).Ok?
    ensures ArgsDenote(info, ResolveArgsEntry(index, d, loaded, info.nodes.Pos()).value, a)
  {
    ArgsItems(info, a, d);
    ItemsResolve(info, loaded, a, d.items, index);
  }

  /** The ten items of an argument record are read back as one standing for
      the `rb_args_info` they were written for. */
  lemma ItemsResolve(info: NodeInfo, loaded: seq<Word>, a: ArgsInfo, x: seq<RValue>, index: nat)
    requires info.Valid() && info.Bounded() && SymsMatch(info.syms, loaded)
    requires |x| == 10
    requires && x[2] == Fix(a.preArgsNum) && x[3] == Fix(a.postArgsNum)
      && RewriteNodeRef(info.nodes, Key(a.preInit)) == Ok(x[0]) && RewriteNodeRef(info.nodes, Key(a.postInit)) == Ok(x[1])
      && RewriteNodeRef(info.nodes, Key(a.kwArgs)) == Ok(x[7]) && RewriteNodeRef(info.nodes, Key(a.kwRestArg)) == Ok(x[8])
      && RewriteNodeRef(info.nodes, Key(a.optArgs)) == Ok(x[9])
      && RewriteSymbolRef(info.syms, Fix(a.firstPostArg)) == Ok(x[4])
      && RewriteSymbolRef(info.syms, Fix(a.restArg)) == Ok(x[5])
      && RewriteSymbolRef(info.syms, Fix(a.blockArg)) == Ok(x[6])
    ensures ResolveArgsEntry(index, Ary(x), loaded, info.nodes.Pos()).Ok?
    ensures ArgsDenote(info, ResolveArgsEntry(index, Ary(x), loaded, info.nodes.Pos()).value, a)
  {
    var n := info.nodes.Pos();
    NodeRefResolves(info, a.preInit, x[0]);
    NodeRefResolves(info, a.postInit, x[1]);
    NodeRefResolves(info, a.kwArgs, x[7]);
    NodeRefResolves(info, a.kwRestArg, x[8]);
    NodeRefResolves(info, a.optArgs, x[9]);
    SymRefResolves(info.syms, loaded, a.firstPostArg, x[4]);
    SymRefResolves(info.syms, loaded, a.restArg, x[5]);
    SymRefResolves(info.syms, loaded, a.blockArg, x[6]);
    var la := LoadedArgs(
      NodeOrdinal(x[0].i, n).value, NodeOrdinal(x[1].i, n).value, a.preArgsNum, a.postArgsNum,
      a.firstPostArg, a.restArg, a.blockArg,
      NodeOrdinal(x[7].i, n).value, NodeOrdinal(x[8].i, n).value, NodeOrdinal(x[9].i, n).value);
    ArgsEntryOf(index, Ary(x), loaded, n, la);
  }

  /** The ten items `NODEInfo_toHash` writes for an `rb_args_info`. */
  lemma ArgsItems(info: NodeInfo, a: ArgsInfo, d: RValue)
    requires info.Valid() && info.Bounded()
    requires RewriteArgs(info, Ary(ArgsRecord(a))) == Ok(d)
    ensures d.Ary? && |d.items| == 10
    ensures var x := d.items;
      && x[2] == Fix(a.preArgsNum) && x[3] == Fix(a.postArgsNum)
      && RewriteNodeRef(info.nodes, Key(a.preInit)) == Ok(x[0]) && RewriteNodeRef(info.nodes, Key(a.postInit)) == Ok(x[1])
      && RewriteNodeRef(info.nodes, Key(a.kwArgs)) == Ok(x[7]) && RewriteNodeRef(info.nodes, Key(a.kwRestArg)) == Ok(x[8])
      && RewriteNodeRef(info.nodes, Key(a.optArgs)) == Ok(x[9])
      && RewriteSymbolRef(info.syms, Fix(a.firstPostArg)) == Ok(x[4])
      && RewriteSymbolRef(info.syms, Fix(a.restArg)) == Ok(x[5])
      && RewriteSymbolRef(info.syms, Fix(a.blockArg)) == Ok(x[6])
  {
  }

  /** `ResolveArgsEntry` gives the record whose fields the ten items resolve to. */
  lemma ArgsEntryOf(index: nat, d: RValue, loaded: seq<Word>, n: nat, la: LoadedArgs)
    requires d.Ary? && |d.items| == 10
    requires var x := d.items;
      && x[0].Fix? && x[1].Fix? && x[7].Fix? && x[8].Fix? && x[9].Fix?
      && NodeOrdinal(x[0].i, n) == Ok(la.preInit) && NodeOrdinal(x[1].i, n) == Ok(la.postInit)
      && NodeOrdinal(x[7].i, n) == Ok(la.kwArgs) && NodeOrdinal(x[8].i, n) == Ok(la.kwRestArg)
      && NodeOrdinal(x[9].i, n) == Ok(la.optArgs)
      && Fix2Int(x[2]) == Ok(la.preArgsNum) && Fix2Int(x[3]) == Ok(la.postArgsNum)
      && Fix2Int(x[4]).Ok? && SymbolOrdinal(Fix2Int(x[4]).value, loaded) == Ok(la.firstPostArg)
      && Fix2Int(x[5]).Ok? && SymbolOrdinal(Fix2Int(x[5]).value, loaded) == Ok(la.restArg)
      && Fix2Int(x[6]).Ok? && SymbolOrdinal(Fix2Int(x[6]).value, loaded) == Ok(la.blockArg)
    ensures ResolveArgsEntry(index, d, loaded, n) == Ok(la)
  {
  }

  /** `resolve_args_ords` on the argument array: each ordinal is an argument
      record that stands for the one the dumper gave it. */
  lemma ArgsResolve(heap: Heap, info: NodeInfo, loaded: seq<Word>, rewritten: seq<RValue>)
    requires info.Valid() && info.Bounded() && ArgsSound(heap, info.args)
    requires SymsMatch(info.syms, loaded)
    requires RewriteArgsAll(info, LeavesTable(info.args)) == Ok(rewritten)
    ensures ResolveArgsList(0, rewritten, loaded, info.nodes.Pos()).Ok?
    ensures |ResolveArgsList(0, rewritten, loaded, info.nodes.Pos()).value| == info.args.Pos()
    ensures forall j :: 0 <= j < info.args.Pos() ==>
      ArgsKeyDenotes(heap, info, info.args.keys[j], ResolveArgsList(0, rewritten, loaded, info.nodes.Pos()).value[j])
  {
    var entries := LeavesTable(info.args);
    forall j | 0 <= j < |entries|
      ensures ResolveArgsEntry(0 + j, rewritten[j], loaded, info.nodes.Pos()).Ok?
      ensures ArgsKeyDenotes(heap, info, info.args.keys[j], ResolveArgsEntry(0 + j, rewritten[j], loaded, info.nodes.Pos()).value)
    {
      LeafAt(info.args, j);
      var k := info.args.keys[j];
      assert k in info.args.ids;
      ArgsEntryResolves(info, loaded, heap.args[k.addr], rewritten[j], 0 + j);
    }
  }

  /** The Hash `NODEInfo_toHash` builds, field by field. */
  lemma ToHashFields(ctbl: seq<int>, heap: Heap, info: NodeInfo, env: Env)
    requires |ctbl| == 3 * Shapes.CTBL_SIZE
    requires info.Valid() && info.Bounded()
    requires ToHash(ctbl, heap, info, env).Ok?
    ensures ToHash(ctbl, heap, info, env).value == map[
      "MAGIC" := Str(MAGIC),
      "RUBY_PLATFORM" := Str(env.platform),
      "RUBY_VERSION" := Str(env.version),
      "literals" := Ary(LeavesTable(info.lits)),
      "symbols" := Ary(LeavesTable(info.syms)),
      "global_entries" := Ary(LeavesTable(info.gentries)),
      "id_tables" := Ary(RewriteIdTables(info.syms, LeavesTable(info.idTabs)).value),
      "args" := Ary(RewriteArgsAll(info, LeavesTable(info.args)).value),
      "nodes" := Str(DumpNodes(ctbl, heap, info, env.filler).value)]
  {
  }

  /** What the loader reads from a Hash of the nine fields `NODEInfo_toHash`
      writes once the count and the names are added. */
  lemma CompleteGet(hash: map<string, RValue>, n: int, env: Env,
                    magic: RValue, platform: RValue, version: RValue, lits: RValue, syms: RValue,
                    gentries: RValue, idTabs: RValue, args: RValue, nodes: RValue)
    requires hash == map["MAGIC" := magic, "RUBY_PLATFORM" := platform, "RUBY_VERSION" := version,
      "literals" := lits, "symbols" := syms, "global_entries" := gentries, "id_tables" := idTabs,
      "args" := args, "nodes" := nodes]
    ensures var data := Container(Complete(hash, n, env));
      && data.Get("num_of_nodes") == Fix(n)
      && data.Get("nodename") == env.nodename && data.Get("filename") == env.filename && data.Get("filepath") == env.filepath
      && data.Get("MAGIC") == magic && data.Get("RUBY_PLATFORM") == platform && data.Get("RUBY_VERSION") == version
      && data.Get("literals") == lits && data.Get("symbols") == syms && data.Get("global_entries") == gentries
      && data.Get("id_tables") == idTabs && data.Get("args") == args && data.Get("nodes") == nodes
  {
  }

  /** `m_nodedump_from_memory` succeeds when each of its steps does, and returns
      what they returned. */
  lemma FromMemorySteps(data: Container, env: LoadEnv, relocs: Relocs, bytes: seq<Byte>, nodes: seq<LoadedNode>)
    requires 1 <= relocs.nodesLen <= INT_MAX && data.Get("num_of_nodes") == Fix(relocs.nodesLen)
    requires CheckHashMagic(data, env.platform, env.version).Ok?
    requires IsName(data.Get("nodename")) && IsName(data.Get("filename")) && IsName(data.Get("filepath"))
    requires ResolveTables(data, env.intern, relocs.nodesLen) == Ok(relocs)
    requires data.Get("nodes") == Str(bytes) && LoadNodes(bytes, relocs, relocs.nodesLen) == Ok(nodes)
    ensures FromMemory(data, env) == Ok(Loaded(relocs, nodes, data.Get("nodename"), data.Get("filename"), data.Get("filepath")))
  {
  }

  /** A Hash signed with this format's signature and the platform `p` and the
      version `v` passes `check_hash_magic` exactly in an interpreter whose
      platform and version read as `p` and `v`; a different platform is
      reported first, then a different version. */
  lemma SignedChecks(data: Container, platform: seq<Byte>, version: seq<Byte>, p: seq<Byte>, v: seq<Byte>)
    requires data.Get("MAGIC") == Str(MAGIC) && data.Get("RUBY_PLATFORM") == Str(p) && data.Get("RUBY_VERSION") == Str(v)
    ensures var r := CheckHashMagic(data, platform, version);
      && (r.Ok? <==> CString(p) == CString(platform) && CString(v) == CString(version))
      && (CString(p) != CString(platform) ==> r == Err(IncompatiblePlatform))
      && (CString(p) == CString(platform) && CString(v) != CString(version) ==> r == Err(IncompatibleVersion))
  {
    CStringOfText(MAGIC);
  }

  /** The Hash `m_nodedump_to_hash` builds passes `check_hash_magic` exactly
      in an interpreter whose platform and version read as the dumper's. */
  lemma SignatureChecks(ctbl: seq<int>, heap: Heap, info: NodeInfo, env: Env, n: int, lenv: LoadEnv)
    requires |ctbl| == 3 * Shapes.CTBL_SIZE
    requires info.Valid() && info.Bounded()
    requires ToHash(ctbl, heap, info, env).Ok?
    ensures var r := CheckHashMagic(Container(Complete(ToHash(ctbl, heap, info, env).value, n, env)), lenv.platform, lenv.version);
      && (r.Ok? <==> CString(env.platform) == CString(lenv.platform) && CString(env.version) == CString(lenv.version))
      && (CString(env.platform) != CString(lenv.platform) ==> r == Err(IncompatiblePlatform))
      && (CString(env.platform) == CString(lenv.platform) && CString(env.version) != CString(lenv.version) ==>
          r == Err(IncompatibleVersion))
  {
    ToHashFields(ctbl, heap, info, env);
    CompleteGet(ToHash(ctbl, heap, info, env).value, n, env, Str(MAGIC), Str(env.platform), Str(env.version),
      Ary(LeavesTable(info.lits)), Ary(LeavesTable(info.syms)), Ary(LeavesTable(info.gentries)),
      Ary(RewriteIdTables(info.syms, LeavesTable(info.idTabs)).value),
      Ary(RewriteArgsAll(info, LeavesTable(info.args)).value), Str(DumpNodes(ctbl, heap, info, env.filler).value));
    SignedChecks(Container(Complete(ToHash(ctbl, heap, info, env).value, n, env)), lenv.platform, lenv.version, env.platform, env.version);
  }

  /** The tables of a Hash that carries the arrays `NODEInfo_toHash` makes of
      tables describing the heap resolve into relocation tables matching them. */
  lemma TablesResolve(heap: Heap, info: NodeInfo, data: Container, intern: seq<Byte> -> Word)
    requires info.Valid() && info.Bounded() && Sound(heap, info) && SameIds(heap, info.syms, intern)
    requires info.nodes.Pos() <= INT_MAX
    requires RewriteIdTables(info.syms, LeavesTable(info.idTabs)).Ok?
    requires RewriteArgsAll(info, LeavesTable(info.args)).Ok?
    requires data.Get("symbols") == Ary(LeavesTable(info.syms)) && data.Get("literals") == Ary(LeavesTable(info.lits))
    requires data.Get("global_entries") == Ary(LeavesTable(info.gentries))
    requires data.Get("id_tables") == Ary(RewriteIdTables(info.syms, LeavesTable(info.idTabs)).value)
    requires data.Get("args") == Ary(RewriteArgsAll(info, LeavesTable(info.args)).value)
    requires data.Get("nodes").Str?
    ensures ResolveTables(data, intern, info.nodes.Pos()).Ok?
    ensures Matches(heap, info, ResolveTables(data, intern, info.nodes.Pos()).value)
  {
    var n := info.nodes.Pos();
    SymsResolve(heap, info.syms, intern);
    var syms := ResolveSymbolList(LeavesTable(info.syms), intern).value;
    LitsResolve(info.lits);
    GvarsResolve(heap, info, syms);
    var rewrittenTables := RewriteIdTables(info.syms, LeavesTable(info.idTabs)).value;
    IdTablesResolve(heap, info, syms, rewrittenTables);
    var rewrittenArgs := RewriteArgsAll(info, LeavesTable(info.args)).value;
    ArgsResolve(heap, info, syms, rewrittenArgs);
    var relocs := Relocs(syms, LeavesTable(info.lits), SymbolsAt(syms, LeavesTable(info.gentries)).value,
      IdTablesAt(syms, rewrittenTables).value, n, ResolveArgsList(0, rewrittenArgs, syms, n).value);
    assert ResolveTables(data, intern, n) == Ok(relocs);
  }

  /** A name field `m_nodedump_from_memory` accepts. */
  predicate IsName(v: RValue)
  {
    v == Nil || v.Str?
  }

  /** The Hash `m_nodedump_to_hash` builds from tables that describe the heap
      loads, in an interpreter of the same platform and version that gives the
      symbols the same IDs, into relocation tables matching those tables and
      one node per node-table entry, each standing for that node, under the
      same names. */
  lemma HashLoads(ctbl: seq<int>, heap: Heap, info: NodeInfo, env: Env, lenv: LoadEnv)
    requires |ctbl| == 3 * Shapes.CTBL_SIZE
    requires info.Valid() && info.Bounded() && Sound(heap, info)
    requires 1 <= info.nodes.Pos() <= INT_MAX
    requires ToHash(ctbl, heap, info, env).Ok?
    requires CString(env.platform) == CString(lenv.platform) && CString(env.version) == CString(lenv.version)
    requires IsName(env.nodename) && IsName(env.filename) && IsName(env.filepath)
    requires SameIds(heap, info.syms, lenv.intern)
    ensures var r := FromMemory(Container(Complete(ToHash(ctbl, heap, info, env).value, info.nodes.Pos(), env)), lenv);
      && r.Ok? && Matches(heap, info, r.value.relocs) && |r.value.nodes| == info.nodes.Pos()
      && r.value.nodename == env.nodename && r.value.filename == env.filename && r.value.filepath == env.filepath
      && forall i :: 0 <= i < info.nodes.Pos() ==>
        && info.nodes.keys[i].Key? && info.nodes.keys[i].addr in heap.nodes
        && NodeDenotes(heap, info, r.value.relocs, r.value.nodes[i], heap.nodes[info.nodes.keys[i].addr])
  {
    var n := info.nodes.Pos();
    var data := Container(Complete(ToHash(ctbl, heap, info, env).value, n, env));
    ToHashFields(ctbl, heap, info, env);
    var bytes := DumpNodes(ctbl, heap, info, env.filler).value;
    CompleteGet(ToHash(ctbl, heap, info, env).value, n, env, Str(MAGIC), Str(env.platform), Str(env.version),
      Ary(LeavesTable(info.lits)), Ary(LeavesTable(info.syms)), Ary(LeavesTable(info.gentries)),
      Ary(RewriteIdTables(info.syms, LeavesTable(info.idTabs)).value),
      Ary(RewriteArgsAll(info, LeavesTable(info.args)).value), Str(bytes));
    SignedChecks(data, lenv.platform, lenv.version, env.platform, env.version);
    TablesResolve(heap, info, data, lenv.intern);
    var relocs := ResolveTables(data, lenv.intern, n).value;
    NodesLoad(ctbl, heap, info, relocs, bytes);
    var nodes := LoadNodes(bytes, relocs, n).value;
    FromMemorySteps(data, lenv, relocs, bytes, nodes);
  }

  /** The tables `count_num_of_nodes` fills from empty ones describe the heap. */
  lemma WalkRootSound(ctbl: seq<int>, heap: Heap, root: Word, fuel: nat)
    requires |ctbl| == 3 * Shapes.CTBL_SIZE
    requires WalkRoot(ctbl, heap, root, fuel).Ok?
    ensures Sound(heap, WalkRoot(ctbl, heap, root, fuel).value.0)
    ensures root == 0 ==> WalkRoot(ctbl, heap, root, fuel).value.0.nodes.Pos() == 0
  {
    var parentType := if root in heap.nodes then NdType(heap.nodes[root].flags) else 0;
    EmptySound(heap);
    WalkKeepsSound(ctbl, heap, root, parentType, EmptyInfo(), fuel);
  }

  /** `m_nodedump_to_hash` with `num_of_nodes` set to the number of records:
      for a null root the Hash holds no node and does not load; otherwise it
      loads, in an interpreter of the same platform and version that gives
      the symbols the same IDs, into one node per record under the same names,
      the first standing for the root and each one for the node it was dumped
      from. */
  lemma DumpLoads(ctbl: seq<int>, heap: Heap, root: Word, fuel: nat, env: Env, lenv: LoadEnv)
    requires |ctbl| == 3 * Shapes.CTBL_SIZE
    requires Dump(ctbl, heap, root, fuel, env).Ok?
    requires CString(env.platform) == CString(lenv.platform) && CString(env.version) == CString(lenv.version)
    requires IsName(env.nodename) && IsName(env.filename) && IsName(env.filepath)
    requires SameIds(heap, WalkRoot(ctbl, heap, root, fuel).value.0.syms, lenv.intern)
    ensures root == 0 ==> FromMemory(Container(Dump(ctbl, heap, root, fuel, env).value), lenv).Err?
    ensures root != 0 ==>
      var info := WalkRoot(ctbl, heap, root, fuel).value.0;
      var r := FromMemory(Container(Dump(ctbl, heap, root, fuel, env).value), lenv);
      && r.Ok? && Matches(heap, info, r.value.relocs) && |r.value.nodes| == info.nodes.Pos() >= 1
      && r.value.nodename == env.nodename && r.value.filename == env.filename && r.value.filepath == env.filepath
      && root in heap.nodes && NodeDenotes(heap, info, r.value.relocs, r.value.nodes[0], heap.nodes[root])
      && forall i :: 0 <= i < |r.value.nodes| ==>
        && info.nodes.keys[i].Key? && info.nodes.keys[i].addr in heap.nodes
        && NodeDenotes(heap, info, r.value.relocs, r.value.nodes[i], heap.nodes[info.nodes.keys[i].addr])
  {
    DumpIsComplete(ctbl, heap, root, fuel, env);
    WalkRootSound(ctbl, heap, root, fuel);
    if root != 0 {
      HashLoads(ctbl, heap, WalkRoot(ctbl, heap, root, fuel).value.0, env, lenv);
    }
  }

  /** The Hash `Dump` returns is the one `NODEInfo_toHash` built from the
      walked tables, completed with the number of records and the names. */
  lemma DumpIsComplete(ctbl: seq<int>, heap: Heap, root: Word, fuel: nat, env: Env)
    requires |ctbl| == 3 * Shapes.CTBL_SIZE
    requires WalkRoot(ctbl, heap, root, fuel).Ok?
    ensures var info := WalkRoot(ctbl, heap, root, fuel).value.0;
      Dump(ctbl, heap, root, fuel, env) == DumpCounted(ctbl, heap, info, info.nodes.Pos(), env)
  {
  }
}

=== FILE: shapes.dfy ===
/** The child-slot schema of ext/node-marshal/nodeinfo.c: for every node type
    the kind of each of its three child slots (`nodes_child_info`), the check of
    that table against the slots Ruby's own node.c treats as marked references
    (`check_nodes_child_info`) and the flat lookup table built from it
    (`init_nodes_table`). */
module Shapes {
  import opened Wrappers
  import opened Kinds
  import opened NodeLayout

  /** One row of `nodes_child_info`: a node type and the kinds of its slots. */
  datatype Row = Row(nodeType: int, slot1: int, slot2: int, slot3: int)
  {
    function Kinds(): seq<int>
    {
      [slot1, slot2, slot3]
    }
  }

  /** `nodes_child_info` for Ruby 2.x with `USE_RB_ARGS_INFO`, in source order and
      without the `-1` sentinel row that ends it. It is written as consecutive
      runs of rows so that each run can be checked on its own. */
  const CHILD_INFO: seq<Row> :=
    ROWS_BLOCK
    + ROWS_ITER
    + ROWS_BEGIN
    + ROWS_LASGN
    + ROWS_OP_ASGN1
    + ROWS_SUPER
    + ROWS_LVAR
    + ROWS_GVAR
    + ROWS_MATCH
    + ROWS_DSTR
    + ROWS_ARGSCAT
    + ROWS_CLASS
    + ROWS_SELF
    + ROWS_DEFINED
    + ROWS_OPT_ARG

  const ROWS_BLOCK: seq<Row> := [
    Row(NODE_BLOCK, NT_NODE, NT_NULL, NT_NODE),
    Row(NODE_IF, NT_NODE, NT_NODE, NT_NODE),
    Row(NODE_CASE, NT_NODE, NT_NODE, NT_NULL),
    Row(NODE_WHEN, NT_NODE, NT_NODE, NT_NODE),
    Row(NODE_OPT_N, NT_NULL, NT_NODE, NT_LONG),
    Row(NODE_WHILE, NT_NODE, NT_NODE, NT_LONG),
    Row(NODE_UNTIL, NT_NODE, NT_NODE, NT_LONG)
  ]
  const ROWS_ITER: seq<Row> := [
    Row(NODE_ITER, NT_VALUE, NT_NODE, NT_NODE),
    Row(NODE_FOR, NT_VALUE, NT_NODE, NT_NODE),
    Row(NODE_BREAK, NT_NODE, NT_NULL, NT_NULL),
    Row(NODE_NEXT, NT_NODE, NT_NULL, NT_NULL),
    Row(NODE_RETURN, NT_NODE, NT_NULL, NT_NULL),
    Row(NODE_REDO, NT_NULL, NT_NULL, NT_NULL),
    Row(NODE_RETRY, NT_NULL, NT_NULL, NT_NULL)
  ]
  const ROWS_BEGIN: seq<Row> := [
    Row(NODE_BEGIN, NT_NULL, NT_NODE, NT_NULL),
    Row(NODE_RESCUE, NT_NODE, NT_NODE, NT_NODE),
    Row(NODE_RESBODY, NT_NODE, NT_NODE, NT_NODE),
    Row(NODE_ENSURE, NT_NODE, NT_NULL, NT_NODE),
    Row(NODE_AND, NT_NODE, NT_NODE, NT_NULL),
    Row(NODE_OR, NT_NODE, NT_NODE, NT_NULL),
    Row(NODE_MASGN, NT_NODE, NT_NODE, NT_NODE)
  ]
  const ROWS_LASGN: seq<Row> := [
    Row(NODE_LASGN, NT_ID, NT_NODE, NT_NULL),
    Row(NODE_DASGN, NT_ID, NT_NODE, NT_NULL),
    Row(NODE_DASGN_CURR, NT_ID, NT_NODE, NT_NULL),
    Row(NODE_IASGN, NT_ID, NT_NODE, NT_NULL),
    Row(NODE_CVASGN, NT_ID, NT_NODE, NT_NULL),
    Row(NODE_GASGN, NT_NULL, NT_NODE, NT_ENTRY),
    Row(NODE_CDECL, NT_ID, NT_NODE, NT_NODE)
  ]
  const ROWS_OP_ASGN1: seq<Row> := [
    Row(NODE_OP_ASGN1, NT_NODE, NT_ID, NT_NODE),
    Row(NODE_OP_ASGN2, NT_NODE, NT_NODE, NT_NODE),
    Row(NODE_OP_ASGN_AND, NT_NODE, NT_NODE, NT_NULL),
    Row(NODE_OP_ASGN_OR, NT_NODE, NT_NODE, NT_NULL),
    Row(NODE_CALL, NT_NODE, NT_ID, NT_NODE),
    Row(NODE_FCALL, NT_NULL, NT_ID, NT_NODE),
    Row(NODE_VCALL, NT_NULL, NT_ID, NT_NULL)
  ]
  const ROWS_SUPER: seq<Row> := [
    Row(NODE_SUPER, NT_NULL, NT_NULL, NT_NODE),
    Row(NODE_ZSUPER, NT_NULL, NT_NULL, NT_NULL),
    Row(NODE_ARRAY, NT_NODE, NT_LONG, NT_NODE),
    Row(NODE_VALUES, NT_NODE, NT_LONG, NT_NODE),
    Row(NODE_ZARRAY, NT_NULL, NT_NULL, NT_NULL),
    Row(NODE_HASH, NT_NODE, NT_NULL, NT_NULL),
    Row(NODE_YIELD, NT_NODE, NT_NULL, NT_NULL)
  ]
  const ROWS_LVAR: seq<Row> := [
    Row(NODE_LVAR, NT_ID, NT_NULL, NT_NULL),
    Row(NODE_DVAR, NT_ID, NT_NULL, NT_NULL),
    Row(NODE_IVAR, NT_ID, NT_NULL, NT_NULL),
    Row(NODE_CONST, NT_ID, NT_NULL, NT_NULL),
    Row(NODE_CVAR, NT_ID, NT_NULL, NT_NULL)
  ]
  const ROWS_GVAR: seq<Row> := [
    Row(NODE_GVAR, NT_NULL, NT_NULL, NT_ENTRY),
    Row(NODE_NTH_REF, NT_NULL, NT_LONG, NT_NULL),
    Row(NODE_BACK_REF, NT_NULL, NT_LONG, NT_LONG)
  ]
  const ROWS_MATCH: seq<Row> := [
    Row(NODE_MATCH, NT_VALUE, NT_NULL, NT_NULL),
    Row(NODE_MATCH2, NT_NODE, NT_NODE, NT_NULL),
    Row(NODE_MATCH3, NT_NODE, NT_NODE, NT_NULL),
    Row(NODE_LIT, NT_VALUE, NT_NULL, NT_NULL),
    Row(NODE_STR, NT_VALUE, NT_NULL, NT_NULL),
    Row(NODE_XSTR, NT_VALUE, NT_NULL, NT_NULL)
  ]
  const ROWS_DSTR: seq<Row> := [
    Row(NODE_DSTR, NT_VALUE, NT_NULL, NT_NODE),
    Row(NODE_DXSTR, NT_VALUE, NT_NULL, NT_NODE),
    Row(NODE_DREGX, NT_VALUE, NT_NULL, NT_NODE),
    Row(NODE_DREGX_ONCE, NT_VALUE, NT_NULL, NT_NODE),
    Row(NODE_DSYM, NT_VALUE, NT_NULL, NT_NODE),
    Row(NODE_EVSTR, NT_NULL, NT_NODE, NT_NULL)
  ]
  const ROWS_ARGSCAT: seq<Row> := [
    Row(NODE_ARGSCAT, NT_NODE, NT_NODE, NT_NULL),
    Row(NODE_ARGSPUSH, NT_NODE, NT_NODE, NT_NULL),
    Row(NODE_SPLAT, NT_NODE, NT_NULL, NT_NULL),
    Row(NODE_BLOCK_PASS, NT_NODE, NT_NODE, NT_NODE),
    Row(NODE_DEFN, NT_NULL, NT_ID, NT_NODE),
    Row(NODE_DEFS, NT_NODE, NT_ID, NT_NODE),
    Row(NODE_ALIAS, NT_NODE, NT_NODE, NT_NULL),
    Row(NODE_VALIAS, NT_ID, NT_ID, NT_NULL),
    Row(NODE_UNDEF, NT_NULL, NT_NODE, NT_NULL)
  ]
  const ROWS_CLASS: seq<Row> := [
    Row(NODE_CLASS, NT_NODE, NT_NODE, NT_NODE),
    Row(NODE_MODULE, NT_NODE, NT_NODE, NT_NULL),
    Row(NODE_SCLASS, NT_NODE, NT_NODE, NT_NULL),
    Row(NODE_COLON2, NT_NODE, NT_ID, NT_NULL),
    Row(NODE_COLON3, NT_NULL, NT_ID, NT_NULL),
    Row(NODE_DOT2, NT_NODE, NT_NODE, NT_NULL),
    Row(NODE_DOT3, NT_NODE, NT_NODE, NT_NULL),
    Row(NODE_FLIP2, NT_NODE, NT_NODE, NT_NULL),
    Row(NODE_FLIP3, NT_NODE, NT_NODE, NT_NULL)
  ]
  const ROWS_SELF: seq<Row> := [
    Row(NODE_SELF, NT_NULL, NT_NULL, NT_NULL),
    Row(NODE_NIL, NT_NULL, NT_NULL, NT_NULL),
    Row(NODE_TRUE, NT_NULL, NT_NULL, NT_NULL),
    Row(NODE_FALSE, NT_NULL, NT_NULL, NT_NULL),
    Row(NODE_ERRINFO, NT_NULL, NT_NULL, NT_NULL)
  ]
  const ROWS_DEFINED: seq<Row> := [
    Row(NODE_DEFINED, NT_NODE, NT_NULL, NT_NULL),
    Row(NODE_POSTEXE, NT_NULL, NT_NODE, NT_NULL),
    Row(NODE_ATTRASGN, NT_NODE, NT_ID, NT_NODE),
    Row(NODE_PRELUDE, NT_NODE, NT_NODE, NT_NULL),
    Row(NODE_LAMBDA, NT_NULL, NT_NODE, NT_NULL)
  ]
  const ROWS_OPT_ARG: seq<Row> := [
    Row(NODE_OPT_ARG, NT_NULL, NT_NODE, NT_NODE),
    Row(NODE_POSTARG, NT_NODE, NT_NODE, NT_NULL),
    Row(NODE_ARGS, NT_NULL, NT_VALUE, NT_ARGS),
    Row(NODE_SCOPE, NT_IDTABLE, NT_NODE, NT_NODE),
    Row(NODE_ARGS_AUX, NT_LONG, NT_LONG, NT_NODE)
  ]

  /** `NODES_CTBL_SIZE`: the number of node types `nodes_ctbl` has room for. */
  const CTBL_SIZE: nat := 256

  /** Which of the three slots hold references the garbage collector marks. */
  datatype Marked = Marked(first: bool, second: bool, third: bool)

  datatype ShapeError = BadEntry(nodeType: int)

  // The node types of each case group of the Ruby 2.x switch of
  // `check_nodes_child_info`, named after the slots that group marks.
  predicate MarksAll(t: int)
  {
    t == NODE_IF || t == NODE_FOR || t == NODE_ITER || t == NODE_WHEN
    || t == NODE_MASGN || t == NODE_RESCUE || t == NODE_RESBODY || t == NODE_CLASS
    || t == NODE_BLOCK_PASS
  }

  predicate MarksFirstThird(t: int)
  {
    t == NODE_BLOCK || t == NODE_ARRAY || t == NODE_DSTR || t == NODE_DXSTR
    || t == NODE_DREGX || t == NODE_DREGX_ONCE || t == NODE_ENSURE || t == NODE_CALL
    || t == NODE_DEFS || t == NODE_OP_ASGN1
  }

  predicate MarksThird(t: int)
  {
    t == NODE_SUPER || t == NODE_FCALL || t == NODE_DEFN || t == NODE_ARGS_AUX
  }

  predicate MarksFirstSecond(t: int)
  {
    t == NODE_WHILE || t == NODE_UNTIL || t == NODE_AND || t == NODE_OR
    || t == NODE_CASE || t == NODE_SCLASS || t == NODE_DOT2 || t == NODE_DOT3
    || t == NODE_FLIP2 || t == NODE_FLIP3 || t == NODE_MATCH2 || t == NODE_MATCH3
    || t == NODE_OP_ASGN_OR || t == NODE_OP_ASGN_AND || t == NODE_MODULE || t == NODE_ALIAS
    || t == NODE_ARGSCAT
  }

  predicate MarksSecond(t: int)
  {
    t == NODE_GASGN || t == NODE_LASGN || t == NODE_DASGN || t == NODE_DASGN_CURR
    || t == NODE_IASGN || t == NODE_IASGN2 || t == NODE_CVASGN || t == NODE_OPT_N
    || t == NODE_EVSTR || t == NODE_UNDEF || t == NODE_POSTEXE
  }

  predicate MarksFirst(t: int)
  {
    t == NODE_HASH || t == NODE_LIT || t == NODE_STR || t == NODE_XSTR
    || t == NODE_DEFINED || t == NODE_MATCH || t == NODE_RETURN || t == NODE_BREAK
    || t == NODE_NEXT || t == NODE_YIELD || t == NODE_COLON2 || t == NODE_SPLAT
    || t == NODE_TO_ARY
  }

  predicate MarksSecondThird(t: int)
  {
    t == NODE_SCOPE || t == NODE_CDECL || t == NODE_OPT_ARG
  }

  predicate MarksArgs(t: int)
  {
    t == NODE_ARGS
  }

  predicate MarksNone(t: int)
  {
    t == NODE_ZARRAY || t == NODE_ZSUPER || t == NODE_VCALL || t == NODE_GVAR
    || t == NODE_LVAR || t == NODE_DVAR || t == NODE_IVAR || t == NODE_CVAR
    || t == NODE_NTH_REF || t == NODE_BACK_REF || t == NODE_REDO || t == NODE_RETRY
    || t == NODE_SELF || t == NODE_NIL || t == NODE_TRUE || t == NODE_FALSE
    || t == NODE_ERRINFO || t == NODE_BLOCK_ARG
  }

  /** The slot markings the switch expects for a node type, or `None` for a type
      that falls to its `default` case and is not checked. */
  function ExpectedMarks(t: int): Option<Marked>
  {
    if MarksAll(t) then Some(Marked(true, true, true))
    else if MarksFirstThird(t) then Some(Marked(true, false, true))
    else if MarksThird(t) then Some(Marked(false, false, true))
    else if MarksFirstSecond(t) then Some(Marked(true, true, false))
    else if MarksSecond(t) || MarksArgs(t) then Some(Marked(false, true, false))
    else if MarksFirst(t) then Some(Marked(true, false, false))
    else if MarksSecondThird(t) then Some(Marked(false, true, true))
    else if MarksNone(t) then Some(Marked(false, false, false))
    else None
  }

  /** A slot the garbage collector marks: a node or a Ruby object. */
  predicate IsMarked(kind: int)
  {
    kind == NT_NODE || kind == NT_VALUE
  }

  /** `isval_tbl`: which slots of a row hold marked references. */
  function Marks(row: Row): Marked
  {
    Marked(IsMarked(row.slot1), IsMarked(row.slot2), IsMarked(row.slot3))
  }

  /** `check_nodes_child_info`: a row of a type the switch lists must mark
      exactly the slots the switch marks. */
  function CheckRow(row: Row): (r: Result<(), ShapeError>)
    ensures r.Err? <==> ExpectedMarks(row.nodeType).Some? && ExpectedMarks(row.nodeType).value != Marks(row)
  {
    match ExpectedMarks(row.nodeType)
    case None => Ok(())
    case Some(m) => if m == Marks(row) then Ok(()) else Err(BadEntry(row.nodeType))
  }

  /** The run-by-run check of the first loop of `init_nodes_table`: the first row
      that fails stops the initialisation with its error. */
  function CheckAll(rows: seq<Row>): (r: Result<(), ShapeError>)
    ensures r.Ok? <==> forall i :: 0 <= i < |rows| ==> CheckRow(rows[i]).Ok?
    ensures r.Err? ==> exists i :: 0 <= i < |rows| && CheckRow(rows[i]) == r
  {
    if rows == [] then Ok(())
    else if CheckRow(rows[0]).Err? then CheckRow(rows[0])
    else
      var rest := CheckAll(rows[1..]);
      assert forall i :: 1 <= i < |rows| ==> rows[i] == rows[1..][i - 1];
      rest
  }

  /** The row that describes node type `t`: the last one of that type, since
      later rows overwrite earlier ones. */
  function LastRow(rows: seq<Row>, t: int): (r: Option<Row>)
    ensures r.Some? ==> r.value in rows && r.value.nodeType == t
    ensures r.None? <==> forall i :: 0 <= i < |rows| ==> rows[i].nodeType != t
  {
    if rows == [] then None
    else if rows[|rows| - 1].nodeType == t then Some(rows[|rows| - 1])
    else
      var r := LastRow(rows[..|rows| - 1], t);
      assert forall i :: 0 <= i < |rows| - 1 ==> rows[i] == rows[..|rows| - 1][i];
      r
  }

  /** The third loop of `init_nodes_table`: each row's three kinds are stored at
      `3 * type`, `3 * type + 1` and `3 * type + 2`. */
  function Fill(tbl: seq<int>, rows: seq<Row>): (r: seq<int>)
    requires forall i :: 0 <= i < |rows| ==> 0 <= 3 * rows[i].nodeType && 3 * rows[i].nodeType + 3 <= |tbl|
    ensures |r| == |tbl|
  {
    if rows == [] then tbl
    else
      var row := rows[|rows| - 1];
      var prev := Fill(tbl, rows[..|rows| - 1]);
      var at := 3 * row.nodeType;
      prev[at := row.slot1][at + 1 := row.slot2][at + 2 := row.slot3]
  }

  /** `init_nodes_table(nodes_ctbl, num_of_entries)`: check every row, then set
      all `3 * num_of_entries` entries to `NT_UNKNOWN` and store each row. The C
      writes without a bounds check, so every row's type must be below
      `num_of_entries`. */
  function InitNodesTable(rows: seq<Row>, numEntries: nat): (r: Result<seq<int>, ShapeError>)
    requires forall i :: 0 <= i < |rows| ==> 0 <= rows[i].nodeType < numEntries
    ensures r.Ok? <==> forall i :: 0 <= i < |rows| ==> CheckRow(rows[i]).Ok?
    ensures r.Err? ==> exists i :: 0 <= i < |rows| && CheckRow(rows[i]).Err? && r.error == CheckRow(rows[i]).error
    ensures r.Ok? ==> |r.value| == 3 * numEntries
  {
    var _ :- CheckAll(rows);
    Ok(Fill(seq(3 * numEntries, _ => NT_UNKNOWN), rows))
  }

  /** The three kinds the table should hold for type `t`: those of the row that
      describes it, or `NT_UNKNOWN` three times. */
  function DescribedKinds(rows: seq<Row>, t: int): seq<int>
  {
    match LastRow(rows, t)
    case Some(row) => row.Kinds()
    case None => [NT_UNKNOWN, NT_UNKNOWN, NT_UNKNOWN]
  }

  /** What the lookup table holds: entries `3 * t` to `3 * t + 2` are the slot
      kinds of the row for type `t`, or `NT_UNKNOWN` for a type no row
      describes. The initialisation fails exactly when some row fails the check. */
  lemma InitNodesTableContents(rows: seq<Row>, numEntries: nat)
    requires forall i :: 0 <= i < |rows| ==> 0 <= rows[i].nodeType < numEntries
    ensures InitNodesTable(rows, numEntries).Ok? <==> forall i :: 0 <= i < |rows| ==> CheckRow(rows[i]).Ok?
    ensures InitNodesTable(rows, numEntries).Ok? ==>
      var tbl := InitNodesTable(rows, numEntries).value;
      |tbl| == 3 * numEntries &&
      forall t :: 0 <= t < numEntries ==> tbl[3 * t .. 3 * t + 3] == DescribedKinds(rows, t)
  {
    var blank := seq(3 * numEntries, _ => NT_UNKNOWN);
    var tbl := Fill(blank, rows);
    forall t | 0 <= t < numEntries
      ensures tbl[3 * t .. 3 * t + 3] == DescribedKinds(rows, t)
    {
      FillEntry(blank, rows, t, 0);
      FillEntry(blank, rows, t, 1);
      FillEntry(blank, rows, t, 2);
    }
  }

  lemma {:induction false} FillEntry(tbl: seq<int>, rows: seq<Row>, t: int, j: int)
    requires forall i :: 0 <= i < |rows| ==> 0 <= 3 * rows[i].nodeType && 3 * rows[i].nodeType + 3 <= |tbl|
    requires 0 <= j < 3 && 0 <= 3 * t + j < |tbl|
    ensures Fill(tbl, rows)[3 * t + j] == match LastRow(rows, t) case Some(row) => row.Kinds()[j] case None => tbl[3 * t + j]
    decreases |rows|
  {
    if rows != [] {
      var init := rows[..|rows| - 1];
      assert forall i :: 0 <= i < |init| ==> init[i] == rows[i];
      FillEntry(tbl, init, t, j);
    }
  }

  /** A row the walker of nodedump.c can follow: a declared node type, no slot
      left `NT_UNKNOWN`, and each kind only in a slot the walker accepts it in
      (`NT_IDTABLE` first, `NT_VALUE` first or second, `NT_ENTRY` and `NT_ARGS`
      third). */
  predicate WalkableRow(row: Row)
  {
    IsNodeType(row.nodeType)
    && IsSlotKind(row.slot1) && IsSlotKind(row.slot2) && IsSlotKind(row.slot3)
    && row.slot1 != NT_ENTRY && row.slot1 != NT_ARGS
    && row.slot2 != NT_IDTABLE && row.slot2 != NT_ENTRY && row.slot2 != NT_ARGS
    && row.slot3 != NT_IDTABLE && row.slot3 != NT_VALUE
  }

  /** The shipped table passes the check on every row, and every row can be
      followed by the walker. */
  lemma ShippedTable()
    ensures forall row :: row in CHILD_INFO ==> CheckRow(row).Ok? && WalkableRow(row)
  {
    RowsBlockChecked();
    RowsBlockWalkable();
    RowsIterChecked();
    RowsIterWalkable();
    RowsBeginChecked();
    RowsBeginWalkable();
    RowsLasgnChecked();
    RowsLasgnWalkable();
    RowsOpAsgn1Checked();
    RowsOpAsgn1Walkable();
    RowsSuperChecked();
    RowsSuperWalkable();
    RowsLvarChecked();
    RowsLvarWalkable();
    RowsGvarChecked();
    RowsGvarWalkable();
    RowsMatchChecked();
    RowsMatchWalkable();
    RowsDstrChecked();
    RowsDstrWalkable();
    RowsArgscatChecked();
    RowsArgscatWalkable();
    RowsClassChecked();
    RowsClassWalkable();
    RowsSelfChecked();
    RowsSelfWalkable();
    RowsDefinedChecked();
    RowsDefinedWalkable();
    RowsOptArgChecked();
    RowsOptArgWalkable();
  }

  /** The table `nodes_ctbl` the extension builds at load time: the shipped rows
      into room for `NODES_CTBL_SIZE` types. It is built without error; every
      entry for a described type is a kind the walker accepts in that slot, and
      every other entry is `NT_UNKNOWN`. */
  lemma ShippedNodesTable()
    ensures forall i :: 0 <= i < |CHILD_INFO| ==> 0 <= CHILD_INFO[i].nodeType < CTBL_SIZE
    ensures InitNodesTable(CHILD_INFO, CTBL_SIZE).Ok?
    ensures forall t :: 0 <= t < CTBL_SIZE ==>
      InitNodesTable(CHILD_INFO, CTBL_SIZE).value[3 * t .. 3 * t + 3] == DescribedKinds(CHILD_INFO, t)
    ensures forall t :: 0 <= t < CTBL_SIZE && LastRow(CHILD_INFO, t).Some? ==> WalkableRow(LastRow(CHILD_INFO, t).value)
  {
    ShippedTable();
    assert forall i :: 0 <= i < |CHILD_INFO| ==> CHILD_INFO[i] in CHILD_INFO;
    InitNodesTableContents(CHILD_INFO, CTBL_SIZE);
  }

  // The Rows* lemmas below only split the proof of `ShippedTable` into blocks of
  // `CHILD_INFO`, so that no single proof unfolds `CheckRow` or `WalkableRow` on
  // every row at once; they state nothing beyond what `ShippedTable` does.

  lemma RowsBlockChecked()
    ensures forall row :: row in ROWS_BLOCK ==> CheckRow(row).Ok?
  {
  }

  lemma RowsBlockWalkable()
    ensures forall row :: row in ROWS_BLOCK ==> WalkableRow(row)
  {
  }

  lemma RowsIterChecked()
    ensures forall row :: row in ROWS_ITER ==> CheckRow(row).Ok?
  {
  }

  lemma RowsIterWalkable()
    ensures forall row :: row in ROWS_ITER ==> WalkableRow(row)
  {
  }

  lemma RowsBeginChecked()
    ensures forall row :: row in ROWS_BEGIN ==> CheckRow(row).Ok?
  {
  }

  lemma RowsBeginWalkable()
    ensures forall row :: row in ROWS_BEGIN ==> WalkableRow(row)
  {
  }

  lemma RowsLasgnChecked()
    ensures forall row :: row in ROWS_LASGN ==> CheckRow(row).Ok?
  {
  }

  lemma RowsLasgnWalkable()
    ensures forall row :: row in ROWS_LASGN ==> WalkableRow(row)
  {
  }

  lemma RowsOpAsgn1Checked()
    ensures forall row :: row in ROWS_OP_ASGN1 ==> CheckRow(row).Ok?
  {
  }

  lemma RowsOpAsgn1Walkable()
    ensures forall row :: row in ROWS_OP_ASGN1 ==> WalkableRow(row)
  {
  }

  lemma RowsSuperChecked()
    ensures forall row :: row in ROWS_SUPER ==> CheckRow(row).Ok?
  {
  }

  lemma RowsSuperWalkable()
    ensures forall row :: row in ROWS_SUPER ==> WalkableRow(row)
  {
  }

  lemma RowsLvarChecked()
    ensures forall row :: row in ROWS_LVAR ==> CheckRow(row).Ok?
  {
  }

  lemma RowsLvarWalkable()
    ensures forall row :: row in ROWS_LVAR ==> WalkableRow(row)
  {
  }

  lemma RowsMatchChecked()
    ensures forall row :: row in ROWS_MATCH ==> CheckRow(row).Ok?
  {
  }

  lemma RowsMatchWalkable()
    ensures forall row :: row in ROWS_MATCH ==> WalkableRow(row)
  {
  }

  lemma RowsDstrChecked()
    ensures forall row :: row in ROWS_DSTR ==> CheckRow(row).Ok?
  {
  }

  lemma RowsDstrWalkable()
    ensures forall row :: row in ROWS_DSTR ==> WalkableRow(row)
  {
  }

  lemma RowsArgscatChecked()
    ensures forall row :: row in ROWS_ARGSCAT ==> CheckRow(row).Ok?
  {
  }

  lemma RowsArgscatWalkable()
    ensures forall row :: row in ROWS_ARGSCAT ==> WalkableRow(row)
  {
  }

  lemma RowsClassChecked()
    ensures forall row :: row in ROWS_CLASS ==> CheckRow(row).Ok?
  {
  }

  lemma RowsClassWalkable()
    ensures forall row :: row in ROWS_CLASS ==> WalkableRow(row)
  {
  }

  lemma RowsSelfChecked()
    ensures forall row :: row in ROWS_SELF ==> CheckRow(row).Ok?
  {
  }

  lemma RowsSelfWalkable()
    ensures forall row :: row in ROWS_SELF ==> WalkableRow(row)
  {
  }

  lemma RowsOptArgChecked()
    ensures forall row :: row in ROWS_OPT_ARG ==> CheckRow(row).Ok?
  {
  }

  lemma RowsOptArgWalkable()
    ensures forall row :: row in ROWS_OPT_ARG ==> WalkableRow(row)
  {
  }

  lemma RowsDefinedChecked()
    ensures forall row :: row in ROWS_DEFINED ==> CheckRow(row).Ok?
  {
  }

  lemma RowsDefinedWalkable()
    ensures forall row :: row in ROWS_DEFINED ==> WalkableRow(row)
  {
  }

  lemma RowsGvarChecked()
    ensures forall row :: row in ROWS_GVAR ==> CheckRow(row).Ok?
  {
  }

  lemma RowsGvarWalkable()
    ensures forall row :: row in ROWS_GVAR ==> WalkableRow(row)
  {
  }
}

=== FILE: sharing.dfy ===
/** `m_nodedump_to_hash` (ext/node-marshal/nodedump.c) stores as
    `num_of_nodes` the number of nodes `count_num_of_nodes` visited, while
    `dump_nodes` writes one record per distinct node. A node reached through
    two slots is visited twice, and the loader then asks for more records than
    the `nodes` string holds. */
module NodeCount {
  import opened Wrappers
  import opened Words
  import opened Kinds
  import opened NodeLayout
  import opened Values
  import opened LeafTables
  import opened Walker
  import opened Records
  import opened Dumper
  import opened Loader
  import opened RoundTrip
  import Shapes

  /** A Hash whose `num_of_nodes` exceeds the number of records its `nodes`
      string holds does not load. */
  lemma OverCountFails(ctbl: seq<int>, heap: Heap, info: NodeInfo, count: int, env: Env, lenv: LoadEnv)
    requires |ctbl| == 3 * Shapes.CTBL_SIZE
    requires info.Valid() && info.Bounded()
    requires count > info.nodes.Pos()
    ensures DumpCounted(ctbl, heap, info, count, env).Ok? ==>
      FromMemory(Container(DumpCounted(ctbl, heap, info, count, env).value), lenv).Err?
  {
    var d := DumpCounted(ctbl, heap, info, count, env);
    if d.Ok? {
      var r := FromMemory(Container(d.value), lenv);
      if r.Ok? {
        var bytes := d.value["nodes"].bytes;
        LoadNodesDecodes(bytes, r.value.relocs, count);
        assert false;
      }
    }
  }

  /** A `NODE_AND` at `root` whose two operands are the same `NODE_NIL` at
      `child`, with the child slots `nodes_child_info` gives both types. */
  ghost predicate SharesChild(ctbl: seq<int>, heap: Heap, root: Word, child: Word)
  {
    && |ctbl| == 3 * Shapes.CTBL_SIZE
    && ctbl[3 * NODE_AND .. 3 * NODE_AND + 3] == [NT_NODE, NT_NODE, NT_NULL]
    && ctbl[3 * NODE_NIL .. 3 * NODE_NIL + 3] == [NT_NULL, NT_NULL, NT_NULL]
    && root != 0 && child != 0 && root != child && heap.IsNode(root) && heap.IsNode(child)
    && NdType(heap.nodes[root].flags) == NODE_AND && NdType(heap.nodes[child].flags) == NODE_NIL
    && heap.nodes[root].u1 == child && heap.nodes[root].u2 == child && heap.nodes[root].u3 == 0
  }

  /** The tables the walk of such a heap fills: the root, then its child. */
  function SharedInfo(root: Word, child: Word): (info: NodeInfo)
    requires root != child
    ensures info.Valid() && info.Bounded()
    ensures info.nodes.keys == [Key(root), Key(child)]
  {
    var e := EmptyInfo();
    var i0 := e.(nodes := AddEntry(e.nodes, Key(root), Key(root)).0);
    i0.(nodes := AddEntry(i0.nodes, Key(child), Key(child)).0)
  }

  /** Walking the shared `NODE_NIL` enters it (if it is new) and counts one visit. */
  lemma ChildWalk(ctbl: seq<int>, heap: Heap, root: Word, child: Word, info: NodeInfo, fuel: nat)
    requires SharesChild(ctbl, heap, root, child)
    requires info.Valid() && fuel >= 1
    ensures Walk(ctbl, heap, child, NODE_AND, info, fuel)
      == Ok((info.(nodes := AddEntry(info.nodes, Key(child), Key(child)).0), 1))
  {
    var node := heap.nodes[child];
    var ut := WalkKinds(ctbl, node, NODE_AND);
    assert ut == [NT_NULL, NT_NULL, NT_NULL];
    var info0 := info.(nodes := AddEntry(info.nodes, Key(child), Key(child)).0);
    assert WalkSlots(ctbl, heap, NODE_NIL, ut, node, info0, Deeper(fuel)) == Ok((info0, 0));
  }

  /** Each operand slot of the `NODE_AND` walks the `NODE_NIL`; the third
      slot is empty. */
  lemma OperandSlots(ctbl: seq<int>, heap: Heap, root: Word, child: Word, fuel: nat)
    requires SharesChild(ctbl, heap, root, child) && fuel >= 1
    ensures var e := EmptyInfo();
      var i0 := e.(nodes := AddEntry(e.nodes, Key(root), Key(root)).0);
      var i1 := SharedInfo(root, child);
      && WalkSlot(ctbl, heap, NODE_AND, 1, NT_NODE, child, i0, fuel) == Ok((i1, 1))
      && WalkSlot(ctbl, heap, NODE_AND, 2, NT_NODE, child, i1, fuel) == Ok((i1, 1))
      && WalkSlot(ctbl, heap, NODE_AND, 3, NT_NULL, 0, i1, fuel) == Ok((i1, 0))
  {
    var e := EmptyInfo();
    var i0 := e.(nodes := AddEntry(e.nodes, Key(root), Key(root)).0);
    var i1 := SharedInfo(root, child);
    ChildWalk(ctbl, heap, root, child, i0, fuel);
    ChildWalk(ctbl, heap, root, child, i1, fuel);
    assert AddEntry(i1.nodes, Key(child), Key(child)).0 == i1.nodes;
  }

  /** The two operand slots of the `NODE_AND` reach the `NODE_NIL` twice. */
  lemma RootSlots(ctbl: seq<int>, heap: Heap, root: Word, child: Word, fuel: nat)
    requires SharesChild(ctbl, heap, root, child) && fuel >= 1
    ensures var e := EmptyInfo();
      var i0 := e.(nodes := AddEntry(e.nodes, Key(root), Key(root)).0);
      WalkSlots(ctbl, heap, NODE_AND, [NT_NODE, NT_NODE, NT_NULL], heap.nodes[root], i0, fuel)
        == Ok((SharedInfo(root, child), 2))
  {
    OperandSlots(ctbl, heap, root, child, fuel);
  }

  /** `count_num_of_nodes` on such a heap visits three nodes and enters two. */
  lemma SharedWalk(ctbl: seq<int>, heap: Heap, root: Word, child: Word, fuel: nat)
    requires SharesChild(ctbl, heap, root, child) && fuel >= 2
    ensures WalkRoot(ctbl, heap, root, fuel) == Ok((SharedInfo(root, child), 3))
  {
    RootWalk(ctbl, heap, root, child, fuel);
  }

  /** The walk from the `NODE_AND`, its own parent, enters it and walks its slots. */
  lemma RootWalk(ctbl: seq<int>, heap: Heap, root: Word, child: Word, fuel: nat)
    requires SharesChild(ctbl, heap, root, child) && fuel >= 2
    ensures Walk(ctbl, heap, root, NODE_AND, EmptyInfo(), fuel) == Ok((SharedInfo(root, child), 3))
  {
    AndKinds(ctbl, heap, root, child);
    RootSlots(ctbl, heap, root, child, Deeper(fuel));
  }

  /** The walk reads the `NODE_AND`'s slots from its row of the table. */
  lemma AndKinds(ctbl: seq<int>, heap: Heap, root: Word, child: Word)
    requires SharesChild(ctbl, heap, root, child)
    ensures WalkKinds(ctbl, heap.nodes[root], NODE_AND) == [NT_NODE, NT_NODE, NT_NULL]
    ensures !Uninterpretable([NT_NODE, NT_NODE, NT_NULL])
  {
  }

  /** `dump_node_value` succeeds on both nodes of such a heap. */
  lemma SharedRecords(ctbl: seq<int>, heap: Heap, root: Word, child: Word)
    requires SharesChild(ctbl, heap, root, child)
    ensures DumpRecord(ctbl, heap, SharedInfo(root, child), heap.nodes[root]).Ok?
    ensures DumpRecord(ctbl, heap, SharedInfo(root, child), heap.nodes[child]).Ok?
  {
    var info := SharedInfo(root, child);
    assert DumpKinds(ctbl, info, heap.nodes[root]) == [NT_NODE, NT_NODE, NT_NULL];
    assert DumpKinds(ctbl, info, heap.nodes[child]) == [NT_NULL, NT_NULL, NT_NULL];
    assert Key(child) in info.nodes.keys;
  }

  /** `dump_nodes` succeeds on the node table of such a heap. */
  lemma SharedDumpRecords(ctbl: seq<int>, heap: Heap, root: Word, child: Word)
    requires SharesChild(ctbl, heap, root, child)
    ensures DumpRecords(ctbl, heap, SharedInfo(root, child), SharedInfo(root, child).nodes.keys).Ok?
  {
    SharedRecords(ctbl, heap, root, child);
    TwoRecords(ctbl, heap, SharedInfo(root, child), root, child);
  }

  /** `dump_nodes` succeeds on a node table of two nodes it can dump. */
  lemma TwoRecords(ctbl: seq<int>, heap: Heap, info: NodeInfo, a: Word, b: Word)
    requires |ctbl| == 3 * Shapes.CTBL_SIZE && info.Valid() && info.Bounded()
    requires info.nodes.keys == [Key(a), Key(b)] && a in heap.nodes && b in heap.nodes
    requires DumpRecord(ctbl, heap, info, heap.nodes[a]).Ok? && DumpRecord(ctbl, heap, info, heap.nodes[b]).Ok?
    ensures DumpRecords(ctbl, heap, info, info.nodes.keys).Ok?
  {
    var keys := info.nodes.keys;
    forall i | 0 <= i < |keys|
      ensures keys[i].Key? && keys[i].addr in heap.nodes && DumpRecord(ctbl, heap, info, heap.nodes[keys[i].addr]).Ok?
    {
      assert keys[i] == Key(a) || keys[i] == Key(b);
    }
  }

  /** `NODEInfo_toHash` succeeds on the tables of such a heap. */
  lemma SharedToHash(ctbl: seq<int>, heap: Heap, root: Word, child: Word, env: Env)
    requires SharesChild(ctbl, heap, root, child)
    ensures ToHash(ctbl, heap, SharedInfo(root, child), env).Ok?
  {
    SharedDumpRecords(ctbl, heap, root, child);
    NoTables(root, child);
  }

  /** The walk of such a heap collects no ID tables and no argument records. */
  lemma NoTables(root: Word, child: Word)
    requires root != child
    ensures LeavesTable(SharedInfo(root, child).idTabs) == [] && LeavesTable(SharedInfo(root, child).args) == []
  {
  }

  /** The Hash `m_nodedump_to_hash` returns for such a heap says three nodes
      while its `nodes` string holds two records, and no interpreter loads it. */
  lemma SharedAsWrittenFails(ctbl: seq<int>, heap: Heap, root: Word, child: Word, fuel: nat, env: Env, lenv: LoadEnv)
    requires SharesChild(ctbl, heap, root, child) && fuel >= 2
    ensures DumpAsWritten(ctbl, heap, root, fuel, env).Ok?
    ensures DumpAsWritten(ctbl, heap, root, fuel, env).value["num_of_nodes"] == Fix(3)
    ensures FromMemory(Container(DumpAsWritten(ctbl, heap, root, fuel, env).value), lenv).Err?
  {
    SharedWalk(ctbl, heap, root, child, fuel);
    SharedToHash(ctbl, heap, root, child, env);
    assert DumpAsWritten(ctbl, heap, root, fuel, env) == DumpCounted(ctbl, heap, SharedInfo(root, child), 3, env);
    OverCountFails(ctbl, heap, SharedInfo(root, child), 3, env, lenv);
  }

  /** With the count set to the number of records, the same heap dumps as
      two nodes and loads, in an interpreter of the same platform and
      version, into two nodes, the first standing for the `NODE_AND`. */
  lemma SharedDumpLoads(ctbl: seq<int>, heap: Heap, root: Word, child: Word, fuel: nat, env: Env, lenv: LoadEnv)
    requires SharesChild(ctbl, heap, root, child) && fuel >= 2
    requires CString(env.platform) == CString(lenv.platform) && CString(env.version) == CString(lenv.version)
    requires IsName(env.nodename) && IsName(env.filename) && IsName(env.filepath)
    ensures Dump(ctbl, heap, root, fuel, env).Ok?
    ensures Dump(ctbl, heap, root, fuel, env).value["num_of_nodes"] == Fix(2)
    ensures var r := FromMemory(Container(Dump(ctbl, heap, root, fuel, env).value), lenv);
      && r.Ok? && |r.value.nodes| == 2
      && NodeDenotes(heap, SharedInfo(root, child), r.value.relocs, r.value.nodes[0], heap.nodes[root])
  {
    SharedWalk(ctbl, heap, root, child, fuel);
    SharedToHash(ctbl, heap, root, child, env);
    assert Dump(ctbl, heap, root, fuel, env) == DumpCounted(ctbl, heap, SharedInfo(root, child), 2, env);
    DumpLoads(ctbl, heap, root, fuel, env, lenv);
  }

  /** Such heaps exist: a `NODE_AND` at 0x1000 whose operands are both the
      `NODE_NIL` at 0x2000, both of line 0, with the table rows of
      ext/node-marshal/nodeinfo.c. */
  lemma SharedHeapExists(ctbl: seq<int>)
    requires |ctbl| == 3 * Shapes.CTBL_SIZE
    requires ctbl[3 * NODE_AND .. 3 * NODE_AND + 3] == [NT_NODE, NT_NODE, NT_NULL]
    requires ctbl[3 * NODE_NIL .. 3 * NODE_NIL + 3] == [NT_NULL, NT_NULL, NT_NULL]
    ensures SharesChild(ctbl, Heap(
      map[0x1000 := Node(Flags(0, NODE_AND, T_NODE), 0x2000, 0x2000, 0),
          0x2000 := Node(Flags(0, NODE_NIL, T_NODE), 0, 0, 0)],
      map[], map[], map[], map[]), 0x1000, 0x2000)
  {
    FlagFields(0, NODE_AND, T_NODE);
    FlagFields(0, NODE_NIL, T_NODE);
  }
}

=== FILE: sound.dfy ===
/** What the tables of a walk mean: every payload `count_num_of_nodes` stores
    (ext/node-marshal/nodedump.c) is what the heap holds under its key. The
    dump pass copies these payloads into the Hash, so this is what makes the
    Hash describe the program it was taken from. */
module WalkSound {
  import opened Words
  import opened Values
  import opened LeafTables
  import opened Walker
  import Shapes

  /** The IDs of the local ID table at `addr`; the null pointer has none. */
  function TableIds(heap: Heap, addr: Word): seq<Word>
    requires addr == 0 || addr in heap.idTables
  {
    if addr == 0 then [] else heap.idTables[addr]
  }

  /** Each symbol key `INT2FIX(id)` carries the name of `id`, or `id` itself. */
  ghost predicate SymsSound(heap: Heap, syms: Table)
  {
    forall k :: k in syms.ids ==>
      k.Fix? && 0 <= k.i < WORD_LIMIT && k in syms.vals && syms.vals[k] == SymbolPayload(heap, k.i)
  }

  /** Each literal key is the address of the object it carries. */
  ghost predicate LitsSound(lits: Table)
  {
    forall k :: k in lits.ids ==> k.Key? && k in lits.vals && lits.vals[k] == Obj(k.addr)
  }

  /** Each ID-table key is a table address and carries that table's IDs. */
  ghost predicate IdTabsSound(heap: Heap, idTabs: Table)
  {
    forall k :: k in idTabs.ids ==>
      && k.Key? && (k.addr == 0 || k.addr in heap.idTables)
      && k in idTabs.vals && idTabs.vals[k] == Ary(Fixes(TableIds(heap, k.addr)))
  }

  /** Each argument-record key is an `rb_args_info` address and carries its ten items. */
  ghost predicate ArgsSound(heap: Heap, args: Table)
  {
    forall k :: k in args.ids ==>
      k.Key? && k.addr in heap.args && k in args.vals && args.vals[k] == Ary(ArgsRecord(heap.args[k.addr]))
  }

  /** Each global-entry key is an entry address and carries the ordinal of the
      entry's symbol in the symbol table. */
  ghost predicate EntriesSound(heap: Heap, gentries: Table, syms: Table)
  {
    forall k :: k in gentries.ids ==>
      && k.Key? && k.addr in heap.entries && Fix(heap.entries[k.addr]) in syms.ids
      && k in gentries.vals && gentries.vals[k] == Fix(syms.ids[Fix(heap.entries[k.addr])])
  }

  ghost predicate Sound(heap: Heap, info: NodeInfo)
  {
    && SymsSound(heap, info.syms) && LitsSound(info.lits) && IdTabsSound(heap, info.idTabs)
    && ArgsSound(heap, info.args) && EntriesSound(heap, info.gentries, info.syms)
  }

  /** The empty tables describe any heap. */
  lemma EmptySound(heap: Heap)
    ensures Sound(heap, EmptyInfo())
  {
  }

  /** Growing the symbol table keeps every entry's ordinal. */
  lemma EntriesGrow(heap: Heap, gentries: Table, syms: Table, syms': Table)
    requires EntriesSound(heap, gentries, syms) && Grows(syms, syms')
    ensures EntriesSound(heap, gentries, syms')
  {
  }

  lemma SymsAddID(heap: Heap, syms: Table, id: Word)
    requires syms.Valid() && SymsSound(heap, syms)
    ensures SymsSound(heap, AddID(heap, syms, id).0)
  {
  }

  lemma {:induction false} SymsAddIDs(heap: Heap, syms: Table, ids: seq<Word>)
    requires syms.Valid() && SymsSound(heap, syms)
    ensures SymsSound(heap, AddIDs(heap, syms, ids))
    decreases |ids|
  {
    if ids != [] {
      SymsAddIDs(heap, syms, ids[..|ids| - 1]);
      SymsAddID(heap, AddIDs(heap, syms, ids[..|ids| - 1]), ids[|ids| - 1]);
    }
  }

  lemma {:induction false} SymsAddNonZeroIDs(heap: Heap, syms: Table, ids: seq<Word>)
    requires syms.Valid() && SymsSound(heap, syms)
    ensures SymsSound(heap, AddNonZeroIDs(heap, syms, ids))
    decreases |ids|
  {
    if ids != [] {
      SymsAddNonZeroIDs(heap, syms, ids[..|ids| - 1]);
      SymsAddID(heap, AddNonZeroIDs(heap, syms, ids[..|ids| - 1]), ids[|ids| - 1]);
    }
  }

  /** The steps of the walk, each on its own. */
  lemma SoundNodes(heap: Heap, info: NodeInfo, nodes: Table)
    requires Sound(heap, info)
    ensures Sound(heap, info.(nodes := nodes))
  {
  }

  lemma SoundAddID(heap: Heap, info: NodeInfo, id: Word)
    requires info.Valid() && Sound(heap, info)
    ensures Sound(heap, info.(syms := AddID(heap, info.syms, id).0))
  {
    SymsAddID(heap, info.syms, id);
    EntriesGrow(heap, info.gentries, info.syms, AddID(heap, info.syms, id).0);
  }

  lemma SoundAddValue(heap: Heap, info: NodeInfo, v: Word)
    requires info.Valid() && Sound(heap, info)
    ensures Sound(heap, info.(lits := AddValue(info.lits, v)))
  {
  }

  lemma SoundAddIdTable(heap: Heap, info: NodeInfo, value: Word)
    requires info.Valid() && Sound(heap, info)
    requires value == 0 || value in heap.idTables
    ensures var ids := if value == 0 then [] else heap.idTables[value];
      Sound(heap, info.(syms := AddIDs(heap, info.syms, ids), idTabs := AddEntry(info.idTabs, Key(value), Ary(Fixes(ids))).0))
  {
    var ids := if value == 0 then [] else heap.idTables[value];
    SymsAddIDs(heap, info.syms, ids);
    EntriesGrow(heap, info.gentries, info.syms, AddIDs(heap, info.syms, ids));
    assert ids == TableIds(heap, value);
  }

  lemma SoundAddArgs(heap: Heap, info: NodeInfo, value: Word)
    requires info.Valid() && Sound(heap, info)
    requires value in heap.args
    ensures var a := heap.args[value];
      Sound(heap, info.(syms := AddNonZeroIDs(heap, info.syms, [a.firstPostArg, a.restArg, a.blockArg]),
                        args := AddEntry(info.args, Key(value), Ary(ArgsRecord(a))).0))
  {
    var a := heap.args[value];
    var ids := [a.firstPostArg, a.restArg, a.blockArg];
    SymsAddNonZeroIDs(heap, info.syms, ids);
    EntriesGrow(heap, info.gentries, info.syms, AddNonZeroIDs(heap, info.syms, ids));
    ArgsAdd(heap, info.args, value);
  }

  /** Entering an argument record under its address keeps the argument table sound. */
  lemma ArgsAdd(heap: Heap, args: Table, value: Word)
    requires args.Valid() && ArgsSound(heap, args)
    requires value in heap.args
    ensures ArgsSound(heap, AddEntry(args, Key(value), Ary(ArgsRecord(heap.args[value]))).0)
  {
  }

  lemma SoundAddEntry(heap: Heap, info: NodeInfo, value: Word)
    requires info.Valid() && Sound(heap, info)
    requires value in heap.entries
    ensures var (syms, ord) := AddID(heap, info.syms, heap.entries[value]);
      Sound(heap, info.(syms := syms, gentries := AddEntry(info.gentries, Key(value), Fix(ord)).0))
  {
    var (syms, ord) := AddID(heap, info.syms, heap.entries[value]);
    SymsAddID(heap, info.syms, heap.entries[value]);
    EntriesGrow(heap, info.gentries, info.syms, syms);
  }

  /** A successful walk of a node: its slots walked from the tables with the
      node entered. */
  lemma {:induction false} WalkStep(ctbl: seq<int>, heap: Heap, addr: Word, parentType: int, info: NodeInfo, fuel: nat)
    requires |ctbl| == 3 * Shapes.CTBL_SIZE
    requires info.Valid()
    requires addr != 0 && Walk(ctbl, heap, addr, parentType, info, fuel).Ok?
    ensures heap.IsNode(addr) && fuel > 0
    ensures var node := heap.nodes[addr];
      var slots := WalkSlots(ctbl, heap, NodeLayout.NdType(node.flags), WalkKinds(ctbl, node, parentType), node,
                             info.(nodes := AddEntry(info.nodes, Key(addr), Key(addr)).0), Deeper(fuel));
      && slots.Ok?
      && Walk(ctbl, heap, addr, parentType, info, fuel).value.0 == slots.value.0
  {
  }

  /** The walk of a subtree keeps the tables describing the heap. */
  lemma {:induction false} WalkKeepsSound(ctbl: seq<int>, heap: Heap, addr: Word, parentType: int, info: NodeInfo, fuel: nat)
    requires |ctbl| == 3 * Shapes.CTBL_SIZE
    requires info.Valid() && Sound(heap, info)
    ensures Walk(ctbl, heap, addr, parentType, info, fuel).Ok? ==>
      Sound(heap, Walk(ctbl, heap, addr, parentType, info, fuel).value.0)
    decreases fuel, 1, 0
  {
    if addr != 0 && Walk(ctbl, heap, addr, parentType, info, fuel).Ok? {
      WalkStep(ctbl, heap, addr, parentType, info, fuel);
      var node := heap.nodes[addr];
      var info0 := info.(nodes := AddEntry(info.nodes, Key(addr), Key(addr)).0);
      SoundNodes(heap, info, info0.nodes);
      SlotsKeepSound(ctbl, heap, NodeLayout.NdType(node.flags), WalkKinds(ctbl, node, parentType), node, info0, Deeper(fuel));
    }
  }

  /** A node's three slots, walked in turn, keep the tables sound. */
  lemma {:induction false} SlotsKeepSound(ctbl: seq<int>, heap: Heap, t: int, ut: seq<int>, node: NodeLayout.Node, info: NodeInfo, fuel: nat)
    requires |ctbl| == 3 * Shapes.CTBL_SIZE && |ut| == 3
    requires info.Valid() && Sound(heap, info)
    ensures WalkSlots(ctbl, heap, t, ut, node, info, fuel).Ok? ==>
      Sound(heap, WalkSlots(ctbl, heap, t, ut, node, info, fuel).value.0)
    decreases fuel, 4, 0
  {
    var r1 := WalkSlot(ctbl, heap, t, 1, ut[0], node.u1, info, fuel);
    WalkSlotKeepsSound(ctbl, heap, t, 1, ut[0], node.u1, info, fuel);
    if r1.Ok? {
      var r2 := WalkSlot(ctbl, heap, t, 2, ut[1], node.u2, r1.value.0, fuel);
      WalkSlotKeepsSound(ctbl, heap, t, 2, ut[1], node.u2, r1.value.0, fuel);
      if r2.Ok? {
        WalkSlotKeepsSound(ctbl, heap, t, 3, ut[2], node.u3, r2.value.0, fuel);
      }
    }
  }

  lemma {:induction false} WalkSlotKeepsSound(ctbl: seq<int>, heap: Heap, nodeType: int, slot: int, kind: int, value: Word, info: NodeInfo, fuel: nat)
    requires |ctbl| == 3 * Shapes.CTBL_SIZE
    requires info.Valid() && Sound(heap, info)
    ensures WalkSlot(ctbl, heap, nodeType, slot, kind, value, info, fuel).Ok? ==>
      Sound(heap, WalkSlot(ctbl, heap, nodeType, slot, kind, value, info, fuel).value.0)
    decreases fuel, 3, 1
  {
    if kind == Kinds.NT_NODE {
      WalkKeepsSound(ctbl, heap, value, nodeType, info, fuel);
    } else if kind == Kinds.NT_ARGS && slot == 3 {
      ArgsSlotKeepsSound(ctbl, heap, nodeType, value, info, fuel);
    } else {
      LeafSlotKeepsSound(ctbl, heap, nodeType, slot, kind, value, info, fuel);
    }
  }

  /** A slot holding an argument record: its node fields are walked, then its
      IDs and the record itself are entered. */
  lemma {:induction false} ArgsSlotKeepsSound(ctbl: seq<int>, heap: Heap, nodeType: int, value: Word, info: NodeInfo, fuel: nat)
    requires |ctbl| == 3 * Shapes.CTBL_SIZE
    requires info.Valid() && Sound(heap, info)
    ensures WalkSlot(ctbl, heap, nodeType, 3, Kinds.NT_ARGS, value, info, fuel).Ok? ==>
      Sound(heap, WalkSlot(ctbl, heap, nodeType, 3, Kinds.NT_ARGS, value, info, fuel).value.0)
    decreases fuel, 3, 0
  {
    if WalkSlot(ctbl, heap, nodeType, 3, Kinds.NT_ARGS, value, info, fuel).Ok? {
      var a := heap.args[value];
      WalkListKeepsSound(ctbl, heap, nodeType, a.NodeFields(), info, fuel);
      var walked := WalkList(ctbl, heap, nodeType, a.NodeFields(), info, fuel).value;
      SoundAddArgs(heap, walked.0, value);
    }
  }

  /** A slot that holds no node: at most one symbol, literal, ID table or
      global entry is entered. */
  lemma LeafSlotKeepsSound(ctbl: seq<int>, heap: Heap, nodeType: int, slot: int, kind: int, value: Word, info: NodeInfo, fuel: nat)
    requires |ctbl| == 3 * Shapes.CTBL_SIZE
    requires info.Valid() && Sound(heap, info)
    requires kind != Kinds.NT_NODE && !(kind == Kinds.NT_ARGS && slot == 3)
    ensures WalkSlot(ctbl, heap, nodeType, slot, kind, value, info, fuel).Ok? ==>
      Sound(heap, WalkSlot(ctbl, heap, nodeType, slot, kind, value, info, fuel).value.0)
  {
    if !WalkSlot(ctbl, heap, nodeType, slot, kind, value, info, fuel).Ok? {
    } else if kind == Kinds.NT_ID {
      SoundAddID(heap, info, value);
    } else if kind == Kinds.NT_VALUE && slot != 3 {
      SoundAddValue(heap, info, value);
    } else if kind == Kinds.NT_IDTABLE && slot == 1 {
      SoundAddIdTable(heap, info, value);
    } else if kind == Kinds.NT_ENTRY && slot == 3 {
      SoundAddEntry(heap, info, value);
    }
  }

  lemma {:induction false} WalkListKeepsSound(ctbl: seq<int>, heap: Heap, nodeType: int, addrs: seq<Word>, info: NodeInfo, fuel: nat)
    requires |ctbl| == 3 * Shapes.CTBL_SIZE
    requires info.Valid() && Sound(heap, info)
    ensures WalkList(ctbl, heap, nodeType, addrs, info, fuel).Ok? ==>
      Sound(heap, WalkList(ctbl, heap, nodeType, addrs, info, fuel).value.0)
    decreases fuel, 2, |addrs|
  {
    if addrs != [] && WalkList(ctbl, heap, nodeType, addrs, info, fuel).Ok? {
      WalkKeepsSound(ctbl, heap, addrs[0], nodeType, info, fuel);
      var first := Walk(ctbl, heap, addrs[0], nodeType, info, fuel).value;
      WalkListKeepsSound(ctbl, heap, nodeType, addrs[1..], first.0, fuel);
    }
  }
}

=== FILE: values.dfy ===
/** The Ruby values the dump is made of. The dumper builds a Ruby Hash of them
    and the loader reads one back; both sides check the few types they rely on. */
module Values {
  import opened Words

  /** A Ruby value as the extension sees it.
      - `Fix(i)`: a Fixnum.
      - `Str(bytes)`: a String.
      - `Ary(items)`: an Array.
      - `Key(addr)`: the hexadecimal text `value_to_str` makes of a machine word,
        used as a Hash key. Two words give the same text only if they are equal.
      - `Obj(addr)`: any other heap object, known by its address. */
  datatype RValue =
    | Nil
    | Fix(i: int)
    | Str(bytes: seq<Byte>)
    | Ary(items: seq<RValue>)
    | Key(addr: Word)
    | Obj(addr: Word)

  /** The Ruby Hash a dump is held in, keyed by symbol name. A missing key reads
      as `nil`, as `rb_hash_aref` returns it. */
  datatype Container = Container(fields: map<string, RValue>)
  {
    function Get(name: string): (v: RValue)
      ensures name !in fields ==> v == Nil
      ensures name in fields ==> v == fields[name]
    {
      if name in fields then fields[name] else Nil
    }
  }
}

=== FILE: vlq.dfy ===
/** The variable-length word codec of ext/node-marshal/nodedump.c (`value_to_bin`,
    `bin_to_value`): a machine word is written big-endian with its leading zero
    bytes dropped, and read back from any number of big-endian bytes. */
module Vlq {
  import opened Words

  /** The number a big-endian byte string denotes, without any width limit. */
  function BeValue(s: seq<Byte>): nat
  {
    if s == [] then 0 else BeValue(s[..|s| - 1]) * 256 + s[|s| - 1]
  }

  /** The `n` least significant bytes of `v`, most significant first. */
  function BigEndian(v: nat, n: nat): (r: seq<Byte>)
    ensures |r| == n
  {
    if n == 0 then [] else BigEndian(v / 256, n - 1) + [v % 256]
  }

  function StripLeadingZeros(s: seq<Byte>): (r: seq<Byte>)
  {
    if s != [] && s[0] == 0 then StripLeadingZeros(s[1..]) else s
  }

  /** `value_to_bin`: walk the eight bytes of the word from the most significant one
      and emit every byte from the first non-zero one on. */
  function ValueToBin(v: Word): (r: seq<Byte>)
    ensures |r| <= WORD_SIZE
    ensures BeValue(r) == v
    ensures r == [] <==> v == 0
    ensures r != [] ==> r[0] != 0
  {
    Pow256Word();
    BigEndianValue(v, WORD_SIZE);
    StripKeepsValue(BigEndian(v, WORD_SIZE));
    StripLeadingZeros(BigEndian(v, WORD_SIZE))
  }

  /** `bin_to_value`: OR the bytes into a word, the first one most significant.
      Up to eight bytes this is exact. A longer run makes the C shift by 64 bits
      or more, which C leaves undefined; here the excess high bytes drop out of
      the word (the value modulo 2^64). */
  function BinToValue(s: seq<Byte>): (r: Word)
    ensures |s| <= WORD_SIZE ==> r == BeValue(s)
    ensures |s| > WORD_SIZE ==> r == BeValue(s[|s| - WORD_SIZE..])
  {
    Pow256Word();
    BeValueBound(s);
    if |s| <= WORD_SIZE then
      PowMonotone(256, |s|, WORD_SIZE);
      BeValue(s) % WORD_LIMIT
    else
      var hi, lo := s[..|s| - WORD_SIZE], s[|s| - WORD_SIZE..];
      assert s == hi + lo;
      BeValueSplit(hi, lo);
      BeValueBound(lo);
      DivMod(BeValue(s), WORD_LIMIT, BeValue(hi), BeValue(lo));
      BeValue(s) % WORD_LIMIT
  }

  /** The value of a concatenation: the first part shifted past the second. */
  lemma {:induction false} BeValueSplit(a: seq<Byte>, b: seq<Byte>)
    ensures BeValue(a + b) == BeValue(a) * Pow(256, |b|) + BeValue(b)
    decreases |b|
  {
    if b == [] {
      assert a + b == a;
    } else {
      var b' := b[..|b| - 1];
      assert (a + b)[..|a + b| - 1] == a + b';
      BeValueSplit(a, b');
      assert Pow(256, |b|) == 256 * Pow(256, |b'|);
      calc {
        BeValue(a + b);
        BeValue(a + b') * 256 + b[|b| - 1];
        (BeValue(a) * Pow(256, |b'|) + BeValue(b')) * 256 + b[|b| - 1];
        BeValue(a) * (Pow(256, |b'|) * 256) + (BeValue(b') * 256 + b[|b| - 1]);
      }
    }
  }

  lemma {:induction false} BigEndianValue(v: nat, n: nat)
    requires v < Pow(256, n)
    ensures BeValue(BigEndian(v, n)) == v
    decreases n
  {
    if n > 0 {
      var s := BigEndian(v, n);
      assert s[..|s| - 1] == BigEndian(v / 256, n - 1);
      BigEndianValue(v / 256, n - 1);
    }
  }

  lemma {:induction false} BigEndianOfValue(s: seq<Byte>)
    ensures BigEndian(BeValue(s), |s|) == s
    decreases |s|
  {
    if s != [] {
      BigEndianOfValue(s[..|s| - 1]);
      assert s == s[..|s| - 1] + [s[|s| - 1]];
    }
  }

  lemma {:induction false} BeValueBound(s: seq<Byte>)
    ensures BeValue(s) < Pow(256, |s|)
    decreases |s|
  {
    if s != [] {
      BeValueBound(s[..|s| - 1]);
    }
  }

  lemma {:induction false} BeValueLeadingZero(s: seq<Byte>)
    requires s != [] && s[0] == 0
    ensures BeValue(s) == BeValue(s[1..])
    decreases |s|
  {
    if |s| > 1 {
      var t := s[..|s| - 1];
      assert t[1..] == s[1..][..|s[1..]| - 1];
      BeValueLeadingZero(t);
    }
  }

  lemma {:induction false} StripKeepsValue(s: seq<Byte>)
    ensures BeValue(StripLeadingZeros(s)) == BeValue(s)
    ensures |StripLeadingZeros(s)| <= |s|
    ensures StripLeadingZeros(s) != [] ==> StripLeadingZeros(s)[0] != 0
    ensures StripLeadingZeros(s) == [] <==> BeValue(s) == 0
    decreases |s|
  {
    if s != [] && s[0] == 0 {
      BeValueLeadingZero(s);
      StripKeepsValue(s[1..]);
    } else if s != [] {
      BeValueLeadingNonZero(s);
    }
  }

  lemma {:induction false} BeValueLeadingNonZero(s: seq<Byte>)
    requires s != [] && s[0] != 0
    ensures BeValue(s) >= Pow(256, |s| - 1)
    decreases |s|
  {
    if |s| > 1 {
      BeValueLeadingNonZero(s[..|s| - 1]);
    }
  }

  /** `bin_to_value(value_to_bin(v)) == v`, and the emitted form is minimal: at most
      `sizeof(VALUE)` bytes, none for zero, and never a leading zero byte. */
  lemma ValueToBinRoundTrip(v: Word)
    ensures BinToValue(ValueToBin(v)) == v
    ensures |ValueToBin(v)| <= WORD_SIZE
    ensures ValueToBin(v) == [] <==> v == 0
    ensures ValueToBin(v) != [] ==> ValueToBin(v)[0] != 0
  {
    Pow256Word();
    BigEndianValue(v, WORD_SIZE);
    StripKeepsValue(BigEndian(v, WORD_SIZE));
  }

  /** The emitted length is the number of significant bytes of `v`. */
  lemma ValueToBinMinimal(v: Word)
    ensures v < Pow(256, |ValueToBin(v)|)
    ensures |ValueToBin(v)| > 0 ==> v >= Pow(256, |ValueToBin(v)| - 1)
  {
    ValueToBinRoundTrip(v);
    var r := ValueToBin(v);
    Pow256Word();
    BigEndianValue(v, WORD_SIZE);
    StripKeepsValue(BigEndian(v, WORD_SIZE));
    BeValueBound(r);
    if r != [] {
      BeValueLeadingNonZero(r);
    }
  }

  /** Reading back fewer than nine bytes loses nothing. */
  lemma BinToValueExact(s: seq<Byte>)
    requires |s| <= WORD_SIZE
    ensures BinToValue(s) == BeValue(s)
  {
    BeValueBound(s);
    PowMonotone(256, |s|, WORD_SIZE);
    Pow256Word();
  }

  lemma {:induction false} PowMonotone(b: nat, e1: nat, e2: nat)
    requires b > 0 && e1 <= e2
    ensures Pow(b, e1) <= Pow(b, e2)
    decreases e2
  {
    if e1 < e2 {
      PowMonotone(b, e1, e2 - 1);
    }
  }
}

=== FILE: walker.dfy ===
/** The first pass of a dump (`count_num_of_nodes` in ext/node-marshal/nodedump.c):
    a depth-first walk from the root node that gives every node, symbol, literal,
    local ID table, argument record and global entry it meets an ordinal in the
    tables of a `NODEInfo`, and counts the nodes it visits. */
module Walker {
  import opened Wrappers
  import opened Words
  import opened Kinds
  import opened NodeLayout
  import opened Values
  import opened LeafTables
  import Shapes

  // The special constants of Ruby 2.x on 64-bit platforms (ruby.h).
  const QFALSE: Word := 0x00
  const QTRUE: Word := 0x14
  const QNIL: Word := 0x08
  const QUNDEF: Word := 0x34

  /** Ordinals are C `int`s: there are at most 2^31 of each kind. */
  const ORD_LIMIT: nat := 0x8000_0000

  /** `is_value_in_heap`: a `VALUE` that is a pointer to a heap object, not an
      immediate (false, true, nil, undef, a Fixnum, a flonum). */
  function IsValueInHeap(v: Word): (r: bool)
    ensures r ==> v % 4 == 0
    ensures v % 8 == 0 && v > QNIL ==> r
    ensures v in {QFALSE, QTRUE, QNIL, QUNDEF} ==> !r
  {
    TagBits(v);
    v != QFALSE && v != QTRUE && v != QNIL && v != QUNDEF && v % 2 == 0 && v % 4 != 2
  }

  /** The low two tag bits of an even word are clear unless the second is set,
      and an 8-aligned word has both clear. */
  lemma TagBits(v: nat)
    ensures v % 2 == 0 && v % 4 != 2 ==> v % 4 == 0
    ensures v % 8 == 0 ==> v % 4 == 0 && v % 2 == 0
  {
    var q, r := v / 4, v % 4;
    if r == 1 || r == 3 {
      DivMod(v, 2, 2 * q + r / 2, 1);
    }
    if v % 8 == 0 {
      DivMod(v, 4, 2 * (v / 8), 0);
      DivMod(v, 2, 4 * (v / 8), 0);
    }
  }

  /** The interpreter memory the walk reads.
      - `nodes`: the objects of type `T_NODE`, by address.
      - `args`: the `rb_args_info` structures, by address.
      - `idTables`: the local ID tables, by address: the IDs that follow the size word.
      - `entries`: the `rb_global_entry` structures, by address: their `id` field.
      - `symNames`: the name `rb_id2str` gives an ID, for the IDs that have one.
      Reading through an address these maps do not hold is undefined behaviour in C. */
  datatype Heap = Heap(
    nodes: map<Word, Node>,
    args: map<Word, ArgsInfo>,
    idTables: map<Word, seq<Word>>,
    entries: map<Word, Word>,
    symNames: map<Word, seq<Byte>>)
  {
    /** `TYPE(v) == T_NODE`. */
    predicate IsNode(v: Word)
    {
      IsValueInHeap(v) && v in nodes
    }
  }

  type Table = LeafTable<RValue, RValue>

  /** `NODEInfo`: one leaf table per kind of relocatable thing. */
  datatype NodeInfo = NodeInfo(syms: Table, lits: Table, idTabs: Table, args: Table, gentries: Table, nodes: Table)
  {
    ghost predicate Valid()
    {
      syms.Valid() && lits.Valid() && idTabs.Valid() && args.Valid() && gentries.Valid() && nodes.Valid()
    }

    /** Every ordinal fits the C `int` the extension keeps it in. */
    predicate Bounded()
    {
      && syms.Pos() <= ORD_LIMIT && lits.Pos() <= ORD_LIMIT && idTabs.Pos() <= ORD_LIMIT
      && args.Pos() <= ORD_LIMIT && gentries.Pos() <= ORD_LIMIT && nodes.Pos() <= ORD_LIMIT
    }
  }

  /** Every table of `info` grows into the same table of `info'`. */
  ghost predicate InfoGrows(info: NodeInfo, info': NodeInfo)
  {
    && Grows(info.syms, info'.syms) && Grows(info.lits, info'.lits) && Grows(info.idTabs, info'.idTabs)
    && Grows(info.args, info'.args) && Grows(info.gentries, info'.gentries) && Grows(info.nodes, info'.nodes)
  }

  lemma InfoGrowsTrans(a: NodeInfo, b: NodeInfo, c: NodeInfo)
    requires InfoGrows(a, b) && InfoGrows(b, c)
    ensures InfoGrows(a, c)
  {
  }

  /** `NODEInfo_init`. */
  function EmptyInfo(): (info: NodeInfo)
    ensures info.Valid()
    ensures info.nodes.Pos() == 0 && info.syms.Pos() == 0
  {
    NodeInfo(Empty(), Empty(), Empty(), Empty(), Empty(), Empty())
  }

  datatype WalkError =
    | NotANode(addr: Word)                  // a node slot holds something else
    | CannotInterpret(nodeType: int)        // a slot kind is NT_UNKNOWN
    | NodeInsteadOfValue(slot: int)         // a value slot holds a node
    | BadSlot(slot: int, kind: int)         // "1!", "2!", "Invalid child node 3"
    | Undefined                             // reading through an unmapped address
    | StackExhausted                        // the recursion went deeper than the stack allows

  /** The payload `LeafTableInfo_addIDEntry` stores for an ID: its name, or the
      ID itself when `rb_id2str` has none. */
  function SymbolPayload(heap: Heap, id: Word): RValue
  {
    if id in heap.symNames then Str(heap.symNames[id]) else Fix(id)
  }

  /** `LeafTableInfo_addIDEntry`: the key is `INT2FIX(id)`. */
  function AddID(heap: Heap, syms: Table, id: Word): (r: (Table, nat))
    requires syms.Valid()
    ensures r.0.Valid() && Grows(syms, r.0)
    ensures Fix(id) in r.0.ids && r.0.ids[Fix(id)] == r.1
  {
    AddEntry(syms, Fix(id), SymbolPayload(heap, id))
  }

  /** `addIDEntry` for each ID in turn. */
  function AddIDs(heap: Heap, syms: Table, ids: seq<Word>): (r: Table)
    requires syms.Valid()
    ensures r.Valid() && Grows(syms, r)
    ensures forall j :: 0 <= j < |ids| ==> Fix(ids[j]) in r.ids
    decreases |ids|
  {
    if ids == [] then syms
    else
      var init := AddIDs(heap, syms, ids[..|ids| - 1]);
      var r := AddID(heap, init, ids[|ids| - 1]).0;
      GrowsTrans(syms, init, r);
      assert forall j :: 0 <= j < |ids| ==> Fix(ids[j]) in r.ids by {
        forall j | 0 <= j < |ids| - 1
          ensures Fix(ids[j]) in r.ids
        {
          assert ids[..|ids| - 1][j] == ids[j];
        }
      }
      r
  }

  /** `addIDEntry` for each non-zero ID in turn. */
  function AddNonZeroIDs(heap: Heap, syms: Table, ids: seq<Word>): (r: Table)
    requires syms.Valid()
    ensures r.Valid() && Grows(syms, r)
    ensures forall j :: 0 <= j < |ids| && ids[j] != 0 ==> Fix(ids[j]) in r.ids
    decreases |ids|
  {
    if ids == [] then syms
    else
      var init := AddNonZeroIDs(heap, syms, ids[..|ids| - 1]);
      var last := ids[|ids| - 1];
      if last == 0 then init
      else
        var r := AddID(heap, init, last).0;
        GrowsTrans(syms, init, r);
        r
  }

  /** `NODEInfo_addValue`: a heap object goes into the literal table, keyed by
      its address text. */
  function AddValue(lits: Table, v: Word): (r: Table)
    requires lits.Valid()
    ensures r.Valid() && Grows(lits, r)
    ensures IsValueInHeap(v) ==> Key(v) in r.ids && r.vals[Key(v)] == if Key(v) in lits.ids then lits.vals[Key(v)] else Obj(v)
    ensures !IsValueInHeap(v) ==> r == lits
  {
    if IsValueInHeap(v) then AddEntry(lits, Key(v), Obj(v)).0 else lits
  }

  /** The array `count_num_of_nodes` stores for an `rb_args_info`: node fields as
      address texts, counts as Fixnums, `ID` fields as Fixnums. */
  function ArgsRecord(a: ArgsInfo): (r: seq<RValue>)
    ensures |r| == 10
  {
    [Key(a.preInit), Key(a.postInit), Fix(a.preArgsNum), Fix(a.postArgsNum),
     Fix(a.firstPostArg), Fix(a.restArg), Fix(a.blockArg),
     Key(a.kwArgs), Key(a.kwRestArg), Key(a.optArgs)]
  }

  /** The IDs of a local ID table as the Fixnums the walk collects. */
  function Fixes(ids: seq<Word>): (r: seq<RValue>)
    ensures |r| == |ids| && forall j :: 0 <= j < |ids| ==> r[j] == Fix(ids[j])
  {
    seq(|ids|, j requires 0 <= j < |ids| => Fix(ids[j]))
  }

  /** The kinds `count_num_of_nodes` gives the three slots of `node`, whose
      parent node has type `parentType`: the table's row, overridden for
      `NODE_OP_ASGN2` under `NODE_OP_ASGN2`, for `NODE_ARGS_AUX` and for
      `NODE_ATTRASGN` with receiver `self` (1). */
  function WalkKinds(ctbl: seq<int>, node: Node, parentType: int): (ut: seq<int>)
    requires |ctbl| == 3 * Shapes.CTBL_SIZE
    ensures |ut| == 3
    ensures var t := NdType(node.flags);
      t != NODE_OP_ASGN2 && t != NODE_ARGS_AUX && !(t == NODE_ATTRASGN && node.u1 == 1) ==>
        ut == ctbl[3 * t .. 3 * t + 3]
    ensures NdType(node.flags) == NODE_OP_ASGN2 && parentType == NODE_OP_ASGN2 ==> ut == [NT_ID, NT_ID, NT_ID]
    ensures NdType(node.flags) == NODE_OP_ASGN2 && parentType != NODE_OP_ASGN2 ==>
      ut == ctbl[3 * NODE_OP_ASGN2 .. 3 * NODE_OP_ASGN2 + 3]
    ensures NdType(node.flags) == NODE_ARGS_AUX ==>
      && ut[0] == (if node.u1 == 0 then NT_NULL else NT_ID)
      && ut[1] == (if node.u2 == 0 then NT_NULL else if parentType == NODE_ARGS_AUX then NT_LONG else NT_ID)
      && ut[2] == (if node.u3 == 0 then NT_NULL else NT_NODE)
    ensures NdType(node.flags) == NODE_ATTRASGN && node.u1 == 1 ==>
      ut == [NT_LONG] + ctbl[3 * NODE_ATTRASGN + 1 .. 3 * NODE_ATTRASGN + 3]
  {
    var t := NdType(node.flags);
    var row := ctbl[3 * t .. 3 * t + 3];
    var row := if t == NODE_OP_ASGN2 && parentType == NODE_OP_ASGN2 then [NT_ID, NT_ID, NT_ID] else row;
    var row := if t == NODE_ARGS_AUX then
        [ if node.u1 == 0 then NT_NULL else NT_ID,
          if node.u2 == 0 then NT_NULL else if parentType == NODE_ARGS_AUX then NT_LONG else NT_ID,
          if node.u3 == 0 then NT_NULL else NT_NODE ]
      else row;
    if t == NODE_ATTRASGN && node.u1 == 1 then row[0 := NT_LONG] else row
  }

  /** Some slot of a node has no known kind. */
  predicate Uninterpretable(ut: seq<int>)
  {
    NT_UNKNOWN in ut
  }

  /** The depth left for the children of a node walked with `fuel`. */
  function Deeper(fuel: nat): nat
    requires fuel > 0
  {
    fuel - 1
  }

  /** `count_num_of_nodes(addr, parent, info)`: the tables after the walk of the
      subtree at `addr` and the number of nodes visited. A null pointer is no
      node. Every node visited is entered into the node table before its
      children; a node reached twice is visited, and counted, twice. `fuel`
      bounds the depth of the recursion, as the machine stack does. */
  function Walk(ctbl: seq<int>, heap: Heap, addr: Word, parentType: int, info: NodeInfo, fuel: nat)
    : (r: Result<(NodeInfo, nat), WalkError>)
    requires |ctbl| == 3 * Shapes.CTBL_SIZE
    requires info.Valid()
    ensures r.Ok? ==> r.value.0.Valid() && InfoGrows(info, r.value.0)
    ensures r.Ok? ==> r.value.0.nodes.Pos() <= info.nodes.Pos() + r.value.1
    ensures addr == 0 ==> r == Ok((info, 0))
    ensures addr != 0 && r.Ok? ==> heap.IsNode(addr) && Key(addr) in r.value.0.nodes.ids && r.value.1 >= 1
    ensures addr != 0 && r.Ok? && Key(addr) !in info.nodes.ids ==> r.value.0.nodes.ids[Key(addr)] == info.nodes.Pos()
    ensures addr != 0 && !heap.IsNode(addr) ==> r == Err(NotANode(addr))
    ensures addr != 0 && heap.IsNode(addr) && fuel == 0 ==> r == Err(StackExhausted)
    ensures (addr != 0 && heap.IsNode(addr) && fuel > 0 && Uninterpretable(WalkKinds(ctbl, heap.nodes[addr], parentType))) ==>
      r == Err(CannotInterpret(NdType(heap.nodes[addr].flags)))
    decreases fuel, 1, 0
  {
    if addr == 0 then Ok((info, 0))
    else if !heap.IsNode(addr) then Err(NotANode(addr))
    else if fuel == 0 then Err(StackExhausted)
    else
      var node := heap.nodes[addr];
      var t := NdType(node.flags);
      var ut := WalkKinds(ctbl, node, parentType);
      if Uninterpretable(ut) then Err(CannotInterpret(t))
      else
        var info0 := info.(nodes := AddEntry(info.nodes, Key(addr), Key(addr)).0);
        var res :- WalkSlots(ctbl, heap, t, ut, node, info0, Deeper(fuel));
        NodeWalked(info, addr, res);
        Ok((res.0, 1 + res.1))
  }

  /** The three child slots of `node`, of type `t` and slot kinds `ut`, walked
      in turn. */
  function WalkSlots(ctbl: seq<int>, heap: Heap, t: int, ut: seq<int>, node: Node, info: NodeInfo, fuel: nat)
    : (r: Result<(NodeInfo, nat), WalkError>)
    requires |ctbl| == 3 * Shapes.CTBL_SIZE && |ut| == 3
    requires info.Valid()
    ensures r.Ok? ==> r.value.0.Valid() && InfoGrows(info, r.value.0)
    ensures r.Ok? ==> r.value.0.nodes.Pos() <= info.nodes.Pos() + r.value.1
    decreases fuel, 4, 0
  {
    var r1 :- WalkSlot(ctbl, heap, t, 1, ut[0], node.u1, info, fuel);
    var r2 :- WalkSlot(ctbl, heap, t, 2, ut[1], node.u2, r1.0, fuel);
    var r3 :- WalkSlot(ctbl, heap, t, 3, ut[2], node.u3, r2.0, fuel);
    InfoGrowsTrans(info, r1.0, r2.0);
    InfoGrowsTrans(info, r2.0, r3.0);
    Ok((r3.0, r1.1 + r2.1 + r3.1))
  }

  /** The kinds slot `slot` (1, 2 or 3) of a node accepts: a node, an ID, an
      integer and nothing in every slot, an ID table only in the first, a
      value only in the first two, argument records and global entries only in
      the third. */
  predicate Accepts(slot: int, kind: int)
  {
    || kind == NT_NODE || kind == NT_ID || kind == NT_LONG || kind == NT_NULL
    || (kind == NT_VALUE && slot != 3)
    || (kind == NT_IDTABLE && slot == 1)
    || ((kind == NT_ARGS || kind == NT_ENTRY) && slot == 3)
  }

  /** The tables after a node's slots are walked, from the tables with the
      node entered: they grew from those before the node, and the node kept
      the ordinal it was entered with. */
  lemma NodeWalked(info: NodeInfo, addr: Word, res: (NodeInfo, nat))
    requires info.Valid()
    requires var info0 := info.(nodes := AddEntry(info.nodes, Key(addr), Key(addr)).0);
      InfoGrows(info0, res.0) && res.0.nodes.Pos() <= info0.nodes.Pos() + res.1
    ensures InfoGrows(info, res.0)
    ensures res.0.nodes.Pos() <= info.nodes.Pos() + (1 + res.1)
    ensures Key(addr) in res.0.nodes.ids
    ensures Key(addr) !in info.nodes.ids ==> res.0.nodes.ids[Key(addr)] == info.nodes.Pos()
  {
    var info0 := info.(nodes := AddEntry(info.nodes, Key(addr), Key(addr)).0);
    InfoGrowsTrans(info, info0, res.0);
  }

  /** One child slot of a node of type `nodeType`: `slot` is 1, 2 or 3, `kind`
      its kind and `value` its word. */
  function WalkSlot(ctbl: seq<int>, heap: Heap, nodeType: int, slot: int, kind: int, value: Word, info: NodeInfo, fuel: nat)
    : (r: Result<(NodeInfo, nat), WalkError>)
    requires |ctbl| == 3 * Shapes.CTBL_SIZE
    requires info.Valid()
    ensures r.Ok? ==> r.value.0.Valid() && InfoGrows(info, r.value.0)
    ensures r.Ok? ==> r.value.0.nodes.Pos() <= info.nodes.Pos() + r.value.1
    ensures r.Ok? && kind == NT_ID ==> Fix(value) in r.value.0.syms.ids
    ensures !Accepts(slot, kind) ==> r == Err(BadSlot(slot, kind))
    ensures kind == NT_VALUE && slot != 3 && heap.IsNode(value) ==> r == Err(NodeInsteadOfValue(slot))
    ensures kind == NT_LONG || kind == NT_NULL ==> r == Ok((info, 0))
    decreases fuel, 3, 0
  {
    if kind == NT_NODE then
      Walk(ctbl, heap, value, nodeType, info, fuel)
    else if kind == NT_ID then
      Ok((info.(syms := AddID(heap, info.syms, value).0), 0))
    else if kind == NT_VALUE && slot != 3 then
      if heap.IsNode(value) then Err(NodeInsteadOfValue(slot))
      else Ok((info.(lits := AddValue(info.lits, value)), 0))
    else if kind == NT_IDTABLE && slot == 1 then
      if value != 0 && value !in heap.idTables then Err(Undefined)
      else
        var ids := if value == 0 then [] else heap.idTables[value];
        var syms := AddIDs(heap, info.syms, ids);
        Ok((info.(syms := syms, idTabs := AddEntry(info.idTabs, Key(value), Ary(Fixes(ids))).0), 0))
    else if kind == NT_ARGS && slot == 3 then
      if value !in heap.args then Err(Undefined)
      else
        var a := heap.args[value];
        var walked :- WalkList(ctbl, heap, nodeType, a.NodeFields(), info, fuel);
        var syms := AddNonZeroIDs(heap, walked.0.syms, [a.firstPostArg, a.restArg, a.blockArg]);
        var args := AddEntry(walked.0.args, Key(value), Ary(ArgsRecord(a))).0;
        Ok((walked.0.(syms := syms, args := args), walked.1))
    else if kind == NT_ENTRY && slot == 3 then
      if value !in heap.entries then Err(Undefined)
      else
        var (syms, ord) := AddID(heap, info.syms, heap.entries[value]);
        Ok((info.(syms := syms, gentries := AddEntry(info.gentries, Key(value), Fix(ord)).0), 0))
    else if kind == NT_LONG || kind == NT_NULL then
      Ok((info, 0))
    else
      Err(BadSlot(slot, kind))
  }

  /** The walks of the node fields of an `rb_args_info`, in turn, all with the
      node that holds it as parent. */
  function WalkList(ctbl: seq<int>, heap: Heap, nodeType: int, addrs: seq<Word>, info: NodeInfo, fuel: nat)
    : (r: Result<(NodeInfo, nat), WalkError>)
    requires |ctbl| == 3 * Shapes.CTBL_SIZE
    requires info.Valid()
    ensures r.Ok? ==> r.value.0.Valid() && InfoGrows(info, r.value.0)
    ensures r.Ok? ==> r.value.0.nodes.Pos() <= info.nodes.Pos() + r.value.1
    ensures r.Ok? ==> forall j :: 0 <= j < |addrs| && addrs[j] != 0 ==> Key(addrs[j]) in r.value.0.nodes.ids
    decreases fuel, 2, |addrs|
  {
    if addrs == [] then Ok((info, 0))
    else
      var first :- Walk(ctbl, heap, addrs[0], nodeType, info, fuel);
      var rest :- WalkList(ctbl, heap, nodeType, addrs[1..], first.0, fuel);
      InfoGrowsTrans(info, first.0, rest.0);
      assert forall j :: 0 <= j < |addrs| && addrs[j] != 0 ==> Key(addrs[j]) in rest.0.nodes.ids by {
        forall j | 0 <= j < |addrs| && addrs[j] != 0
          ensures Key(addrs[j]) in rest.0.nodes.ids
        {
          if j > 0 {
            assert addrs[1..][j - 1] == addrs[j];
          }
        }
      }
      Ok((rest.0, first.1 + rest.1))
  }
}

=== FILE: wrappers.dfy ===
/** Failure-compatible Option and Result types shared by every module of the model.
    A `Result` stands for a C function that either returns normally or raises a
    Ruby exception with `rb_raise`. */
module Wrappers {

  datatype Option<+T> = None | Some(value: T)

  datatype Result<+T, +E> = Ok(value: T) | Err(error: E) {

    predicate IsFailure() {
      Err?
    }

    function PropagateFailure<U>(): Result<U, E>
      requires Err?
    {
      Err(error)
    }

    function Extract(): T
      requires Ok?
    {
      value
    }
  }
}

/** Machine-level scalar types: bytes and 64-bit machine words (`VALUE`, `ID`). */
module Words {

  const WORD_SIZE: nat := 8
  const WORD_LIMIT: nat := 0x1_0000_0000_0000_0000

  type Byte = b: int | 0 <= b < 256

  /** The range of a C `int`, and the modulus its arithmetic wraps at. */
  const INT_MIN: int := -0x8000_0000
  const INT_MAX: int := 0x7fff_ffff
  const UINT_LIMIT: nat := 0x1_0000_0000

  /** An unsigned 64-bit machine word, as `VALUE` on the 64-bit platforms the extension targets. */
  type Word = w: int | 0 <= w < WORD_LIMIT

  /** The count left after one more item is consumed; a named step keeps the
      counts of recursive calls syntactically equal to the ones lemmas mention. */
  function Prev(n: nat): (r: nat)
    requires n > 0
    ensures r + 1 == n
  {
    n - 1
  }

  /** `b` to the power `e`. */
  function Pow(b: nat, e: nat): (r: nat)
    ensures b > 0 ==> r > 0
  {
    if e == 0 then 1 else b * Pow(b, e - 1)
  }

  lemma Pow256Word()
    ensures Pow(256, 8) == WORD_LIMIT
  {
    assert Pow(256, 2) == 65536;
    assert Pow(256, 4) == 65536 * 65536;
  }

  /** The C string seen by `strcmp`: the bytes before the first NUL. */
  function CString(s: seq<Byte>): (r: seq<Byte>)
    ensures |r| <= |s| && r == s[..|r|]
    ensures 0 !in r
    ensures |r| < |s| ==> s[|r|] == 0
  {
    if s == [] || s[0] == 0 then [] else [s[0]] + CString(s[1..])
  }

  /** Bytes without a NUL are their own C string. */
  lemma {:induction false} CStringOfText(s: seq<Byte>)
    requires 0 !in s
    ensures CString(s) == s
  {
    if s != [] {
      CStringOfText(s[1..]);
    }
  }

  /** Division by `m` is determined by any decomposition `v == m * q + r` with `0 <= r < m`. */
  lemma DivMod(v: nat, m: nat, q: nat, r: nat)
    requires m > 0 && v == m * q + r && r < m
    ensures v / m == q && v % m == r
  {
    DivUnique(v, m, q, r);
  }

  lemma DivUnique(v: nat, m: nat, q: nat, r: nat)
    requires m > 0 && v == m * q + r && r < m
    ensures v / m == q
  {
    var q' := v / m;
    var r' := v % m;
    assert v == m * q' + r';
    if q' > q {
      assert m * q' == m * q + m * (q' - q);
      MulAtLeast(m, q' - q);
    } else if q' < q {
      assert m * q == m * q' + m * (q - q');
      MulAtLeast(m, q - q');
    }
  }

  lemma MulAtLeast(m: nat, k: nat)
    requires k >= 1
    ensures m * k >= m
  {
    assert m * k == m + m * (k - 1);
  }
}
